=== FILE: README.md ===
# Cafe management system: the business rules as a Dafny model

This project models the core of a cafe ordering system. It covers the Express/Sequelize backend
(`cafe-management-system`) and the two React pages that build an order (`cafe`):

- **Tables.** A customer occupies a table, and staff release or update it.
- **Orders.** A customer places an order. The server resolves the table, prices every line from
  the menu, picks the total and estimates the preparation time. It writes the order and one row
  per item. Staff move orders and items through their statuses. Completing an order frees its
  table.
- **Payments.** A customer pays for their own order, once. Paying at the counter leaves the
  payment unpaid. Any other method completes it at once and gets a transaction id. Either way a
  pending order becomes confirmed. Staff change payment statuses, and the payment date is
  stamped only once.
- **Menu administration.** Admins create categories and menu items and update or delete items.
  An item with order history is only marked unavailable. Two listings filter on availability and
  rewrite `/api/` image paths.
- **Accounts.** Registration maps roles. Login refuses a caller in a fixed order. `verifyRole`
  and `updateProfile` are modelled too.
- **Helpers.** The response envelope, pagination, order numbers and image URLs.
- **The client.** The cart reducers, the displayed total, the order request, the quantity picker
  and "Add to Bag".

The database is one immutable value, `Db.Store`, with a `Relation.Rel` per table: rows keyed by
auto-increment ids. Each handler is a pure function from a store and a request to an `Outcome`.
An `Outcome` holds the HTTP status, the `{ success, message, data }` envelope and the store the
handler leaves behind.

Some things the source leaves to the outside world become parameters or schema rules:

- `Date.now()`, `new Date()` and `Math.random()` are parameters (`now`, `clock`, `rnd`, `suffix`).
  `createPayment` reads the clock twice, so the payment date (`now`) and the digits of the
  transaction id (`clock`) are separate parameters.
- The password comparison is the parameter `matches`.
- Every modelled refusal by the ORM or database ends in the handler's `catch`, which answers 500.
  The modelled refusals are an ENUM value outside its list, a NOT NULL column left empty, a
  string over its column width, a duplicate UNIQUE value, and (for `updateTable`) a dangling
  occupant. Each of them happens at the handler's first write, so nothing is written.
  `Schema.Build*` state when each `Model.create` succeeds. Range refusals of numeric columns are
  not modelled; see "Left out".

Modules, in dependency order:

| module | what it is |
|---|---|
| `Wrappers` | `Option` and JavaScript truthiness |
| `Text` | decimal numerals, trimming and padding |
| `Relation` | tables with an id counter, and `findOne`/`findAll` |
| `Helpers` | `utils/helpers.js` |
| `Image` | `utils/imageHelper.js` and the `/api/` rule |
| `Schema` | the five models |
| `Db` | the store and the schema invariant `Consistent` |
| `Tables`, `Orders`, `Payments`, `Menu`, `Auth` | the controllers |
| `Cart`, `Bag` | the two client pages |

## Model

| member | source | states |
|---|---|---|
| Helpers.FormatResponse | cafe-management-system/utils/helpers.js:15-21 | the envelope carries exactly the given success flag, message and data |
| Helpers.FormatResponseOmittedData | cafe-management-system/utils/helpers.js:15 | leaving `data` out sends `data: null` |
| Helpers.Paginate | cafe-management-system/utils/helpers.js:23-26 | the limit is kept; page 1 starts at offset 0; page p's window ends at p * limit |
| Helpers.PaginateDefaults | cafe-management-system/utils/helpers.js:23 | with no arguments the first ten rows are fetched |
| Helpers.PagesAdjacent | cafe-management-system/utils/helpers.js:24 | the next page starts exactly where this page ends |
| Helpers.PageOfIndex | cafe-management-system/utils/helpers.js:24 | every row index falls in the window of page index / limit + 1 |
| Helpers.PageCount | cafe-management-system/controllers/menuController.js:82 | `Math.ceil(count / limit)`: zero pages exactly for no rows; the pages cover all rows and none is empty |
| Helpers.OrderNumber | cafe-management-system/utils/helpers.js:9-13 | an order number starts with "ORD" and has 13 characters once the timestamp has eight digits, which fits the 20-character column |
| Helpers.OrderNumberDecodes | cafe-management-system/utils/helpers.js:9-13 | round trip: the middle of an order number reads back as the timestamp mod 10^8 and the last two characters as the random value |
| Text.TrimIdempotent | cafe-management-system/controllers/menuController.js:124 | trimming twice is trimming once |
| Text.DigitsRoundTrip | cafe-management-system/utils/helpers.js:10 | reading back a written number gives the number |
| Text.CanonicalRoundTrip | cafe-management-system/utils/helpers.js:10 | writing the value of a canonical numeral gives the numeral back |
| Text.TakeLastDigitsValue | cafe-management-system/utils/helpers.js:10 | `slice(-k)` of a number's digits denotes the number mod 10^k |
| Text.PadTwoRoundTrip | cafe-management-system/utils/helpers.js:11 | `padStart(2, '0')` of a value below 100 is two digits that read back as the value |
| Image.GetImageUrl | cafe-management-system/utils/imageHelper.js:18-31 | a falsy path gives null; an http(s) URL and a path not starting with '/' come back unchanged; a '/' path gets the base URL in front |
| Image.DefaultBaseIsIdentity | cafe-management-system/utils/imageHelper.js:18 | with the default empty base every non-empty path comes back unchanged |
| Image.GetImageUrlIdempotent | cafe-management-system/utils/imageHelper.js:18-31 | with an absolute base URL, resolving a resolved path changes nothing |
| Image.ApiImage | cafe-management-system/controllers/menuController.js:68-71 | only a stored image starting with `/api/` gets the request's base URL; every other value is sent as stored |
| Image.ApiImageIdempotent | cafe-management-system/controllers/menuController.js:352-355 | a base URL not starting with '/' is never prefixed twice |
| Schema.ParseOrderStatus | cafe-management-system/models/Order.js:36-39 | a status string is stored exactly when it names an ENUM value, and then as that value |
| Schema.ParseTableStatus | cafe-management-system/models/Table.js:20-23 | the same for the table status ENUM |
| Schema.ParsePaymentMethod | cafe-management-system/models/Payment.js:30-33 | the same for the payment method ENUM |
| Schema.ParsePaymentStatus | cafe-management-system/models/Payment.js:34-37 | the same for the payment status ENUM |
| Schema.EnumNamesRoundTrip | cafe-management-system/models/Order.js:36-47 | every ENUM value of the five models is accepted under its own name |
| Schema.BuildOrder | cafe-management-system/models/Order.js:10-47 | `Order.create` succeeds iff number (at most 20 characters), user and table are given; status defaults to pending, type to dine-in, total to 0 |
| Schema.BuildOrderItem | cafe-management-system/models/OrderItem.js:10-46 | `OrderItem.create` succeeds iff order, menu item, unit price and total price are given; quantity defaults to 1 and status to pending |
| Schema.BuildPayment | cafe-management-system/models/Payment.js:10-46 | `Payment.create` succeeds iff order, user, amount and method are given and a transaction id fits 100 characters; status defaults to pending |
| Schema.BuildTable | cafe-management-system/models/Table.js:10-35 | `Table.create` succeeds iff a number of at most 10 characters is given and the location fits 50; capacity defaults to 4 and status to available |
| Schema.BuildMenuItem | cafe-management-system/models/Menu.js:10-45 | `Menu.create` succeeds iff name (at most 100 characters), price and category are given; vegetarian defaults to false, available to true, preparation time to 15 |
| Relation.Insert | cafe-management-system/models/Order.js:5-9 | a created row gets the next, previously unused id and no other row changes |
| Relation.FindFirst | cafe-management-system/controllers/orderController.js:31 | `findOne` yields a matching row with no lower matching id, and nothing only when no row matches |
| Relation.Select | cafe-management-system/controllers/menuController.js:333-345 | `findAll` yields exactly the matching ids, each once, ascending |
| Tables.OccupyTable | cafe-management-system/controllers/tableController.js:44-74 | 404 iff the table is missing, 400 iff it is not available; otherwise only that row changes: it is occupied by the caller and keeps every other field |
| Tables.ReleaseTable | cafe-management-system/controllers/tableController.js:76-99 | 404 iff missing; otherwise the table is available with no occupant, keeps its notes, and nothing else changes |
| Tables.OccupyTableById | cafe-management-system/controllers/tableController.js:139-176 | 404/400 as for `occupyTable`; 500 iff `status \|\| 'occupied'` is outside the ENUM; on success the row has that status, the caller as occupant and the customer note |
| Tables.OccupancyNote | cafe-management-system/controllers/tableController.js:160 | the note names the customer when a name is given, and says "Occupied" otherwise |
| Tables.ReleaseTableById | cafe-management-system/controllers/tableController.js:178-203 | 404 iff missing; otherwise the table is available with no occupant and no notes, and nothing else changes |
| Tables.UpdateTable | cafe-management-system/controllers/tableController.js:116-137 | 404 iff missing; 500 iff the patched row has an unknown status, an over-long number or location, another table's number, or an occupant that is no stored user; otherwise exactly the patched row is written |
| Tables.OccupyTableKeepsConsistency | cafe-management-system/controllers/tableController.js:61-63 | occupying keeps the schema invariant |
| Tables.OccupyTableByIdKeepsConsistency | cafe-management-system/controllers/tableController.js:157-164 | occupying by id keeps the schema invariant |
| Tables.ReleaseKeepsConsistency | cafe-management-system/controllers/tableController.js:86-88 | both releases keep the schema invariant |
| Tables.UpdateTableKeepsConsistency | cafe-management-system/controllers/tableController.js:126 | an update that succeeds keeps the schema invariant |
| Tables.SecondOccupyRefused | cafe-management-system/controllers/tableController.js:55-59 | once occupied, a table is refused to everyone else (400) and nothing changes |
| Tables.OccupyReleaseRoundTrip | cafe-management-system/controllers/tableController.js:61-88 | occupying a free table and releasing it restores the store exactly |
| Tables.OccupyReleaseByIdRoundTrip | cafe-management-system/controllers/tableController.js:157-192 | the same round trip through the by-id handlers, for a table without notes |
| Tables.ReleaseByIdIdempotent | cafe-management-system/controllers/tableController.js:188-192 | releasing twice is releasing once |
| Tables.OccupyByIdCanLeaveTableFree | cafe-management-system/controllers/tableController.js:158 | a caller-chosen status "available" reports success but leaves the table free, so a second customer can take it over |
| Orders.ResolveTable | cafe-management-system/controllers/orderController.js:11-35 | an unknown explicit table id is the only 404; a dine-in number finds its table; otherwise the lowest-id table is taken; no table only when there are none |
| Orders.PriceLines | cafe-management-system/controllers/orderController.js:40-60 | all lines are priced iff every menu row exists and is available; each item carries the menu price and price × quantity; the subtotal is their sum; else the first bad line's id is reported |
| Orders.MaxPrep | cafe-management-system/controllers/orderController.js:71-77 | the result bounds every line's preparation time and is one of them, or 0 |
| Orders.PrepEstimate | cafe-management-system/controllers/orderController.js:78 | 15 when no item has a positive preparation time, else ten minutes over the slowest |
| Orders.FinalTotal | cafe-management-system/controllers/orderController.js:63 | a truthy client total wins, else the computed one |
| Orders.ComposeInstructions | cafe-management-system/controllers/orderController.js:85 | the stored instructions have no leading or trailing whitespace |
| Orders.CustomerNoted | cafe-management-system/controllers/orderController.js:85 | trimmed instructions followed by a customer name are stored as "instructions \| Customer: name", nothing lost |
| Orders.RequestedOrderType | cafe-management-system/controllers/orderController.js:86 | a missing type is stored as takeaway |
| Orders.InsertItems | cafe-management-system/controllers/orderController.js:90-95 | the item rows get consecutive fresh ids, in line order, and old rows are untouched |
| Orders.Prechecks | cafe-management-system/controllers/orderController.js:13-69 | the checks come in the source's order: table, then item availability, then non-empty items |
| Orders.CreateOrder | cafe-management-system/controllers/orderController.js:4-120 | 404 iff the table id is unknown; 400 iff an item is unavailable or none is given; 500 iff no table, a bad type or a taken number; on 201 exactly one order row and its priced items are added |
| Orders.CreateOrderKeepsConsistency | cafe-management-system/controllers/orderController.js:80-95 | placing an order keeps the schema invariant: fresh number, existing table, items pointing at the order and the menu |
| Orders.PlacedTotalMatchesItems | cafe-management-system/controllers/orderController.js:50-63 | without a client total, the order total equals the sum of its stored items' totals |
| Orders.ClientTotalIsTrusted | cafe-management-system/controllers/orderController.js:63 | any non-zero client total is stored as sent, whatever the menu prices |
| Orders.GetOrderById | cafe-management-system/controllers/orderController.js:164-203 | 404 iff missing; 403 iff the caller neither owns it nor is admin; otherwise the order |
| Orders.PlacedOrderReadable | cafe-management-system/controllers/orderController.js:4-203 | an order just placed is shown to the caller who placed it, exactly as stored, and refused with 403 to any other customer |
| Orders.UpdateOrderStatus | cafe-management-system/controllers/orderController.js:252-288 | 404 iff missing; 500 iff the status is outside the ENUM; else only the status changes, and "completed" also stamps the time and vacates the order's table |
| Orders.UpdateOrderItemStatus | cafe-management-system/controllers/orderController.js:290-313 | 404 iff missing; 500 iff outside the ENUM; else only that item's status changes |
| Orders.AnyStatusFromAny | cafe-management-system/controllers/orderController.js:276-277 | no state machine: any order can be put back to pending, keeping its completion time |
| Orders.CompletionFreesSharedTable | cafe-management-system/controllers/orderController.js:265-274 | completing one order frees the table while another order is still seated there |
| Orders.UpdateOrderStatusKeepsConsistency | cafe-management-system/controllers/orderController.js:265-277 | a status change keeps the schema invariant |
| Orders.UpdateOrderItemStatusKeepsConsistency | cafe-management-system/controllers/orderController.js:301-302 | an item status change keeps the schema invariant |
| Payments.PaymentOf | cafe-management-system/controllers/paymentController.js:21 | the lookup finds a payment of the order, and nothing only when none exists |
| Payments.TransactionId | cafe-management-system/controllers/paymentController.js:44 | a transaction id is "TXN", then the digits of `Date.now()`, then the suffix, each at its stated position |
| Payments.TransactionIdDecodes | cafe-management-system/controllers/paymentController.js:44 | the clock reading and the suffix can be read back from a transaction id |
| Payments.NewPayment | cafe-management-system/controllers/paymentController.js:29-46 | paying at the counter is unpaid, undated and without transaction id; any other method is completed, dated `new Date()`, with a TXN id built from `Date.now()`; the amount is the order's total |
| Payments.ConfirmIfPending | cafe-management-system/controllers/paymentController.js:48-51 | a pending order becomes confirmed; any other is unchanged |
| Payments.CreatePayment | cafe-management-system/controllers/paymentController.js:4-62 | 404 iff the order is missing or not the caller's; 400 iff it already has a payment; 500 iff the method or transaction id is refused; on 201 one payment is added and the order confirmed |
| Payments.GetPaymentByOrderId | cafe-management-system/controllers/paymentController.js:64-101 | 404 iff the order has no payment; a 200 shows a payment of that order to its payer or an admin |
| Payments.CreatedPaymentReadable | cafe-management-system/controllers/paymentController.js:4-101 | the payment just made is what the order's payment lookup shows its payer, and any other customer gets 403 |
| Payments.UpdatePaymentStatus | cafe-management-system/controllers/paymentController.js:184-222 | 404 iff missing; 500 iff outside the ENUM; else the status is set, notes are replaced only by non-empty ones, and a settling status dates an undated payment with now |
| Payments.CreatePaymentKeepsConsistency | cafe-management-system/controllers/paymentController.js:37-51 | paying keeps the schema invariant |
| Payments.CreatePaymentKeepsOnePayment | cafe-management-system/controllers/paymentController.js:21-26 | paying keeps every order to at most one payment |
| Payments.SecondPaymentRefused | cafe-management-system/controllers/paymentController.js:21-26 | a second payment for a paid order is refused (400) and changes nothing |
| Payments.SchemaAllowsTwoPayments | cafe-management-system/models/Payment.js:10-17 | the schema alone admits two payments for one order |
| Payments.PaymentDateStampedOnce | cafe-management-system/controllers/paymentController.js:207-209 | once dated, a payment keeps its date through later status changes |
| Payments.UpdatePaymentStatusIdempotent | cafe-management-system/controllers/paymentController.js:203-211 | repeating a status update changes nothing |
| Payments.UpdatePaymentStatusKeepsInvariants | cafe-management-system/controllers/paymentController.js:203-211 | a status update keeps the schema invariant and one payment per order |
| Menu.Truthy | cafe-management-system/controllers/menuController.js:178 | `Boolean(x)`: a boolean as is, text iff non-empty ("false" is true), null is false |
| Menu.TrimmedOrNull | cafe-management-system/controllers/menuController.js:132 | a falsy description is null, any other is trimmed |
| Menu.CreateCategory | cafe-management-system/controllers/menuController.js:120-152 | 400 iff the name is missing or blank; otherwise one active category with trimmed name and description is added |
| Menu.CreateMenuItem | cafe-management-system/controllers/menuController.js:154-209 | 400 iff a required field is falsy or the category is missing; 500 iff the trimmed name exceeds 100 characters; otherwise one row with the given fields and the defaults is added |
| Menu.UpdateMenuItem | cafe-management-system/controllers/menuController.js:211-282 | a falsy required field is 400 before the 404 lookup; on success availability and image are kept unless given, and vegetarian, preparation time and ingredients never change |
| Menu.DeleteMenuItem | cafe-management-system/controllers/menuController.js:284-325 | 404 iff missing; a row with order history is only marked unavailable; any other row is removed |
| Menu.Shown | cafe-management-system/controllers/menuController.js:66-73 | a listed row differs from the stored one only in its image, rewritten by the `/api/` rule |
| Menu.GetMenuItems | cafe-management-system/controllers/menuController.js:36-92 | exactly the rows matching availability, category and vegetarian filters are listed, each as shown |
| Menu.CategoryMenus | cafe-management-system/controllers/menuController.js:331-345 | a category's nested menus are exactly its rows, available ones unless `includeUnavailable` is "true" |
| Menu.GetCategoriesWithMenus | cafe-management-system/controllers/menuController.js:327-371 | exactly the active categories are listed, each with its nested menus |
| Menu.IncludeFlagReadings | cafe-management-system/controllers/menuController.js:44 | the two listings read `includeUnavailable` differently for any text besides "", "true" and "false" |
| Menu.BlankNameRules | cafe-management-system/controllers/menuController.js:124-179 | a blank name is refused for a category but stored empty for a menu item |
| Menu.DeleteMenuItemKeepsConsistency | cafe-management-system/controllers/menuController.js:295-307 | deleting keeps the schema invariant; no order item loses its menu row |
| Menu.CreateCategoryKeepsConsistency | cafe-management-system/controllers/menuController.js:130-134 | a new category keeps the schema invariant |
| Menu.MenuItemWritesKeepConsistency | cafe-management-system/controllers/menuController.js:172-252 | creating and updating menu items keep the schema invariant |
| Menu.DeleteMenuItemIdempotent | cafe-management-system/controllers/menuController.js:284-325 | deleting twice is deleting once |
| Auth.RegisteredRole | cafe-management-system/controllers/authController.js:16 | "user" and a missing role become "customer"; any other role is stored as sent |
| Auth.BackendRole | cafe-management-system/controllers/authController.js:148 | "user" is read as "customer"; anything else is unchanged |
| Auth.View | cafe-management-system/controllers/authController.js:28-29 | a reply carries every stored field but the password |
| Auth.ViewHidesPassword | cafe-management-system/controllers/authController.js:85-86 | a reply never depends on the stored password |
| Auth.UserByEmail | cafe-management-system/controllers/authController.js:8 | the lookup finds the lowest-id account with that email, and nothing only when none has it |
| Auth.Register | cafe-management-system/controllers/authController.js:4-43 | 400 iff the email is taken; otherwise one active account with the mapped role is added |
| Auth.RegisterKeepsEmailsUnique | cafe-management-system/controllers/authController.js:8-13 | registration keeps emails unique |
| Auth.LoginGateOf | cafe-management-system/controllers/authController.js:53-78 | the reason a login is refused, in the source's order: credentials, then active flag, then role |
| Auth.Login | cafe-management-system/controllers/authController.js:45-100 | 401 iff bad credentials or deactivated; 403 iff a role other than the stored one is named; a 200 stamps only `lastLogin` |
| Auth.VerifyRole | cafe-management-system/controllers/authController.js:143-174 | 200 iff the mapped required role is the caller's role; else 403 with the chosen message |
| Auth.UpdateProfile | cafe-management-system/controllers/authController.js:119-141 | only a non-empty name or phone replaces the stored one; a caller whose row is gone gets 500 |
| Auth.RegisterThenLogin | cafe-management-system/controllers/authController.js:4-100 | a fresh account logs in at once with its password and gets back its own id and role |
| Auth.DeactivatedBeforeRole | cafe-management-system/controllers/authController.js:59-65 | a deactivated account is refused as deactivated whatever role it names |
| Auth.LoginTakesRoleLiterally | cafe-management-system/controllers/authController.js:65-73 | login does not map "user" to "customer", so a customer naming "user" is refused although `verifyRole` admits them |
| Auth.UpdateProfileKeepsCredentials | cafe-management-system/controllers/authController.js:124-127 | a profile update changes no account's email, password, role or active flag |
| Auth.LoginKeepsCredentials | cafe-management-system/controllers/authController.js:80-81 | a login changes no account's credentials |
| Auth.UpdateProfileIdempotent | cafe-management-system/controllers/authController.js:124-127 | applying the same profile update twice is applying it once |
| Cart.Increase | cafe/src/Pages/Users/Cart.jsx:53-59 | lines with the id gain one; every other line is untouched |
| Cart.Decrease | cafe/src/Pages/Users/Cart.jsx:61-71 | no line is left at 0 or below; on a positive cart, lines with the id go down by one but not below 1 and nothing is removed |
| Cart.Remove | cafe/src/Pages/Users/Cart.jsx:78-83 | exactly the lines without the id remain |
| Cart.Clear | cafe/src/Pages/Users/Cart.jsx:85-89 | the cart is empty and totals 0 |
| Cart.Keep | cafe/src/Pages/Users/Cart.jsx:69 | `filter` keeps exactly the lines that pass the predicate |
| Cart.IncreaseTotal | cafe/src/Pages/Users/Cart.jsx:91 | increasing raises the total by the price of each line with the id |
| Cart.RemoveTotal | cafe/src/Pages/Users/Cart.jsx:78-91 | deleting takes exactly those lines' share off the total |
| Cart.RemoveKeepsOrder | cafe/src/Pages/Users/Cart.jsx:79 | deleting keeps the remaining lines in order |
| Cart.DecreaseUndoesIncrease | cafe/src/Pages/Users/Cart.jsx:53-71 | on a positive cart, one decrease undoes one increase |
| Cart.DecreaseKeepsLines | cafe/src/Pages/Users/Cart.jsx:66 | a line at 1 stays at 1 and is never removed |
| Cart.Payload | cafe/src/Pages/Users/Cart.jsx:102-111 | one item per line with its id and quantity, the cart total, the table number only for dine-in, a customer name only when non-empty |
| Cart.PlaceOrderEnabled | cafe/src/Pages/Users/Cart.jsx:257 | Place Order is disabled exactly for dine-in with a blank table number |
| Cart.PlacedPayloadHasItems | cafe/src/Pages/Users/Cart.jsx:144-259 | the button is rendered only under a non-empty cart, so a placed order sends at least one item, one per line |
| Cart.EnabledDineInSendsTable | cafe/src/Pages/Users/Cart.jsx:102-111 | an enabled dine-in order sends a non-blank table number |
| Cart.ServerTotalIsCartTotal | cafe/src/Pages/Users/Cart.jsx:102-111 | while the cart matches the menu, the server stores the cart total whether it trusts the client's figure or computes its own |
| Bag.PickMore | cafe/src/Pages/Users/MenuItems.jsx:78-83 | the picked amount goes up by one from 0 for an absent id; others are untouched |
| Bag.PickLess | cafe/src/Pages/Users/MenuItems.jsx:85-95 | the amount goes down by one, and an amount reaching 0 is removed |
| Bag.PickLessUndoesPickMore | cafe/src/Pages/Users/MenuItems.jsx:78-95 | down after up restores a picker of positive amounts |
| Bag.PickerStaysPositive | cafe/src/Pages/Users/MenuItems.jsx:78-95 | no sequence of presses stores an amount below 1 |
| Bag.ItemPrice | cafe/src/Pages/Users/MenuItems.jsx:41-65 | a listed name gets its table price, any other 99 rupees (amounts in paise) |
| Bag.ShownPrice | cafe/src/Pages/Users/MenuItems.jsx:108 | a price the page received is kept, even a zero one (it arrives as DECIMAL text such as "0.00", which is truthy); only a missing price falls back to the table |
| Bag.ShownPriceFollowsRow | cafe/src/Pages/Users/MenuItems.jsx:41-108 | a row shown with its database price is charged that price; a row shown without one is charged a table price or the default |
| Bag.FirstLine | cafe/src/Pages/Users/MenuItems.jsx:107 | `findIndex` gives the first line with the id, or none when no line has it |
| Bag.AddToBag | cafe/src/Pages/Users/MenuItems.jsx:97-119 | nothing picked changes nothing; otherwise the amount is added to the first line with the id, or a new line is appended at the shown price |
| Bag.AddToBagKeepsIdsUnique | cafe/src/Pages/Users/MenuItems.jsx:107-114 | adding never gives two lines the same id |
| Bag.AddToBagKeepsPositive | cafe/src/Pages/Users/MenuItems.jsx:110-114 | adding a positive amount keeps quantities positive |
| Bag.AddToBagTotal | cafe/src/Pages/Users/MenuItems.jsx:97-119 | the total rises by the picked amount at the price it is charged at |
| Bag.EnabledAddKeepsCartPriced | cafe/src/Pages/Users/MenuItems.jsx:193 | adding through an enabled button keeps the cart matching the menu |

## Left out

- HTTP wiring is not modelled: Express routing, authentication middleware and JWT tokens
  (`generateToken`). `req.user` is the parameter `Requester`, taken to name a stored user.
  `createOrder`, `createPayment` and the two occupy handlers write its id into columns that
  reference `users`. The model never refuses those writes, and `Db.Consistent` leaves out the
  references into `users`. `updateTable` takes its occupant from the request instead, so it does
  check that reference.
- Password hashing and `correctPassword` are not modelled. The comparison is the parameter
  `matches`.
- `Date.now()`, `new Date()` and `Math.random()` are parameters, not sources of values.
- Money is stored as integer minor units (paise). The DECIMAL(10, 2) columns and `parseFloat` /
  `parseInt` of request text are not modelled. Prices, quantities and ids arrive as integers.
  The one place where the text form matters is the menu page's `item.price || ...`: a DECIMAL
  reaches the page as text, so a zero price ("0.00") is truthy, and `Bag.ShownPrice` falls back
  only for a missing price. The page's price table is in whole rupees and is scaled to paise.
- `createOrder` with `items` missing, or with a line without `quantity`, is not modelled: lines
  always carry a quantity. In the source, missing `items` makes the `for ... of` loop throw, which
  answers 500 before any write. A line without `quantity` does not throw: its line total is NaN,
  and so is the order total when the client sends none. `Order.create` then runs with that
  total, and if the database accepts the order row but refuses the NaN line totals, the order is
  left behind without its items.
- The INTEGER columns are 32-bit and the DECIMAL(10, 2) columns hold at most 10 digits; neither
  range is modelled, and every `int` fits. In the source, a value out of range is refused with a
  500: for example a table `capacity` past INTEGER in `updateTable`. `Schema.BuildOrderItem`,
  `Schema.BuildTable` and `Tables.UpdateTable` therefore accept values the database refuses.
- Orders.CreateOrder: a line whose `quantity` is past the 32-bit INTEGER column, or whose line
  total is past DECIMAL(10, 2), is accepted here with 201 and every row. In the source,
  `Order.create` has already stored the order row when `OrderItem.create` is refused. The catch
  answers 500, and the order row stays behind without its items.
- Orders.CreateOrder: the data of a 201 reply is the new order's id. The source replies with the
  full order, including its items with their menu rows and its table, and the client passes that
  to the payment page. That nested read is not modelled; `Orders.PlacedOrderReadable` states what
  reading the order back gives.
- Requests run one at a time, each as one atomic step. Concurrent requests, and a crash between
  the several writes of `createOrder`, `createPayment` or `updateOrderStatus`, are not modelled.
- Sequelize's `ValidationError`, `UniqueConstraintError` and `ForeignKeyConstraintError` branches
  of the menu handlers are not modelled. These are the 400 replies for a duplicate category or
  item name. Only the column width of a name is a refusal here, and it answers 500.
- The text of a 500 reply is a fixed message. `error.message` is not modelled.
- The listings' text search (`LIKE`), their ordering by name, the page window applied to the
  query and the attribute projection of nested menus are not modelled. The listings return rows
  in id order, and a listed row carries every field.
- String comparison is exact, as in the production PostgreSQL dialect. The development dialect
  is MySQL, whose default collation compares case-insensitively. That affects the `where` on
  `tableNumber` and `email` and the UNIQUE index on `tableNumber`. There a dine-in order for
  "t01" finds table "T01", and registering "A@x" next to "a@x" is refused. Neither happens here.
- Request fields the handlers read without a default are modelled as always present: `status`
  of `updateOrderStatus`, `itemStatus` of `updateOrderItemStatus`, `paymentStatus` of
  `updatePaymentStatus`, `email` of `register` and `login`, and `orderId` of `createPayment`.
  In the source, a missing status is assigned as `undefined` before the save. Since the status
  columns are nullable, the result is a 200 with a null status or a driver error. A missing
  `email` or `orderId` puts `undefined` into a `where`, which Sequelize rejects with a 500.
- `findOne` without ORDER BY is taken to return the lowest matching id. This applies to the
  default table of `createOrder` and to the user, payment and order-item lookups.
- `Category.js` and `User.js` are not part of this model. A category has the fields the
  handlers use and is active when created. A user has no validation. A unique email is not a
  schema rule; only `register`'s lookup keeps emails apart.
- Not modelled: listings that only read and filter:
  - `getUserOrders`, `getAllOrders`, `getAllPayments`, `getUserPayments` and
    `getOrdersWithPayments`;
  - `getTables` and `getAvailableTables`;
  - `getCategories` and `getMenuItemById`;
  - `getMe`.
- `createTable` is not modelled as a handler. Its row rules are `Schema.BuildTable`.
- `validateImageUrl` and `getDefaultMenuImages` are not modelled: the first makes a network
  request and the second is a constant table of URLs.
- Page rendering, toasts, navigation and `localStorage` are not modelled. `AddToBag` takes the
  stored cart as a value.
- A non-positive `limit` is not modelled. `Helpers.PageCount` requires a positive limit, as
  `Math.ceil(count / 0)` is not a page count.
- Orders.ComposeInstructions: the contract states only that the result has no edge whitespace.
  The full composition is stated for the customer-name case by `Orders.CustomerNoted`.
- Payments.GetPaymentByOrderId: when an order has several payments (possible under the schema,
  `Payments.SchemaAllowsTwoPayments`), which one is shown is stated only through
  `Payments.PaymentOf`. The exact 200/403 split is stated for stores with one payment per order.
- Payments.TransactionId: the random suffix is a parameter of at most nine characters. Its
  base-36 alphabet is not modelled.

=== FILE: auth.dfy ===
/** The decisions of `controllers/authController.js`: the role a new account gets, the order in
    which `login` refuses a caller, the role check of `verifyRole`, and the fields
    `updateProfile` may change. Tokens and password hashing are outside the model; the password
    comparison is a parameter `matches(stored, candidate)`. */
module Auth {
  import opened Wrappers
  import opened Relation
  import opened Schema
  import opened Helpers
  import opened Db

  // ---------------------------------------------------------------- roles

  /** `role === 'user' ? 'customer' : (role || 'customer')`: the client's "user" is the stored
      "customer", a missing or empty role is "customer", and anything else, "admin" included, is
      stored as sent. */
  function RegisteredRole(role: Option<string>): (r: string)
    ensures role == Some("user") ==> r == "customer"
    ensures !TruthyStr(role) ==> r == "customer"
    ensures TruthyStr(role) && role.value != "user" ==> r == role.value
  {
    if role == Some("user") then "customer" else if TruthyStr(role) then role.value else "customer"
  }

  /** `requiredRole === 'user' ? 'customer' : requiredRole`; None stands for `undefined`. */
  function BackendRole(requiredRole: Option<string>): (r: Option<string>)
    ensures requiredRole == Some("user") ==> r == Some("customer")
    ensures requiredRole != Some("user") ==> r == requiredRole
  {
    if requiredRole == Some("user") then Some("customer") else requiredRole
  }

  /** The 403 message of `login`, chosen by the requested and the stored role. */
  function LoginDenial(requested: string, actual: string): string {
    if requested == "admin" && actual == "customer" then "Not authorized to access admin role"
    else if requested == "user" && actual == "admin" then "Not authorized to access user section"
    else "Access denied for " + requested + " role"
  }

  /** The 403 message of `verifyRole`, chosen by the mapped required role and the caller's role;
      the fallback names the role as sent, `undefined` when there was none. */
  function VerifyDenial(requiredRole: Option<string>, actual: string): string {
    if BackendRole(requiredRole) == Some("admin") && actual == "customer" then "Not authorized to access admin role"
    else if BackendRole(requiredRole) == Some("customer") && actual == "admin" then "Not authorized to access user section"
    else "Access denied for " + requiredRole.GetOr("undefined") + " role"
  }

  // ---------------------------------------------------------------- replies without the password

  /** `user.toJSON()` with `password` deleted. */
  datatype PublicUser = PublicUser(
    id: int, name: string, email: string, phone: Option<string>, role: string, isActive: bool, lastLogin: Option<int>)

  function View(id: int, u: User): (v: PublicUser)
    ensures v.id == id && v.name == u.name && v.email == u.email && v.phone == u.phone
    ensures v.role == u.role && v.isActive == u.isActive && v.lastLogin == u.lastLogin
  {
    PublicUser(id, u.name, u.email, u.phone, u.role, u.isActive, u.lastLogin)
  }

  /** A reply never depends on the stored password, so it cannot reveal it. */
  lemma ViewHidesPassword(id: int, u: User, p: string)
    ensures View(id, u) == View(id, u.(password := p))
  {
  }

  // ---------------------------------------------------------------- register

  /** `User.findOne({ where: { email } })`: the lowest id with that email. */
  function UserByEmail(users: Rel<User>, email: string): (k: Option<int>)
    ensures k.Some? ==> k.value in users.rows && users.rows[k.value].email == email
    ensures k.Some? ==> forall j :: j in users.rows && users.rows[j].email == email ==> k.value <= j
    ensures k.None? <==> forall j :: j in users.rows ==> users.rows[j].email != email
  {
    FindFirst(users, (u: User) => u.email == email)
  }

  /** Not a rule of this model's schema: only `register`'s own lookup keeps emails apart. */
  ghost predicate EmailsUnique(users: Rel<User>) {
    forall a, b | a in users.rows && b in users.rows :: users.rows[a].email == users.rows[b].email ==> a == b
  }

  datatype RegisterRequest = RegisterRequest(
    name: string, email: string, password: string, phone: Option<string>, role: Option<string>)

  /** `register`: a taken email is refused; otherwise a new active account with the mapped role. */
  function Register(s: Store, req: RegisterRequest): (o: Outcome<PublicUser>)
    ensures Coherent(o.response)
    ensures o.response.status == 400 <==> UserByEmail(s.users, req.email).Some?
    ensures o.response.status != 201 ==> o.store == s && o.response.status == 400
    ensures o.response.status == 201 ==>
              && var u := User(req.name, req.email, req.password, req.phone, RegisteredRole(req.role), true, None);
                 && o.store == s.(users := Insert(s.users, u))
                 && o.response.body.data == Some(View(s.users.nextId, u))
  {
    if UserByEmail(s.users, req.email).Some? then Outcome(Fail(400, "User already exists with this email"), s)
    else
      var u := User(req.name, req.email, req.password, req.phone, RegisteredRole(req.role), true, None);
      Outcome(Ok(201, "User registered successfully", View(s.users.nextId, u)), s.(users := Insert(s.users, u)))
  }

  lemma RegisterKeepsEmailsUnique(s: Store, req: RegisterRequest)
    requires EmailsUnique(s.users)
    ensures EmailsUnique(Register(s, req).store.users)
  {
  }

  // ---------------------------------------------------------------- login

  /** Why `login` refuses, in the order it checks. */
  datatype LoginGate = BadCredentials | Deactivated | WrongRole(requested: string, actual: string) | Admitted(id: int)

  function LoginGateOf(s: Store, email: string, password: string, role: Option<string>,
                       matches: (string, string) -> bool): (g: LoginGate)
    ensures g.BadCredentials? <==>
              UserByEmail(s.users, email).None? || !matches(s.users.rows[UserByEmail(s.users, email).value].password, password)
    ensures g.Deactivated? ==> !s.users.rows[UserByEmail(s.users, email).value].isActive
    ensures g.WrongRole? ==> && s.users.rows[UserByEmail(s.users, email).value].isActive
                             && TruthyStr(role) && g.requested == role.value
                             && g.actual == s.users.rows[UserByEmail(s.users, email).value].role != role.value
    ensures g.Admitted? ==> && UserByEmail(s.users, email) == Some(g.id)
                            && matches(s.users.rows[g.id].password, password)
                            && s.users.rows[g.id].isActive
                            && (!TruthyStr(role) || role.value == s.users.rows[g.id].role)
  {
    var k := UserByEmail(s.users, email);
    if k.None? || !matches(s.users.rows[k.value].password, password) then BadCredentials
    else
      var u := s.users.rows[k.value];
      if !u.isActive then Deactivated
      else if TruthyStr(role) && role.value != u.role then WrongRole(role.value, u.role)
      else Admitted(k.value)
  }

  /** `login`: wrong credentials and a deactivated account are both 401, checked in that order;
      a supplied role other than the stored one is 403. Success stamps `lastLogin` and changes
      nothing else. */
  function Login(s: Store, email: string, password: string, role: Option<string>, now: int,
                 matches: (string, string) -> bool): (o: Outcome<PublicUser>)
    ensures Coherent(o.response)
    ensures o.response.status != 200 ==> o.store == s
    ensures var g := LoginGateOf(s, email, password, role, matches);
              && (o.response.status == 401 <==> g.BadCredentials? || g.Deactivated?)
              && (o.response.status == 403 <==> g.WrongRole?)
              && (o.response.status == 200 <==> g.Admitted?)
              && (g.WrongRole? ==> o.response.body.message == LoginDenial(g.requested, g.actual))
              && (g.Admitted? ==>
                    && var u := s.users.rows[g.id].(lastLogin := Some(now));
                       && o.store == s.(users := Put(s.users, g.id, u))
                       && o.response.body.data == Some(View(g.id, u)))
  {
    match LoginGateOf(s, email, password, role, matches)
    case BadCredentials => Outcome(Fail(401, "Invalid email or password"), s)
    case Deactivated => Outcome(Fail(401, "Account is deactivated. Please contact administrator."), s)
    case WrongRole(requested, actual) => Outcome(Fail(403, LoginDenial(requested, actual)), s)
    case Admitted(id) =>
      var u := s.users.rows[id].(lastLogin := Some(now));
      Outcome(Ok(200, "Login successful", View(id, u)), s.(users := Put(s.users, id, u)))
  }

  // ---------------------------------------------------------------- verifyRole and updateProfile

  /** `verifyRole` for a caller whose token carries `role`: success iff the mapped required role
      is that role. A missing `requiredRole` is compared as `undefined` and never matches. */
  function VerifyRole(user: Requester, requiredRole: Option<string>): (r: Response<string>)
    ensures Coherent(r)
    ensures r.status == 200 <==> BackendRole(requiredRole) == Some(user.role)
    ensures r.status != 200 ==> r.status == 403
    ensures r.status == 200 ==> r.body.data == Some(user.role)
    ensures r.status == 403 ==> r.body.message == VerifyDenial(requiredRole, user.role)
  {
    if BackendRole(requiredRole) != Some(user.role) then Fail(403, VerifyDenial(requiredRole, user.role))
    else Ok(200, "Role verification successful", user.role)
  }

  /** `updateProfile`: only a non-empty name or phone replaces the stored one. A caller whose
      row is gone makes the handler throw (500). */
  function UpdateProfile(s: Store, userId: int, name: Option<string>, phone: Option<string>): (o: Outcome<PublicUser>)
    ensures Coherent(o.response)
    ensures o.response.status == 500 <==> userId !in s.users.rows
    ensures o.response.status != 200 ==> o.store == s && o.response.status == 500
    ensures o.response.status == 200 ==>
              && userId in s.users.rows && userId in o.store.users.rows
              && var before := s.users.rows[userId];
                 var u := o.store.users.rows[userId];
                 && o.store == s.(users := Put(s.users, userId, u))
                 && o.response.body.data == Some(View(userId, u))
                 && u.name == (if TruthyStr(name) then name.value else before.name)
                 && u.phone == (if TruthyStr(phone) then phone else before.phone)
                 && u.(name := before.name, phone := before.phone) == before
  {
    if userId !in s.users.rows then Outcome(Fail(500, "Server error while updating profile"), s)
    else
      var before := s.users.rows[userId];
      var u := before.(name := if TruthyStr(name) then name.value else before.name,
                       phone := if TruthyStr(phone) then phone else before.phone);
      Outcome(Ok(200, "Profile updated successfully", View(userId, u)), s.(users := Put(s.users, userId, u)))
  }

  // ---------------------------------------------------------------- properties

  /** Every password check that accepts the stored text itself. */
  ghost predicate Reflexive(matches: (string, string) -> bool) {
    forall p :: matches(p, p)
  }

  /** A fresh account can log in straight away with the password it registered, without naming
      a role, and gets back the account it created. */
  lemma RegisterThenLogin(s: Store, req: RegisterRequest, now: int, matches: (string, string) -> bool)
    requires Reflexive(matches)
    requires Register(s, req).response.status == 201
    ensures var s' := Register(s, req).store;
            var o := Login(s', req.email, req.password, None, now, matches);
              && o.response.status == 200
              && o.response.body.data.Some?
              && o.response.body.data.value.id == s.users.nextId
              && o.response.body.data.value.role == RegisteredRole(req.role)
              && o.response.body.data.value.lastLogin == Some(now)
  {
    var s' := Register(s, req).store;
    var k := UserByEmail(s'.users, req.email);
    assert s.users.nextId in s'.users.rows && s'.users.rows[s.users.nextId].email == req.email;
    assert k == Some(s.users.nextId) by {
      assert forall j :: j in s.users.rows ==> s.users.rows[j].email != req.email;
    }
    assert matches(req.password, req.password);
  }

  /** A deactivated account is refused as deactivated whatever role it names, before the role
      is looked at. */
  lemma DeactivatedBeforeRole(s: Store, email: string, password: string, role: Option<string>, now: int,
                              matches: (string, string) -> bool)
    requires UserByEmail(s.users, email).Some?
    requires var u := s.users.rows[UserByEmail(s.users, email).value]; matches(u.password, password) && !u.isActive
    ensures Login(s, email, password, role, now, matches).response.status == 401
    ensures Login(s, email, password, role, now, matches).response.body.message ==
              "Account is deactivated. Please contact administrator."
  {
  }

  /** Registration and role verification read the client's "user" as "customer"; login does
      not, so a customer naming "user" at login is refused even though `verifyRole` with "user"
      admits them. */
  lemma LoginTakesRoleLiterally(s: Store, email: string, password: string, now: int, matches: (string, string) -> bool)
    requires UserByEmail(s.users, email).Some?
    requires var u := s.users.rows[UserByEmail(s.users, email).value];
               matches(u.password, password) && u.isActive && u.role == "customer"
    ensures RegisteredRole(Some("user")) == "customer"
    ensures VerifyRole(Requester(UserByEmail(s.users, email).value, "customer"), Some("user")).status == 200
    ensures var o := Login(s, email, password, Some("user"), now, matches);
              o.response.status == 403 && o.response.body.message == "Access denied for user role"
  {
  }

  /** Every account of `a` is still in `b` with the same email, password, role and active flag,
      and `b` has no other account. */
  predicate CredentialsKept(a: Rel<User>, b: Rel<User>) {
    && b.rows.Keys == a.rows.Keys
    && forall k :: k in a.rows ==> SameCredentials(a.rows[k], b.rows[k])
  }

  predicate SameCredentials(a: User, b: User) {
    a.email == b.email && a.password == b.password && a.role == b.role && a.isActive == b.isActive
  }

  /** A profile update changes name and phone only: no account's credentials move. */
  lemma UpdateProfileKeepsCredentials(s: Store, userId: int, name: Option<string>, phone: Option<string>)
    ensures CredentialsKept(s.users, UpdateProfile(s, userId, name, phone).store.users)
  {
  }

  /** A login stamps the last-login time only: no account's credentials move. */
  lemma LoginKeepsCredentials(s: Store, email: string, password: string, role: Option<string>, now: int,
                              matches: (string, string) -> bool)
    ensures CredentialsKept(s.users, Login(s, email, password, role, now, matches).store.users)
  {
  }

  /** Applying the same profile update twice is the same as once. */
  lemma UpdateProfileIdempotent(s: Store, userId: int, name: Option<string>, phone: Option<string>)
    ensures var s' := UpdateProfile(s, userId, name, phone).store;
              UpdateProfile(s', userId, name, phone).store == s'
  {
  }
}

=== FILE: bag.dfy ===
/** The menu page of the client (`Pages/Users/MenuItems.jsx`): the per-item quantity picker, the
    by-name price fallback and the merge of a picked quantity into the stored cart. */
module Bag {
  import opened Wrappers
  import opened Relation
  import opened Schema
  import opened Cart

  // ---------------------------------------------------------------- the quantity picker

  /** `quantities`: picked amounts by menu id. */
  type Quantities = map<int, int>

  /** `quantities[id] || 0`. */
  function Picked(q: Quantities, id: int): int {
    if id in q then q[id] else 0
  }

  /** No stored amount is zero or negative. */
  predicate AllPositive(q: Quantities) {
    forall k :: k in q ==> q[k] > 0
  }

  /** `handleIncrease(id)`: an absent id counts as 0. */
  function PickMore(q: Quantities, id: int): (r: Quantities)
    ensures r.Keys == q.Keys + {id}
    ensures r[id] == Picked(q, id) + 1
    ensures forall k :: k in q && k != id ==> r[k] == q[k]
    ensures AllPositive(q) ==> AllPositive(r)
  {
    q[id := Picked(q, id) + 1]
  }

  /** `handleDecrease(id)`: a result of 0 or less removes the key instead of storing it. */
  function PickLess(q: Quantities, id: int): (r: Quantities)
    ensures id in r <==> Picked(q, id) > 1
    ensures id in r ==> r[id] == q[id] - 1
    ensures forall k :: k != id ==> (k in r <==> k in q)
    ensures forall k :: k in q && k != id ==> r[k] == q[k]
    ensures AllPositive(q) ==> AllPositive(r)
  {
    var n := Picked(q, id) - 1;
    if n <= 0 then q - {id} else q[id := n]
  }

  /** Going down after going up restores the picker, from any state with positive amounts. */
  lemma PickLessUndoesPickMore(q: Quantities, id: int)
    requires AllPositive(q)
    ensures PickLess(PickMore(q, id), id) == q
  {
    var r := PickLess(PickMore(q, id), id);
    assert r.Keys == q.Keys;
  }

  /** However the buttons are pressed, the picker never shows a stored amount below 1. */
  lemma PickerStaysPositive(q: Quantities, presses: seq<(int, bool)>)
    requires AllPositive(q)
    ensures AllPositive(Replay(q, presses))
    decreases |presses|
  {
    if presses != [] {
      PickerStaysPositive(if presses[0].1 then PickMore(q, presses[0].0) else PickLess(q, presses[0].0), presses[1..]);
    }
  }

  /** A sequence of presses, `true` for more and `false` for less. */
  function Replay(q: Quantities, presses: seq<(int, bool)>): Quantities
    decreases |presses|
  {
    if presses == [] then q
    else Replay(if presses[0].1 then PickMore(q, presses[0].0) else PickLess(q, presses[0].0), presses[1..])
  }

  // ---------------------------------------------------------------- prices

  /** `getItemPrice`'s table. The page writes whole rupees; like every amount in this model they
      are kept here in minor units (paise), so 99 rupees is 9900. */
  const PriceTable: map<string, int> := map[
    "Cappuccino" := 9900, "Americano" := 12900, "Espresso" := 14900, "Iced Coffee" := 19900,
    "Latte" := 11900, "Mocha" := 13900, "Classic Burger" := 19900, "Veggie Burger" := 14900,
    "Deluxe Burger" := 22900, "Chicken Sandwich" := 17900, "Club Sandwich" := 18900,
    "Caesar Salad" := 15900, "Pancakes" := 12900, "French Toast" := 13900, "Omelette" := 11900,
    "Chocolate Cake" := 9900, "Cheesecake" := 14900, "Ice Cream" := 7900,
    "Fresh Orange Juice" := 8900, "Smoothie" := 11900]

  /** The fallback price for a name the table does not list: 99 rupees. */
  const DefaultItemPrice := 9900

  /** `priceMap[itemName] || 99`. */
  function ItemPrice(name: string): (p: int)
    ensures name in PriceTable ==> p == PriceTable[name]
    ensures name !in PriceTable ==> p == DefaultItemPrice
    ensures 7900 <= p <= 22900
  {
    if name in PriceTable && PriceTable[name] != 0 then PriceTable[name] else DefaultItemPrice
  }

  /** `item.price || getItemPrice(item.name)`. The page receives a DECIMAL price as text, such as
      "0.00", which is truthy even for a zero price; so only a missing price falls back to the table. */
  function ShownPrice(price: Option<int>, name: string): (p: int)
    ensures price.Some? ==> p == price.value
    ensures price.None? ==> p == ItemPrice(name) && p > 0
  {
    if price.Some? then price.value else ItemPrice(name)
  }

  /** A row shown with its database price is charged that price, whatever the table says, and a
      row shown without one is charged a positive table price. */
  lemma ShownPriceFollowsRow(menu: Rel<MenuItem>, item: ShownItem)
    requires item.id in menu.rows && item.name == menu.rows[item.id].name
    ensures item.price == Some(menu.rows[item.id].price) ==> ShownPrice(item.price, item.name) == menu.rows[item.id].price
    ensures item.price.None? ==> ShownPrice(item.price, item.name) in PriceTable.Values + {DefaultItemPrice}
  {
    if item.price.None? && item.name in PriceTable {
      assert PriceTable[item.name] in PriceTable.Values;
    }
  }

  // ---------------------------------------------------------------- add to bag

  /** A menu row as the page received it. */
  datatype ShownItem = ShownItem(id: int, name: string, price: Option<int>, isAvailable: bool)

  /** The Add to Bag button is enabled exactly for available items. */
  predicate AddEnabled(item: ShownItem) {
    item.isAvailable
  }

  /** `storedCart.findIndex((i) => i.id === item.id)`, None for -1. */
  function FirstLine(cart: seq<CartLine>, id: int): (k: Option<nat>)
    ensures k.Some? ==> k.value < |cart| && cart[k.value].id == id
    ensures k.Some? ==> forall j :: 0 <= j < k.value ==> cart[j].id != id
    ensures k.None? <==> forall j :: 0 <= j < |cart| ==> cart[j].id != id
  {
    if cart == [] then None
    else if cart[0].id == id then Some(0)
    else
      var k := FirstLine(cart[1..], id);
      assert forall j :: 1 <= j < |cart| ==> cart[j] == cart[1..][j - 1];
      if k.None? then None else Some(k.value + 1)
  }

  /** `handleAddToBag(item)`: nothing is picked, nothing changes; otherwise the picked amount is
      added to the first line of that id, or a new line is appended at the shown price. */
  function AddToBag(cart: seq<CartLine>, q: Quantities, item: ShownItem): (r: seq<CartLine>)
    ensures Picked(q, item.id) == 0 ==> r == cart
    ensures Picked(q, item.id) != 0 && FirstLine(cart, item.id).Some? ==>
              && var k := FirstLine(cart, item.id).value;
                 && |r| == |cart|
                 && r[k] == cart[k].(quantity := cart[k].quantity + Picked(q, item.id))
                 && forall j :: 0 <= j < |cart| && j != k ==> r[j] == cart[j]
    ensures Picked(q, item.id) != 0 && FirstLine(cart, item.id).None? ==>
              r == cart + [CartLine(item.id, item.name, ShownPrice(item.price, item.name), Picked(q, item.id))]
  {
    var n := Picked(q, item.id);
    if n == 0 then cart
    else
      match FirstLine(cart, item.id)
      case Some(k) => cart[k := cart[k].(quantity := cart[k].quantity + n)]
      case None => cart + [CartLine(item.id, item.name, ShownPrice(item.price, item.name), n)]
  }

  /** Adding never gives two lines the same id. */
  lemma AddToBagKeepsIdsUnique(cart: seq<CartLine>, q: Quantities, item: ShownItem)
    requires UniqueIds(cart)
    ensures UniqueIds(AddToBag(cart, q, item))
  {
    var r := AddToBag(cart, q, item);
    if Picked(q, item.id) != 0 && FirstLine(cart, item.id).None? {
      forall i, j | 0 <= i < j < |r|
        ensures r[i].id != r[j].id
      {
        if j == |cart| {
          assert r[i] == cart[i];
        }
      }
    }
  }

  /** Adding a positive amount keeps the cart's quantities positive. */
  lemma AddToBagKeepsPositive(cart: seq<CartLine>, q: Quantities, item: ShownItem)
    requires Positive(cart) && AllPositive(q)
    ensures Positive(AddToBag(cart, q, item))
  {
  }

  /** The price the picked amount is charged at: that of the first line with the id, or the
      shown price of a new line. */
  function ChargedPrice(cart: seq<CartLine>, item: ShownItem): int {
    match FirstLine(cart, item.id)
    case Some(k) => cart[k].price
    case None => ShownPrice(item.price, item.name)
  }

  /** The total rises by the picked amount at the price it is charged at. */
  lemma AddToBagTotal(cart: seq<CartLine>, q: Quantities, item: ShownItem)
    ensures Total(AddToBag(cart, q, item)) == Total(cart) + ChargedPrice(cart, item) * Picked(q, item.id)
  {
    var n := Picked(q, item.id);
    var price := ChargedPrice(cart, item);
    if n == 0 {
      assert price * n == 0;
    } else if FirstLine(cart, item.id).Some? {
      var k := FirstLine(cart, item.id).value;
      var line := cart[k].(quantity := cart[k].quantity + n);
      assert AddToBag(cart, q, item) == cart[k := line];
      TotalReplace(cart, k, line);
      assert line.price * line.quantity == cart[k].price * cart[k].quantity + cart[k].price * n;
    } else {
      var line := CartLine(item.id, item.name, price, n);
      assert AddToBag(cart, q, item) == cart + [line];
      TotalAppend(cart, [line]);
      assert Total([line]) == line.price * n;
    }
  }

  /** Replacing one line changes the total by the difference of the two lines. */
  lemma {:induction false} TotalReplace(cart: seq<CartLine>, k: nat, line: CartLine)
    requires k < |cart|
    ensures Total(cart[k := line]) == Total(cart) - cart[k].price * cart[k].quantity + line.price * line.quantity
    decreases k
  {
    if k > 0 {
      assert cart[k := line][1..] == cart[1..][k - 1 := line];
      TotalReplace(cart[1..], k - 1, line);
    } else {
      assert cart[k := line][1..] == cart[1..];
    }
  }

  /** A row shown by the menu listing with its database price. */
  predicate ShownFrom(menu: Rel<MenuItem>, item: ShownItem) {
    && item.id in menu.rows
    && item.name == menu.rows[item.id].name
    && item.price == Some(menu.rows[item.id].price)
    && item.isAvailable == menu.rows[item.id].isAvailable
  }

  /** Adding through an enabled button keeps a cart that the server would price the same way:
      every line names an available menu row at its current price. */
  lemma EnabledAddKeepsCartPriced(menu: Rel<MenuItem>, cart: seq<CartLine>, q: Quantities, item: ShownItem)
    requires MatchesMenu(menu, cart) && ShownFrom(menu, item) && AddEnabled(item)
    ensures MatchesMenu(menu, AddToBag(cart, q, item))
  {
  }
}

=== FILE: cart.dfy ===
/** The cart page of the client (`Pages/Users/Cart.jsx`): the cart as a list of lines, the
    increase, decrease, delete and clear reducers, the displayed total, the order request it
    sends and the rule that enables Place Order. */
module Cart {
  import opened Wrappers
  import opened Text
  import opened Relation
  import opened Schema
  import Orders

  /** A stored cart line: the menu row as it was shown, with the chosen quantity. */
  datatype CartLine = CartLine(id: int, name: string, price: int, quantity: int)

  // ---------------------------------------------------------------- totals

  /** `cart.reduce((sum, item) => sum + item.price * item.quantity, 0)`. */
  function Total(cart: seq<CartLine>): int {
    if cart == [] then 0 else cart[0].price * cart[0].quantity + Total(cart[1..])
  }

  /** The part of the total owed to the lines with this id. */
  function TotalOf(cart: seq<CartLine>, id: int): int {
    if cart == [] then 0
    else (if cart[0].id == id then cart[0].price * cart[0].quantity else 0) + TotalOf(cart[1..], id)
  }

  /** The sum of the prices of the lines with this id. */
  function PriceOf(cart: seq<CartLine>, id: int): int {
    if cart == [] then 0 else (if cart[0].id == id then cart[0].price else 0) + PriceOf(cart[1..], id)
  }

  lemma {:induction false} TotalAppend(a: seq<CartLine>, b: seq<CartLine>)
    ensures Total(a + b) == Total(a) + Total(b)
    decreases |a|
  {
    if a == [] {
      assert a + b == b;
    } else {
      assert (a + b)[0] == a[0] && (a + b)[1..] == a[1..] + b;
      TotalAppend(a[1..], b);
    }
  }

  predicate Positive(cart: seq<CartLine>) {
    forall i :: 0 <= i < |cart| ==> cart[i].quantity > 0
  }

  predicate UniqueIds(cart: seq<CartLine>) {
    forall i, j :: 0 <= i < j < |cart| ==> cart[i].id != cart[j].id
  }

  // ---------------------------------------------------------------- filters

  /** `cart.filter(p)`. */
  function Keep(cart: seq<CartLine>, p: CartLine -> bool): (r: seq<CartLine>)
    ensures |r| <= |cart|
    ensures forall i :: 0 <= i < |r| ==> p(r[i]) && r[i] in cart
    ensures forall i :: 0 <= i < |cart| && p(cart[i]) ==> cart[i] in r
    ensures (forall i :: 0 <= i < |cart| ==> p(cart[i])) ==> r == cart
  {
    if cart == [] then []
    else
      var rest := Keep(cart[1..], p);
      assert forall i :: 1 <= i < |cart| ==> cart[i] == cart[1..][i - 1];
      if p(cart[0]) then [cart[0]] + rest else rest
  }

  lemma {:induction false} KeepAppend(a: seq<CartLine>, b: seq<CartLine>, p: CartLine -> bool)
    ensures Keep(a + b, p) == Keep(a, p) + Keep(b, p)
    decreases |a|
  {
    if a == [] {
      assert a + b == b;
    } else {
      assert (a + b)[0] == a[0] && (a + b)[1..] == a[1..] + b;
      KeepAppend(a[1..], b, p);
    }
  }

  // ---------------------------------------------------------------- reducers

  /** `handleIncrease(id)`: one more of every line with that id. */
  function Increase(cart: seq<CartLine>, id: int): (r: seq<CartLine>)
    ensures |r| == |cart|
    ensures forall i :: 0 <= i < |cart| && cart[i].id != id ==> r[i] == cart[i]
    ensures forall i :: 0 <= i < |cart| && cart[i].id == id ==> r[i] == cart[i].(quantity := cart[i].quantity + 1)
  {
    seq(|cart|, i requires 0 <= i < |cart| =>
      if cart[i].id == id then cart[i].(quantity := cart[i].quantity + 1) else cart[i])
  }

  /** The map step of `handleDecrease`: the line goes down by one but not below 1, and a line
      holding 0 or less is set to 1. */
  function Lowered(line: CartLine, id: int): CartLine {
    if line.id == id then line.(quantity := if line.quantity > 1 then line.quantity - 1 else 1) else line
  }

  /** `handleDecrease(id)`: lower the line, then drop lines whose quantity is not positive. */
  function Decrease(cart: seq<CartLine>, id: int): (r: seq<CartLine>)
    ensures Positive(r)
    ensures forall i :: 0 <= i < |cart| && cart[i].id == id ==> Lowered(cart[i], id) in r
    ensures Positive(cart) ==> |r| == |cart|
    ensures Positive(cart) ==> forall i :: 0 <= i < |cart| ==> r[i].(quantity := cart[i].quantity) == cart[i]
    ensures Positive(cart) ==> forall i :: 0 <= i < |cart| && cart[i].id == id ==>
              r[i].quantity == (if cart[i].quantity > 1 then cart[i].quantity - 1 else 1)
  {
    var lowered := LowerAll(cart, id);
    var r := Keep(lowered, InStock());
    assert Positive(cart) ==> forall i :: 0 <= i < |lowered| ==> InStock()(lowered[i]);
    r
  }

  /** `cart.map(...)` of `handleDecrease`. */
  function LowerAll(cart: seq<CartLine>, id: int): (r: seq<CartLine>)
    ensures |r| == |cart|
    ensures forall i :: 0 <= i < |cart| ==> r[i] == Lowered(cart[i], id)
  {
    seq(|cart|, i requires 0 <= i < |cart| => Lowered(cart[i], id))
  }

  /** The filter of `handleDecrease`. */
  function InStock(): (p: CartLine -> bool)
    ensures forall l :: p(l) == (l.quantity > 0)
  {
    (l: CartLine) => l.quantity > 0
  }

  /** `confirmDelete`: every line with that id goes; the others stay in order. */
  function Remove(cart: seq<CartLine>, id: int): (r: seq<CartLine>)
    ensures forall i :: 0 <= i < |r| ==> r[i].id != id && r[i] in cart
    ensures forall i :: 0 <= i < |cart| && cart[i].id != id ==> cart[i] in r
    ensures (forall i :: 0 <= i < |cart| ==> cart[i].id != id) ==> r == cart
  {
    Keep(cart, (l: CartLine) => l.id != id)
  }

  /** `handleClearCart`. */
  function Clear(cart: seq<CartLine>): (r: seq<CartLine>)
    ensures |r| == 0 && Total(r) == 0
  {
    []
  }

  // ---------------------------------------------------------------- reducer properties

  /** Increasing adds the price of each line with that id to the total. */
  lemma {:induction false} IncreaseTotal(cart: seq<CartLine>, id: int)
    ensures Total(Increase(cart, id)) == Total(cart) + PriceOf(cart, id)
    decreases |cart|
  {
    if cart != [] {
      assert Increase(cart, id)[1..] == Increase(cart[1..], id);
      IncreaseTotal(cart[1..], id);
    }
  }

  /** Deleting takes exactly the lines' share off the total. */
  lemma {:induction false} RemoveTotal(cart: seq<CartLine>, id: int)
    ensures Total(cart) == Total(Remove(cart, id)) + TotalOf(cart, id)
    decreases |cart|
  {
    if cart != [] {
      RemoveTotal(cart[1..], id);
      assert Remove(cart, id) == (if cart[0].id != id then [cart[0]] else []) + Remove(cart[1..], id) by {
        KeepAppend([cart[0]], cart[1..], (l: CartLine) => l.id != id);
        assert [cart[0]] + cart[1..] == cart;
      }
      TotalAppend(if cart[0].id != id then [cart[0]] else [], Remove(cart[1..], id));
    }
  }

  /** Deleting keeps the order of the remaining lines: it works piece by piece. */
  lemma RemoveKeepsOrder(a: seq<CartLine>, b: seq<CartLine>, id: int)
    ensures Remove(a + b, id) == Remove(a, id) + Remove(b, id)
  {
    KeepAppend(a, b, (l: CartLine) => l.id != id);
  }

  /** On a cart whose quantities are positive, one decrease undoes one increase. */
  lemma DecreaseUndoesIncrease(cart: seq<CartLine>, id: int)
    requires Positive(cart)
    ensures Decrease(Increase(cart, id), id) == cart
  {
    var up := Increase(cart, id);
    assert Positive(up);
    var r := Decrease(up, id);
    assert |r| == |cart|;
    forall i | 0 <= i < |cart|
      ensures r[i] == cart[i]
    {
      assert r[i].(quantity := up[i].quantity) == up[i];
    }
  }

  /** Decreasing never removes a line from a cart of positive quantities, and a line at 1 stays
      at 1. */
  lemma DecreaseKeepsLines(cart: seq<CartLine>, id: int, i: int)
    requires Positive(cart) && 0 <= i < |cart| && cart[i].id == id && cart[i].quantity == 1
    ensures |Decrease(cart, id)| == |cart|
    ensures Decrease(cart, id)[i] == cart[i]
  {
    var r := Decrease(cart, id);
    assert r[i].(quantity := cart[i].quantity) == cart[i];
  }

  // ---------------------------------------------------------------- placing the order

  /** `confirmOrder`'s request body: one `{menuItemId, quantity}` per line, the cart total, the
      table number only for dine-in, and the customer name only when non-empty. */
  function Payload(cart: seq<CartLine>, orderType: string, tableNumber: string, customerName: string)
    : (req: Orders.OrderRequest)
    ensures |req.items| == |cart|
    ensures forall i :: 0 <= i < |cart| ==>
              req.items[i].menuItemId == Some(cart[i].id) && req.items[i].quantity == cart[i].quantity
    ensures req.totalAmount == Some(Total(cart))
    ensures orderType == "dine-in" ==> req.tableNumber == Some(tableNumber)
    ensures orderType != "dine-in" ==> req.tableNumber.None?
    ensures req.customerName.Some? <==> customerName != ""
    ensures req.orderType == Some(orderType) && req.tableId.None?
  {
    Orders.OrderRequest(
      None,
      if orderType == "dine-in" then Some(tableNumber) else None,
      seq(|cart|, i requires 0 <= i < |cart| => Orders.LineRequest(Some(cart[i].id), None, cart[i].quantity, None)),
      None,
      Some(orderType),
      Some(Total(cart)),
      if customerName != "" then Some(customerName) else None)
  }

  /** The Place Order button: disabled exactly for a dine-in order whose table number is blank. */
  function PlaceOrderEnabled(orderType: string, tableNumber: string): (enabled: bool)
    ensures !enabled <==> orderType == "dine-in" && IsBlank(tableNumber)
  {
    !(orderType == "dine-in" && Trim(tableNumber) == [])
  }

  /** The Place Order button is rendered only below a non-empty cart; an empty cart shows a notice
      in its place. */
  predicate PlaceOrderShown(cart: seq<CartLine>) {
    |cart| > 0
  }

  /** An order placed through the button sends at least one item, and one per cart line. */
  lemma PlacedPayloadHasItems(cart: seq<CartLine>, orderType: string, tableNumber: string, customerName: string)
    requires PlaceOrderShown(cart) && PlaceOrderEnabled(orderType, tableNumber)
    ensures var req := Payload(cart, orderType, tableNumber, customerName);
              && |req.items| > 0
              && forall i :: 0 <= i < |cart| ==> req.items[i].menuItemId == Some(cart[i].id)
  {
  }

  /** An enabled dine-in order sends a table number with something besides spaces in it. */
  lemma EnabledDineInSendsTable(cart: seq<CartLine>, tableNumber: string, customerName: string)
    requires PlaceOrderEnabled("dine-in", tableNumber)
    ensures var req := Payload(cart, "dine-in", tableNumber, customerName);
              req.tableNumber.Some? && !IsBlank(req.tableNumber.value)
  {
  }

  /** Every line names an available menu row at its current price. */
  predicate MatchesMenu(menu: Rel<MenuItem>, cart: seq<CartLine>) {
    forall i :: 0 <= i < |cart| ==>
      cart[i].id in menu.rows && menu.rows[cart[i].id].isAvailable && menu.rows[cart[i].id].price == cart[i].price
  }

  lemma {:induction false} PayloadLinesTotal(menu: Rel<MenuItem>, cart: seq<CartLine>, orderType: string,
                                             tableNumber: string, customerName: string)
    requires MatchesMenu(menu, cart)
    ensures var ls := Payload(cart, orderType, tableNumber, customerName).items;
              && (forall i :: 0 <= i < |ls| ==> Orders.Orderable(menu, ls[i]))
              && Orders.LinesTotal(menu, ls) == Total(cart)
    decreases |cart|
  {
    var ls := Payload(cart, orderType, tableNumber, customerName).items;
    forall i | 0 <= i < |ls|
      ensures Orders.Orderable(menu, ls[i])
    {
      assert cart[i].id in menu.rows;
      assert Orders.LineMenuId(ls[i]) == Some(cart[i].id);
    }
    if cart != [] {
      var tail := Payload(cart[1..], orderType, tableNumber, customerName).items;
      assert ls[1..] == tail;
      PayloadLinesTotal(menu, cart[1..], orderType, tableNumber, customerName);
      assert Orders.LineMenuId(ls[0]) == Some(cart[0].id);
    }
  }

  /** When the cart still matches the menu, the total the server stores is the cart total whether
      it trusts the client's figure or, for a zero total, computes its own: the two agree. */
  lemma ServerTotalIsCartTotal(menu: Rel<MenuItem>, cart: seq<CartLine>, orderType: string,
                               tableNumber: string, customerName: string)
    requires MatchesMenu(menu, cart)
    ensures var req := Payload(cart, orderType, tableNumber, customerName);
              && (forall i :: 0 <= i < |req.items| ==> Orders.Orderable(menu, req.items[i]))
              && Orders.FinalTotal(req.totalAmount, Orders.LinesTotal(menu, req.items)) == Total(cart)
  {
    PayloadLinesTotal(menu, cart, orderType, tableNumber, customerName);
  }
}

=== FILE: db.dfy ===
/** The database as one value: a `Rel` per table. Each HTTP handler is a function from a store
    and a request to an `Outcome`, the reply it sends and the store it leaves behind; a request
    is one atomic step. */
module Db {
  import opened Relation
  import opened Schema
  import opened Helpers

  datatype Store = Store(
    users: Rel<User>,
    categories: Rel<Category>,
    menu: Rel<MenuItem>,
    tables: Rel<Table>,
    orders: Rel<Order>,
    orderItems: Rel<OrderItem>,
    payments: Rel<Payment>)

  /** The authenticated caller, `req.user`. */
  datatype Requester = Requester(id: int, role: string)

  predicate IsAdmin(u: Requester) {
    u.role == "admin"
  }

  datatype Outcome<T> = Outcome(response: Response<T>, store: Store)

  // ---------------------------------------------------------------- what the schema enforces

  ghost predicate OrderNumbersUnique(s: Store) {
    forall a, b | a in s.orders.rows && b in s.orders.rows ::
      s.orders.rows[a].orderNumber == s.orders.rows[b].orderNumber ==> a == b
  }

  ghost predicate TableNumbersUnique(s: Store) {
    forall a, b | a in s.tables.rows && b in s.tables.rows ::
      s.tables.rows[a].tableNumber == s.tables.rows[b].tableNumber ==> a == b
  }

  /** `transactionId` is nullable but UNIQUE: two payments never share a non-null id. */
  ghost predicate TransactionIdsUnique(s: Store) {
    forall a, b | a in s.payments.rows && b in s.payments.rows && s.payments.rows[a].transactionId.Some? ::
      s.payments.rows[a].transactionId == s.payments.rows[b].transactionId ==> a == b
  }

  ghost predicate RowsValid(s: Store) {
    && (forall k :: k in s.orders.rows ==> OrderRowValid(s.orders.rows[k]))
    && (forall k :: k in s.payments.rows ==> PaymentRowValid(s.payments.rows[k]))
    && (forall k :: k in s.tables.rows ==> TableRowValid(s.tables.rows[k]))
    && (forall k :: k in s.menu.rows ==> MenuRowValid(s.menu.rows[k]))
  }

  /** The REFERENCES clauses between the modelled tables, except those into `users`: every
      `Requester` is taken to name a stored user, so the handlers that write `req.user.id` are not
      refused for it. */
  ghost predicate ForeignKeysHold(s: Store) {
    && (forall k :: k in s.orders.rows ==> s.orders.rows[k].tableId in s.tables.rows)
    && (forall k :: k in s.orderItems.rows ==> s.orderItems.rows[k].orderId in s.orders.rows)
    && (forall k :: k in s.orderItems.rows ==> s.orderItems.rows[k].menuItemId in s.menu.rows)
    && (forall k :: k in s.payments.rows ==> s.payments.rows[k].orderId in s.orders.rows)
    && (forall k :: k in s.menu.rows ==> s.menu.rows[k].categoryId in s.categories.rows)
  }

  /** Every state the database can commit. */
  ghost predicate Consistent(s: Store) {
    && OrderNumbersUnique(s)
    && TableNumbersUnique(s)
    && TransactionIdsUnique(s)
    && RowsValid(s)
    && ForeignKeysHold(s)
  }

  /** Not a schema rule: `Payment.orderId` is not UNIQUE. Only the payment handler's own
      lookup keeps an order to one payment. */
  ghost predicate OnePaymentPerOrder(s: Store) {
    forall a, b | a in s.payments.rows && b in s.payments.rows ::
      s.payments.rows[a].orderId == s.payments.rows[b].orderId ==> a == b
  }

  // ---------------------------------------------------------------- edits that keep the schema

  /** `b` holds the same orders as `a`, with the same numbers and tables; other fields may differ. */
  ghost predicate SameOrderSkeleton(a: Rel<Order>, b: Rel<Order>) {
    && b.rows.Keys == a.rows.Keys
    && forall k :: k in a.rows ==> b.rows[k].orderNumber == a.rows[k].orderNumber && b.rows[k].tableId == a.rows[k].tableId
  }

  /** Changing orders in place, but not their numbers or tables, keeps a consistent store consistent. */
  lemma OrderEditsKeepConsistency(s: Store, orders: Rel<Order>)
    requires Consistent(s) && SameOrderSkeleton(s.orders, orders)
    ensures Consistent(s.(orders := orders))
  {
    var s' := s.(orders := orders);
    assert OrderNumbersUnique(s') by {
      forall a, b | a in s'.orders.rows && b in s'.orders.rows
        ensures s'.orders.rows[a].orderNumber == s'.orders.rows[b].orderNumber ==> a == b
      {
        assert a in s.orders.rows && b in s.orders.rows;
      }
    }
    assert RowsValid(s') by {
      forall k | k in s'.orders.rows ensures OrderRowValid(s'.orders.rows[k]) {
        assert k in s.orders.rows;
      }
    }
    assert ForeignKeysHold(s');
  }

  /** `b` holds the same tables as `a`, with the same numbers and locations. */
  ghost predicate SameTableSkeleton(a: Rel<Table>, b: Rel<Table>) {
    && b.rows.Keys == a.rows.Keys
    && forall k :: k in a.rows ==> b.rows[k].tableNumber == a.rows[k].tableNumber && b.rows[k].location == a.rows[k].location
  }

  /** Changing tables in place, but not their numbers or locations, keeps a consistent store consistent. */
  lemma TableEditsKeepConsistency(s: Store, tables: Rel<Table>)
    requires Consistent(s) && SameTableSkeleton(s.tables, tables)
    ensures Consistent(s.(tables := tables))
  {
    var s' := s.(tables := tables);
    assert TableNumbersUnique(s') by {
      forall a, b | a in s'.tables.rows && b in s'.tables.rows
        ensures s'.tables.rows[a].tableNumber == s'.tables.rows[b].tableNumber ==> a == b
      {
        assert a in s.tables.rows && b in s.tables.rows;
      }
    }
    assert RowsValid(s') by {
      forall k | k in s'.tables.rows ensures TableRowValid(s'.tables.rows[k]) {
        assert k in s.tables.rows;
      }
    }
    assert ForeignKeysHold(s');
  }

  /** `b` holds the same order items as `a`, for the same orders and menu rows. */
  ghost predicate SameItemSkeleton(a: Rel<OrderItem>, b: Rel<OrderItem>) {
    && b.rows.Keys == a.rows.Keys
    && forall k :: k in a.rows ==> b.rows[k].orderId == a.rows[k].orderId && b.rows[k].menuItemId == a.rows[k].menuItemId
  }

  /** Changing order items in place, but not what they refer to, keeps a consistent store consistent. */
  lemma ItemEditsKeepConsistency(s: Store, items: Rel<OrderItem>)
    requires Consistent(s) && SameItemSkeleton(s.orderItems, items)
    ensures Consistent(s.(orderItems := items))
  {
    var s' := s.(orderItems := items);
    assert ForeignKeysHold(s') by {
      forall k | k in s'.orderItems.rows
        ensures s'.orderItems.rows[k].orderId in s'.orders.rows && s'.orderItems.rows[k].menuItemId in s'.menu.rows
      {
        assert k in s.orderItems.rows;
      }
    }
  }

  /** `b` holds the same payments as `a`, for the same orders and with the same transaction ids. */
  ghost predicate SamePaymentSkeleton(a: Rel<Payment>, b: Rel<Payment>) {
    && b.rows.Keys == a.rows.Keys
    && forall k :: k in a.rows ==> b.rows[k].orderId == a.rows[k].orderId && b.rows[k].transactionId == a.rows[k].transactionId
  }

  /** Changing payments in place, but not their orders or transaction ids, keeps a consistent store
      consistent and every order to at most one payment. */
  lemma PaymentEditsKeepConsistency(s: Store, payments: Rel<Payment>)
    requires Consistent(s) && SamePaymentSkeleton(s.payments, payments)
    ensures Consistent(s.(payments := payments))
    ensures OnePaymentPerOrder(s) ==> OnePaymentPerOrder(s.(payments := payments))
  {
    var s' := s.(payments := payments);
    assert TransactionIdsUnique(s') by {
      forall a, b | a in s'.payments.rows && b in s'.payments.rows && s'.payments.rows[a].transactionId.Some?
        ensures s'.payments.rows[a].transactionId == s'.payments.rows[b].transactionId ==> a == b
      {
        assert a in s.payments.rows && b in s.payments.rows;
      }
    }
    assert RowsValid(s') by {
      forall k | k in s'.payments.rows ensures PaymentRowValid(s'.payments.rows[k]) {
        assert k in s.payments.rows;
      }
    }
    assert ForeignKeysHold(s') by {
      forall k | k in s'.payments.rows ensures s'.payments.rows[k].orderId in s'.orders.rows {
        assert k in s.payments.rows;
      }
    }
    if OnePaymentPerOrder(s) {
      forall a, b | a in s'.payments.rows && b in s'.payments.rows
        ensures s'.payments.rows[a].orderId == s'.payments.rows[b].orderId ==> a == b
      {
        assert a in s.payments.rows && b in s.payments.rows;
      }
    }
  }
}

=== FILE: helpers.dfy ===
/** The pure helpers of `utils/helpers.js`: the response envelope, pagination and the
    order-number format. `Date.now()` and `Math.random()` are parameters. */
module Helpers {
  import opened Wrappers
  import opened Text

  // ---------------------------------------------------------------- response envelope

  /** The JSON body every handler sends: `{ success, message, data }`. */
  datatype Envelope<T> = Envelope(success: bool, message: string, data: Option<T>)

  function FormatResponse<T>(success: bool, message: string, data: Option<T> := None): (e: Envelope<T>)
    ensures e.success == success && e.message == message && e.data == data
  {
    Envelope(success, message, data)
  }

  /** `formatResponse(success, message)` with `data` omitted sends `data: null`. */
  lemma FormatResponseOmittedData<T>(success: bool, message: string)
    ensures FormatResponse<T>(success, message).data == None
  {
  }

  /** An HTTP status code together with the envelope sent with it. */
  datatype Response<T> = Response(status: int, body: Envelope<T>)

  /** `res.status(status).json(formatResponse(true, message, data))`. */
  function Ok<T>(status: int, message: string, data: T): Response<T> {
    Response(status, FormatResponse(true, message, Some(data)))
  }

  /** A success reply whose envelope carries `data: null`. */
  function Done<T>(status: int, message: string): Response<T> {
    Response(status, FormatResponse(true, message))
  }

  /** `res.status(status).json(formatResponse(false, message))`. */
  function Fail<T>(status: int, message: string): Response<T> {
    Response(status, FormatResponse(false, message))
  }

  /** What every handler promises of its reply: the envelope says success exactly for 2xx codes,
      and a failure carries no data. */
  predicate Coherent<T>(r: Response<T>) {
    && (r.body.success <==> 200 <= r.status < 300)
    && (!r.body.success ==> r.body.data.None?)
  }

  // ---------------------------------------------------------------- pagination

  datatype Page = Page(limit: int, offset: int)

  /** `paginate(page = 1, limit = 10)`. */
  function Paginate(page: int := 1, limit: int := 10): (p: Page)
    ensures p.limit == limit
    ensures page == 1 ==> p.offset == 0
    ensures p.offset + limit == page * limit
  {
    Page(limit, (page - 1) * limit)
  }

  /** With the defaults, the first ten rows are fetched. */
  lemma PaginateDefaults()
    ensures Paginate() == Page(10, 0)
  {
  }

  /** Consecutive pages are adjacent windows: the next page starts where this one ends. */
  lemma PagesAdjacent(page: int, limit: int)
    ensures Paginate(page + 1, limit).offset == Paginate(page, limit).offset + limit
  {
  }

  /** Every row index lies in exactly the window of page `i / limit + 1`. */
  lemma PageOfIndex(i: nat, limit: int)
    requires limit > 0
    ensures var p := Paginate(i / limit + 1, limit); p.offset <= i < p.offset + p.limit
  {
    var p := Paginate(i / limit + 1, limit);
    assert p.offset == (i / limit) * limit;
  }

  /** `Math.ceil(count / limit)`, the page count the list handlers report. */
  function PageCount(count: nat, limit: int): (pages: nat)
    requires limit > 0
    ensures count == 0 <==> pages == 0
    ensures count <= pages * limit
    ensures pages > 0 ==> (pages - 1) * limit < count
  {
    var pages := (count + limit - 1) / limit;
    assert (pages - 1) * limit < count by {
      assert pages * limit <= count + limit - 1;
    }
    pages
  }

  // ---------------------------------------------------------------- order numbers

  /** `generateOrderNumber()` with `Date.now()` as `now` and `Math.floor(Math.random() * 100)` as
      `rnd`: "ORD", the last eight digits of the timestamp, the random value padded to two digits. */
  function OrderNumber(now: nat, rnd: nat): (s: string)
    requires rnd < 100
    ensures StartsWith(s, "ORD")
    ensures 6 <= |s| <= 13
    ensures now >= Pow10(7) ==> |s| == 13
  {
    PadTwoRoundTrip(rnd);
    assert now >= Pow10(7) ==> |Digits(now)| > 7 by {
      if now >= Pow10(7) { DigitsLengthBound(now, 7); }
    }
    "ORD" + TakeLast(Digits(now), 8) + PadStart(Digits(rnd), 2, '0')
  }

  lemma SplitThree(pre: string, mid: string, pad: string)
    requires |pre| == 3 && |pad| == 2
    ensures var s := pre + mid + pad; s[3..|s| - 2] == mid && s[|s| - 2..] == pad && s[3..] == mid + pad
  {
  }

  /** `s` carries `now` modulo 10^8 between its three-letter prefix and its last two
      characters, and `rnd` in those two. */
  predicate ReadsBack(s: string, now: nat, rnd: nat) {
    && |s| >= 5
    && AllDigits(s[3..|s| - 2]) && AllDigits(s[|s| - 2..])
    && DigitsValue(s[3..|s| - 2]) == now % Pow10(8)
    && DigitsValue(s[|s| - 2..]) == rnd
  }

  /** An order number can be read back: its middle is the timestamp modulo 10^8 and its last
      two characters are the random value. */
  lemma OrderNumberDecodes(now: nat, rnd: nat)
    requires rnd < 100
    ensures ReadsBack(OrderNumber(now, rnd), now, rnd)
  {
    var mid := TakeLast(Digits(now), 8);
    var pad := PadStart(Digits(rnd), 2, '0');
    PadTwoRoundTrip(rnd);
    TakeLastDigitsValue(now, 8);
    SplitThree("ORD", mid, pad);
    assert OrderNumber(now, rnd) == "ORD" + mid + pad;
  }
}

=== FILE: image.dfy ===
/** `getImageUrl` of `utils/imageHelper.js`, and the `/api/` prefix rule the menu listings
    apply to stored image paths. */
module Image {
  import opened Wrappers
  import opened Text

  predicate IsAbsoluteUrl(path: string) {
    StartsWith(path, "http://") || StartsWith(path, "https://")
  }

  /** `getImageUrl(imagePath, baseUrl = '')`. */
  function GetImageUrl(imagePath: Option<string>, baseUrl: string := ""): (r: Option<string>)
    ensures !TruthyStr(imagePath) ==> r.None?
    ensures TruthyStr(imagePath) && IsAbsoluteUrl(imagePath.value) ==> r == imagePath
    ensures TruthyStr(imagePath) && !IsAbsoluteUrl(imagePath.value) && StartsWith(imagePath.value, "/") ==>
              r == Some(baseUrl + imagePath.value)
    ensures TruthyStr(imagePath) && !StartsWith(imagePath.value, "/") ==> r == imagePath
  {
    if !TruthyStr(imagePath) then None
    else if IsAbsoluteUrl(imagePath.value) then imagePath
    else if StartsWith(imagePath.value, "/") then Some(baseUrl + imagePath.value)
    else imagePath
  }

  /** With the default empty base URL, every non-empty path comes back unchanged. */
  lemma DefaultBaseIsIdentity(path: string)
    requires path != ""
    ensures GetImageUrl(Some(path)) == Some(path)
  {
    assert "" + path == path;
  }

  lemma StartsWithConcat(a: string, b: string, p: string)
    requires StartsWith(a, p)
    ensures StartsWith(a + b, p)
  {
    assert (a + b)[..|p|] == a[..|p|];
  }

  /** When the base URL is itself absolute, resolving an already resolved path changes nothing. */
  lemma GetImageUrlIdempotent(path: Option<string>, baseUrl: string)
    requires IsAbsoluteUrl(baseUrl)
    ensures GetImageUrl(GetImageUrl(path, baseUrl), baseUrl) == GetImageUrl(path, baseUrl)
  {
    var r := GetImageUrl(path, baseUrl);
    if TruthyStr(path) && !IsAbsoluteUrl(path.value) && StartsWith(path.value, "/") {
      if StartsWith(baseUrl, "http://") {
        StartsWithConcat(baseUrl, path.value, "http://");
      } else {
        StartsWithConcat(baseUrl, path.value, "https://");
      }
    }
  }

  /** The menu listings' rule: only a stored path starting with `/api/` gets the request's
      `protocol://host` prepended; every other image, and a missing one, is sent as stored. */
  function ApiImage(image: Option<string>, baseUrl: string): (r: Option<string>)
    ensures TruthyStr(image) && StartsWith(image.value, "/api/") ==> r == Some(baseUrl + image.value)
    ensures !(TruthyStr(image) && StartsWith(image.value, "/api/")) ==> r == image
  {
    if TruthyStr(image) && StartsWith(image.value, "/api/") then Some(baseUrl + image.value) else image
  }

  /** A base URL that does not start with '/' (it starts with the protocol) is never prefixed twice. */
  lemma ApiImageIdempotent(image: Option<string>, baseUrl: string)
    requires baseUrl != [] && baseUrl[0] != '/'
    ensures ApiImage(ApiImage(image, baseUrl), baseUrl) == ApiImage(image, baseUrl)
  {
    if TruthyStr(image) && StartsWith(image.value, "/api/") {
      assert (baseUrl + image.value)[0] == baseUrl[0];
    }
  }
}

=== FILE: menu.dfy ===
/** The menu administration rules of `controllers/menuController.js`: creating categories and
    menu items, updating and deleting menu items, and the availability filter and image rule of
    the two listings. */
module Menu {
  import opened Wrappers
  import opened Text
  import opened Relation
  import opened Schema
  import opened Helpers
  import opened Image
  import opened Db

  // ---------------------------------------------------------------- request values

  /** A JSON body value passed through `Boolean(...)`: a boolean, a string (true unless empty,
      so "false" is true), or null. */
  datatype Flag = FlagBool(b: bool) | FlagText(text: string) | FlagNull

  function Truthy(f: Flag): (b: bool)
    ensures f.FlagBool? ==> b == f.b
    ensures f.FlagText? ==> (b <==> f.text != "")
    ensures f.FlagNull? ==> !b
  {
    match f
    case FlagBool(v) => v
    case FlagText(t) => t != ""
    case FlagNull => false
  }

  /** `description ? description.trim() : null`. */
  function TrimmedOrNull(d: Option<string>): (r: Option<string>)
    ensures !TruthyStr(d) ==> r.None?
    ensures TruthyStr(d) ==> r == Some(Trim(d.value))
  {
    if TruthyStr(d) then Some(Trim(d.value)) else None
  }

  // ---------------------------------------------------------------- createCategory

  datatype CategoryRequest = CategoryRequest(name: Option<string>, description: Option<string>, image: Option<string>)

  /** `createCategory`: a missing or blank name is refused; the stored name is trimmed. */
  function CreateCategory(s: Store, req: CategoryRequest): (o: Outcome<Category>)
    ensures Coherent(o.response)
    ensures o.response.status == 400 <==> req.name.None? || IsBlank(req.name.value)
    ensures o.response.status != 201 ==> o.store == s && o.response.status == 400
    ensures o.response.status == 201 ==>
              && o.response.body.data.Some?
              && var c := o.response.body.data.value;
                 && o.store == s.(categories := Insert(s.categories, c))
                 && c.name == Trim(req.name.value)
                 && c.name != [] && !IsSpace(c.name[0]) && !IsSpace(c.name[|c.name| - 1])
                 && c.description == TrimmedOrNull(req.description)
                 && c.image == req.image
                 && c.isActive
  {
    if req.name.None? || Trim(req.name.value) == [] then Outcome(Fail(400, "Category name is required"), s)
    else
      var c := Category(Trim(req.name.value), TrimmedOrNull(req.description), req.image, true);
      Outcome(Ok(201, "Category created successfully", c), s.(categories := Insert(s.categories, c)))
  }

  // ---------------------------------------------------------------- createMenuItem / updateMenuItem

  datatype MenuItemRequest = MenuItemRequest(
    name: Option<string>,
    description: Option<string>,
    price: Option<int>,
    categoryId: Option<int>,
    image: Option<string>,
    isAvailable: Option<Flag>)

  /** `!name || !price || !categoryId`: an empty name, a zero price or category 0 count as missing. */
  predicate MissingRequired(req: MenuItemRequest) {
    !TruthyStr(req.name) || !TruthyInt(req.price) || !TruthyInt(req.categoryId)
  }

  /** `createMenuItem`: the required fields, then the category, then the row. Availability
      defaults to true; the name is trimmed but not checked again, so a name of spaces is stored
      empty. A trimmed name over 100 characters is refused by the database (500). */
  function CreateMenuItem(s: Store, req: MenuItemRequest): (o: Outcome<MenuItem>)
    ensures Coherent(o.response)
    ensures o.response.status != 201 ==> o.store == s
    ensures o.response.status == 400 <==> MissingRequired(req) || req.categoryId.value !in s.categories.rows
    ensures o.response.status == 500 <==>
              && !MissingRequired(req) && req.categoryId.value in s.categories.rows
              && |Trim(req.name.value)| > MenuNameWidth
    ensures o.response.status == 201 ==>
              && !MissingRequired(req) && o.response.body.data.Some?
              && var m := o.response.body.data.value;
                 && o.store == s.(menu := Insert(s.menu, m))
                 && m.name == Trim(req.name.value)
                 && m.description == TrimmedOrNull(req.description)
                 && m.price == req.price.value
                 && m.categoryId == req.categoryId.value && m.categoryId in s.categories.rows
                 && m.image == req.image
                 && m.isAvailable == (req.isAvailable.None? || Truthy(req.isAvailable.value))
                 && !m.isVegetarian && m.preparationTime == 15 && m.ingredients.None?
  {
    if MissingRequired(req) then Outcome(Fail(400, "Name, price, and category are required"), s)
    else if req.categoryId.value !in s.categories.rows then Outcome(Fail(400, "Invalid category selected"), s)
    else
      var available := if req.isAvailable.Some? then Truthy(req.isAvailable.value) else true;
      var row := BuildMenuItem(MenuDraft(Some(Trim(req.name.value)), TrimmedOrNull(req.description),
                                         req.price, req.categoryId, req.image, None, Some(available), None, None));
      if row.None? then Outcome(Fail(500, "Server error while creating menu item"), s)
      else Outcome(Ok(201, "Menu item created successfully", row.value), s.(menu := Insert(s.menu, row.value)))
  }

  /** `updateMenuItem`: the required fields are checked before the item is looked up, so a bad
      body to a missing id is a 400, not a 404. Availability is kept when the body leaves it out,
      and the image is replaced only by a non-empty one; vegetarian flag, preparation time and
      ingredients are never touched. */
  function UpdateMenuItem(s: Store, id: int, req: MenuItemRequest): (o: Outcome<MenuItem>)
    ensures Coherent(o.response)
    ensures o.response.status != 200 ==> o.store == s
    ensures MissingRequired(req) ==> o.response.status == 400
    ensures !MissingRequired(req) ==>
              && (o.response.status == 404 <==> id !in s.menu.rows)
              && (o.response.status == 400 <==> id in s.menu.rows && req.categoryId.value !in s.categories.rows)
              && (o.response.status == 500 <==>
                    id in s.menu.rows && req.categoryId.value in s.categories.rows &&
                    |Trim(req.name.value)| > MenuNameWidth)
    ensures o.response.status == 200 ==>
              && !MissingRequired(req) && id in s.menu.rows && o.response.body.data.Some?
              && var before := s.menu.rows[id];
                 var m := o.response.body.data.value;
                 && o.store == s.(menu := Put(s.menu, id, m))
                 && m.name == Trim(req.name.value)
                 && m.description == TrimmedOrNull(req.description)
                 && m.price == req.price.value
                 && m.categoryId == req.categoryId.value && m.categoryId in s.categories.rows
                 && m.isAvailable == (if req.isAvailable.Some? then Truthy(req.isAvailable.value) else before.isAvailable)
                 && m.image == (if TruthyStr(req.image) then req.image else before.image)
                 && m.isVegetarian == before.isVegetarian
                 && m.preparationTime == before.preparationTime
                 && m.ingredients == before.ingredients
  {
    if MissingRequired(req) then Outcome(Fail(400, "Name, price, and category are required"), s)
    else if id !in s.menu.rows then Outcome(Fail(404, "Menu item not found"), s)
    else if req.categoryId.value !in s.categories.rows then Outcome(Fail(400, "Invalid category selected"), s)
    else
      var before := s.menu.rows[id];
      var m := before.(name := Trim(req.name.value),
                       description := TrimmedOrNull(req.description),
                       price := req.price.value,
                       categoryId := req.categoryId.value,
                       isAvailable := if req.isAvailable.Some? then Truthy(req.isAvailable.value) else before.isAvailable,
                       image := if TruthyStr(req.image) then req.image else before.image);
      if !MenuRowValid(m) then Outcome(Fail(500, "Server error while updating menu item"), s)
      else Outcome(Ok(200, "Menu item updated successfully", m), s.(menu := Put(s.menu, id, m)))
  }

  // ---------------------------------------------------------------- deleteMenuItem

  /** Whether some order item refers to the menu row `id`. */
  predicate HasOrderHistory(s: Store, id: int) {
    exists k :: k in s.orderItems.rows && s.orderItems.rows[k].menuItemId == id
  }

  /** `deleteMenuItem`: a menu row that some order item refers to is only marked unavailable;
      one without order history is removed. */
  function DeleteMenuItem(s: Store, id: int): (o: Outcome<MenuItem>)
    ensures Coherent(o.response)
    ensures o.response.status == 404 <==> id !in s.menu.rows
    ensures o.response.status != 200 ==> o.store == s && o.response.status == 404
    ensures o.response.status == 200 && HasOrderHistory(s, id) ==>
              && id in o.store.menu.rows
              && o.store == s.(menu := Put(s.menu, id, s.menu.rows[id].(isAvailable := false)))
              && !o.store.menu.rows[id].isAvailable
    ensures o.response.status == 200 && !HasOrderHistory(s, id) ==>
              && id !in o.store.menu.rows
              && o.store == s.(menu := Delete(s.menu, id))
  {
    if id !in s.menu.rows then Outcome(Fail(404, "Menu item not found"), s)
    else if FindFirst(s.orderItems, (it: OrderItem) => it.menuItemId == id).Some? then
      Outcome(Done(200, "Menu item marked as unavailable (has order history)"),
              s.(menu := Put(s.menu, id, s.menu.rows[id].(isAvailable := false))))
    else
      Outcome(Done(200, "Menu item deleted successfully"), s.(menu := Delete(s.menu, id)))
  }

  // ---------------------------------------------------------------- listings

  /** A menu row as the listings send it: an `/api/` image gets the request's base URL. */
  function Shown(m: MenuItem, baseUrl: string): (v: MenuItem)
    ensures v.(image := m.image) == m
    ensures v.image == ApiImage(m.image, baseUrl)
  {
    m.(image := ApiImage(m.image, baseUrl))
  }

  /** The rows satisfying `keep`, in id order, as sent: the j-th entry shows the j-th selected row. */
  function ListWhere(menu: Rel<MenuItem>, keep: MenuItem -> bool, baseUrl: string): (r: seq<MenuItem>)
    ensures var ids := Select(menu, keep);
              && |r| == |ids|
              && forall j :: 0 <= j < |r| ==> ids[j] in menu.rows && keep(menu.rows[ids[j]]) && r[j] == Shown(menu.rows[ids[j]], baseUrl)
    ensures forall k :: k in menu.rows && keep(menu.rows[k]) ==> Shown(menu.rows[k], baseUrl) in r
  {
    var ids := Select(menu, keep);
    var r := seq(|ids|, j requires 0 <= j < |ids| => Shown(menu.rows[ids[j]], baseUrl));
    assert forall k :: k in menu.rows && keep(menu.rows[k]) ==> Shown(menu.rows[k], baseUrl) in r by {
      forall k | k in menu.rows && keep(menu.rows[k])
        ensures Shown(menu.rows[k], baseUrl) in r
      {
        var j :| 0 <= j < |ids| && ids[j] == k;
        assert r[j] == Shown(menu.rows[k], baseUrl);
      }
    }
    r
  }

  /** The query string of `getMenuItems`. None is a parameter left out; `categoryId` filters
      whenever it is given, even as 0, since it arrives as a non-empty string. */
  datatype MenuQuery = MenuQuery(categoryId: Option<int>, vegetarian: Option<string>, includeUnavailable: Option<string>)

  /** `getMenuItems` lists unavailable items only when `includeUnavailable` is given, non-empty
      and not the text "false". */
  predicate ListsUnavailable(includeUnavailable: Option<string>) {
    TruthyStr(includeUnavailable) && includeUnavailable.value != "false"
  }

  predicate MatchesQuery(q: MenuQuery, m: MenuItem) {
    && (ListsUnavailable(q.includeUnavailable) || m.isAvailable)
    && (q.categoryId.None? || m.categoryId == q.categoryId.value)
    && (q.vegetarian.None? || m.isVegetarian == (q.vegetarian.value == "true"))
  }

  /** The query as a row filter. */
  function QueryFilter(q: MenuQuery): (keep: MenuItem -> bool)
    ensures forall m :: keep(m) == MatchesQuery(q, m)
  {
    m => MatchesQuery(q, m)
  }

  /** The rows `getMenuItems` returns, before the name search, ordering and paging. */
  function GetMenuItems(menu: Rel<MenuItem>, q: MenuQuery, baseUrl: string): (r: seq<MenuItem>)
    ensures forall j :: 0 <= j < |r| ==> ListsUnavailable(q.includeUnavailable) || r[j].isAvailable
    ensures forall j :: 0 <= j < |r| ==> q.categoryId.None? || r[j].categoryId == q.categoryId.value
    ensures forall k :: k in menu.rows && MatchesQuery(q, menu.rows[k]) ==> Shown(menu.rows[k], baseUrl) in r
    ensures forall j :: 0 <= j < |r| ==> exists k :: k in menu.rows && MatchesQuery(q, menu.rows[k]) && r[j] == Shown(menu.rows[k], baseUrl)
  {
    var r := ListWhere(menu, QueryFilter(q), baseUrl);
    forall j | 0 <= j < |r|
      ensures exists k :: k in menu.rows && MatchesQuery(q, menu.rows[k]) && r[j] == Shown(menu.rows[k], baseUrl)
    {
      var k := Select(menu, QueryFilter(q))[j];
      assert k in menu.rows && MatchesQuery(q, menu.rows[k]) && r[j] == Shown(menu.rows[k], baseUrl);
    }
    r
  }

  /** `getCategoriesWithMenus` lists unavailable items only for the exact text "true". */
  predicate CategoriesListUnavailable(includeUnavailable: Option<string>) {
    includeUnavailable == Some("true")
  }

  datatype CategoryWithMenus = CategoryWithMenus(id: int, category: Category, menus: seq<MenuItem>)

  /** The menus of category `id` as `getCategoriesWithMenus` nests them. */
  function CategoryMenus(menu: Rel<MenuItem>, id: int, includeUnavailable: Option<string>, baseUrl: string)
    : (r: seq<MenuItem>)
    ensures forall j :: 0 <= j < |r| ==> r[j].categoryId == id
    ensures forall j :: 0 <= j < |r| ==> CategoriesListUnavailable(includeUnavailable) || r[j].isAvailable
    ensures forall k | k in menu.rows && menu.rows[k].categoryId == id &&
                       (CategoriesListUnavailable(includeUnavailable) || menu.rows[k].isAvailable) ::
              Shown(menu.rows[k], baseUrl) in r
  {
    ListWhere(menu, (m: MenuItem) => m.categoryId == id && (CategoriesListUnavailable(includeUnavailable) || m.isAvailable),
              baseUrl)
  }

  /** Category `id` with its menus nested. */
  function Nest(categories: Rel<Category>, menu: Rel<MenuItem>, id: int, includeUnavailable: Option<string>, baseUrl: string): (c: CategoryWithMenus)
    requires id in categories.rows
    ensures c.id == id && c.category == categories.rows[id]
    ensures c.menus == CategoryMenus(menu, id, includeUnavailable, baseUrl)
  {
    CategoryWithMenus(id, categories.rows[id], CategoryMenus(menu, id, includeUnavailable, baseUrl))
  }

  /** The categories `ids`, in that order, with their menus nested. */
  function NestAll(categories: Rel<Category>, menu: Rel<MenuItem>, ids: seq<int>, includeUnavailable: Option<string>, baseUrl: string)
    : (r: seq<CategoryWithMenus>)
    requires forall j :: 0 <= j < |ids| ==> ids[j] in categories.rows
    ensures |r| == |ids|
    ensures forall j :: 0 <= j < |ids| ==> r[j].id == ids[j]
    ensures forall j :: 0 <= j < |ids| ==> r[j] == Nest(categories, menu, ids[j], includeUnavailable, baseUrl)
  {
    if ids == [] then []
    else [Nest(categories, menu, ids[0], includeUnavailable, baseUrl)] + NestAll(categories, menu, ids[1..], includeUnavailable, baseUrl)
  }

  /** The category filter of `getCategoriesWithMenus`. */
  function ActiveFilter(): (keep: Category -> bool)
    ensures forall c :: keep(c) == c.isActive
  {
    (c: Category) => c.isActive
  }

  /** `getCategoriesWithMenus`: every active category with its menus. */
  function GetCategoriesWithMenus(categories: Rel<Category>, menu: Rel<MenuItem>, includeUnavailable: Option<string>, baseUrl: string)
    : (r: seq<CategoryWithMenus>)
    ensures forall j :: 0 <= j < |r| ==> r[j].id in categories.rows && r[j].category == categories.rows[r[j].id]
    ensures forall j :: 0 <= j < |r| ==> r[j].category.isActive
    ensures forall j :: 0 <= j < |r| ==> r[j].menus == CategoryMenus(menu, r[j].id, includeUnavailable, baseUrl)
    ensures forall k :: k in categories.rows && categories.rows[k].isActive ==> NestsCategory(r, k)
  {
    var ids := Select(categories, ActiveFilter());
    var r := NestAll(categories, menu, ids, includeUnavailable, baseUrl);
    forall k | k in categories.rows && categories.rows[k].isActive
      ensures NestsCategory(r, k)
    {
      NestedIds(r, ids, k);
    }
    r
  }

  /** Some entry of `r` is category `k`. */
  predicate NestsCategory(r: seq<CategoryWithMenus>, k: int) {
    exists j :: 0 <= j < |r| && r[j].id == k
  }

  lemma NestedIds(r: seq<CategoryWithMenus>, ids: seq<int>, k: int)
    requires |r| == |ids| && forall j :: 0 <= j < |r| ==> r[j].id == ids[j]
    requires k in ids
    ensures NestsCategory(r, k)
  {
    var j :| 0 <= j < |ids| && ids[j] == k;
    assert r[j].id == k;
  }

  // ---------------------------------------------------------------- properties

  /** The two listings read the same flag differently: any non-empty text other than "false"
      and "true" shows unavailable items in one and hides them in the other. They agree on a
      missing flag, "true" and "false". */
  lemma IncludeFlagReadings(flag: string)
    ensures ListsUnavailable(None) == CategoriesListUnavailable(None) == false
    ensures ListsUnavailable(Some("true")) && CategoriesListUnavailable(Some("true"))
    ensures !ListsUnavailable(Some("false")) && !CategoriesListUnavailable(Some("false"))
    ensures flag != "" && flag != "true" && flag != "false" ==>
              ListsUnavailable(Some(flag)) && !CategoriesListUnavailable(Some(flag))
  {
  }

  /** A name of spaces is refused for a category but accepted, and stored empty, for a menu item. */
  lemma BlankNameRules(s: Store, categoryId: int, price: int)
    requires categoryId != 0 && categoryId in s.categories.rows && price != 0
    ensures CreateCategory(s, CategoryRequest(Some("  "), None, None)).response.status == 400
    ensures var o := CreateMenuItem(s, MenuItemRequest(Some("  "), None, Some(price), Some(categoryId), None, None));
              && o.response.status == 201
              && o.store.menu.rows[s.menu.nextId].name == ""
  {
    BlankTrim();
    var req := MenuItemRequest(Some("  "), None, Some(price), Some(categoryId), None, None);
    assert !MissingRequired(req);
    var o := CreateMenuItem(s, req);
    assert o.response.status == 201;
  }

  lemma BlankTrim()
    ensures IsBlank("  ") && Trim("  ") == []
  {
    assert IsSpace(' ');
  }

  /** Removing a menu row no order item refers to keeps a consistent store consistent. */
  lemma MenuRowRemovalKeepsConsistency(s: Store, id: int)
    requires Consistent(s) && !HasOrderHistory(s, id)
    ensures Consistent(s.(menu := Delete(s.menu, id)))
  {
    var s' := s.(menu := Delete(s.menu, id));
    forall k | k in s'.orderItems.rows
      ensures s'.orderItems.rows[k].menuItemId in s'.menu.rows
    {
      assert s.orderItems.rows[k].menuItemId != id;
    }
  }

  /** Deleting never breaks a reference: a row with order history stays, so every order item still
      points at a menu row, and the store stays consistent. */
  lemma DeleteMenuItemKeepsConsistency(s: Store, id: int)
    requires Consistent(s)
    ensures Consistent(DeleteMenuItem(s, id).store)
  {
    var o := DeleteMenuItem(s, id);
    if o.response.status == 200 {
      if HasOrderHistory(s, id) {
        MenuPutKeepsConsistency(s, id, s.menu.rows[id].(isAvailable := false));
      } else {
        MenuRowRemovalKeepsConsistency(s, id);
      }
    }
  }

  /** A new category keeps a consistent store consistent. */
  lemma CreateCategoryKeepsConsistency(s: Store, req: CategoryRequest)
    requires Consistent(s)
    ensures Consistent(CreateCategory(s, req).store)
  {
  }

  /** Adding a valid menu row whose category exists keeps a consistent store consistent. */
  lemma MenuInsertKeepsConsistency(s: Store, m: MenuItem)
    requires Consistent(s)
    requires MenuRowValid(m) && m.categoryId in s.categories.rows
    ensures Consistent(s.(menu := Insert(s.menu, m)))
  {
    var s' := s.(menu := Insert(s.menu, m));
    assert forall k :: k in s'.menu.rows ==> k == s.menu.nextId || s'.menu.rows[k] == s.menu.rows[k];
  }

  /** Replacing a menu row by a valid one whose category exists keeps a consistent store consistent. */
  lemma MenuPutKeepsConsistency(s: Store, id: int, m: MenuItem)
    requires Consistent(s) && id in s.menu.rows
    requires MenuRowValid(m) && m.categoryId in s.categories.rows
    ensures Consistent(s.(menu := Put(s.menu, id, m)))
  {
    var s' := s.(menu := Put(s.menu, id, m));
    assert forall k :: k in s'.menu.rows ==> k == id || s'.menu.rows[k] == s.menu.rows[k];
  }

  /** The two menu-item writes keep a consistent store consistent. */
  lemma MenuItemWritesKeepConsistency(s: Store, id: int, req: MenuItemRequest)
    requires Consistent(s)
    ensures Consistent(CreateMenuItem(s, req).store)
    ensures Consistent(UpdateMenuItem(s, id, req).store)
  {
    var c := CreateMenuItem(s, req);
    if c.response.status == 201 {
      MenuInsertKeepsConsistency(s, c.response.body.data.value);
    }
    var u := UpdateMenuItem(s, id, req);
    if u.response.status == 200 {
      MenuPutKeepsConsistency(s, id, u.response.body.data.value);
    }
  }

  /** Deleting twice leaves the store as deleting once: a removed row answers 404 the second
      time, and a row kept for its history is marked unavailable again. */
  lemma DeleteMenuItemIdempotent(s: Store, id: int)
    ensures DeleteMenuItem(DeleteMenuItem(s, id).store, id).store == DeleteMenuItem(s, id).store
  {
  }
}

=== FILE: orders.dfy ===
/** The order handlers of `controllers/orderController.js`: placing an order (table resolution,
    pricing from the menu, total, preparation estimate), reading one, and the two status updates. */
module Orders {
  import opened Wrappers
  import opened Text
  import opened Relation
  import opened Schema
  import opened Helpers
  import opened Db
  import Tables

  // ---------------------------------------------------------------- the request

  /** One entry of `items`: the menu id may come as `menuItemId` or `menuId`. */
  datatype LineRequest = LineRequest(
    menuItemId: Option<int>,
    menuId: Option<int>,
    quantity: int,
    specialInstructions: Option<string>)

  datatype OrderRequest = OrderRequest(
    tableId: Option<int>,
    tableNumber: Option<string>,
    items: seq<LineRequest>,
    specialInstructions: Option<string>,
    orderType: Option<string>,
    totalAmount: Option<int>,
    customerName: Option<string>)

  /** `item.menuItemId || item.menuId`. */
  function LineMenuId(l: LineRequest): Option<int> {
    if TruthyInt(l.menuItemId) then l.menuItemId else l.menuId
  }

  // ---------------------------------------------------------------- table resolution

  datatype TableChoice = NoSuchTable | Chosen(tableId: Option<int>)

  /** An explicit `tableId` must exist (else 404). Otherwise a dine-in order looks its table up by
      number; when that yields nothing, the table with the lowest id is taken, whatever its state
      and whatever the order type. Only an empty tables relation leaves no table at all. */
  function ResolveTable(tables: Rel<Table>, req: OrderRequest): (c: TableChoice)
    ensures c.NoSuchTable? <==> TruthyInt(req.tableId) && req.tableId.value !in tables.rows
    ensures TruthyInt(req.tableId) && req.tableId.value in tables.rows ==> c == Chosen(req.tableId)
    ensures c.Chosen? && c.tableId.Some? ==> c.tableId.value in tables.rows
    ensures c.Chosen? ==> (c.tableId.None? <==> tables.rows == map[])
    ensures !TruthyInt(req.tableId) && TruthyStr(req.tableNumber) && req.orderType == Some("dine-in") &&
            (exists k :: k in tables.rows && tables.rows[k].tableNumber == req.tableNumber.value) ==>
              c.Chosen? && c.tableId.Some? && tables.rows[c.tableId.value].tableNumber == req.tableNumber.value
    ensures !TruthyInt(req.tableId) && !(TruthyStr(req.tableNumber) && req.orderType == Some("dine-in")) ==>
              c.Chosen? && (c.tableId.Some? ==> forall k :: k in tables.rows ==> c.tableId.value <= k)
  {
    if TruthyInt(req.tableId) then
      if req.tableId.value in tables.rows then Chosen(req.tableId) else NoSuchTable
    else
      var byNumber :=
        if TruthyStr(req.tableNumber) && req.orderType == Some("dine-in") then
          var number := req.tableNumber.value;
          FindFirst(tables, (t: Table) => t.tableNumber == number)
        else None;
      if byNumber.Some? then Chosen(byNumber)
      else Chosen(FindFirst(tables, (t: Table) => true))
  }

  // ---------------------------------------------------------------- pricing

  /** A line can be ordered when its menu row exists and is available. */
  predicate Orderable(menu: Rel<MenuItem>, l: LineRequest) {
    var id := LineMenuId(l);
    id.Some? && id.value in menu.rows && menu.rows[id.value].isAvailable
  }

  /** An order-item row ready for insertion, priced from the menu at the time of ordering. */
  predicate PricedAs(menu: Rel<MenuItem>, l: LineRequest, orderId: int, item: OrderItem)
    requires Orderable(menu, l)
  {
    var id := LineMenuId(l).value;
    && item.orderId == orderId
    && item.menuItemId == id
    && item.quantity == l.quantity
    && item.unitPrice == menu.rows[id].price
    && item.totalPrice == LinePrice(menu, l)
    && item.specialInstructions == l.specialInstructions
    && item.itemStatus == ItemPending
  }

  /** Price times quantity of one orderable line, at the menu's current price. */
  function LinePrice(menu: Rel<MenuItem>, l: LineRequest): int
    requires Orderable(menu, l)
  {
    menu.rows[LineMenuId(l).value].price * l.quantity
  }

  /** The sum of the line prices: the total the order's items add up to. */
  ghost function LinesTotal(menu: Rel<MenuItem>, ls: seq<LineRequest>): int
    requires forall i :: 0 <= i < |ls| ==> Orderable(menu, ls[i])
  {
    if ls == [] then 0 else LinePrice(menu, ls[0]) + LinesTotal(menu, ls[1..])
  }

  function ItemOf(menu: Rel<MenuItem>, l: LineRequest, orderId: int): (item: OrderItem)
    requires Orderable(menu, l)
    ensures PricedAs(menu, l, orderId, item)
  {
    var id := LineMenuId(l).value;
    var price := menu.rows[id].price;
    BuildOrderItem(OrderItemDraft(Some(orderId), Some(id), Some(l.quantity), Some(price),
                                  Some(price * l.quantity), l.specialInstructions, None)).value
  }

  datatype Pricing = Priced(items: seq<OrderItem>, subtotal: int) | Unavailable(menuItemId: Option<int>)

  /** The first loop of `createOrder`: the first line whose menu item is missing or unavailable
      stops the order; otherwise every line is priced and the prices are summed. */
  function PriceLines(menu: Rel<MenuItem>, ls: seq<LineRequest>, orderId: int): (r: Pricing)
    ensures r.Priced? <==> forall i :: 0 <= i < |ls| ==> Orderable(menu, ls[i])
    ensures r.Priced? ==> |r.items| == |ls| && forall i :: 0 <= i < |ls| ==> PricedAs(menu, ls[i], orderId, r.items[i])
    ensures r.Priced? ==> r.subtotal == LinesTotal(menu, ls)
    ensures r.Unavailable? ==> exists i :: && 0 <= i < |ls| && !Orderable(menu, ls[i])
                                           && r.menuItemId == LineMenuId(ls[i])
                                           && forall j :: 0 <= j < i ==> Orderable(menu, ls[j])
  {
    if ls == [] then Priced([], 0)
    else if !Orderable(menu, ls[0]) then Unavailable(LineMenuId(ls[0]))
    else
      match PriceLines(menu, ls[1..], orderId)
      case Unavailable(id) =>
        Unavailable(id)
      case Priced(rest, sum) =>
        var item := ItemOf(menu, ls[0], orderId);
        Priced([item] + rest, item.totalPrice + sum)
  }

  /** The preparation time of an orderable line's menu item. */
  function PrepOf(menu: Rel<MenuItem>, l: LineRequest): int
    requires Orderable(menu, l)
  {
    menu.rows[LineMenuId(l).value].preparationTime
  }

  /** The second loop of `createOrder`: the largest preparation time over the lines, starting
      from 0. */
  function MaxPrep(menu: Rel<MenuItem>, ls: seq<LineRequest>): (m: int)
    requires forall i :: 0 <= i < |ls| ==> Orderable(menu, ls[i])
    ensures m >= 0
    ensures forall i :: 0 <= i < |ls| ==> PrepOf(menu, ls[i]) <= m
    ensures m == 0 || exists i :: 0 <= i < |ls| && PrepOf(menu, ls[i]) == m
  {
    if ls == [] then 0
    else
      var init := ls[..|ls| - 1];
      assert forall i :: 0 <= i < |init| ==> init[i] == ls[i];
      var before := MaxPrep(menu, init);
      var t := PrepOf(menu, ls[|ls| - 1]);
      if t > before then t else before
  }

  /** `maxTime > 0 ? maxTime + 10 : 15`: ten minutes over the slowest item, or 15 when no item
      has a positive preparation time. */
  function PrepEstimate(menu: Rel<MenuItem>, ls: seq<LineRequest>): (e: int)
    requires forall i :: 0 <= i < |ls| ==> Orderable(menu, ls[i])
    ensures (forall i :: 0 <= i < |ls| ==> PrepOf(menu, ls[i]) <= 0) ==> e == 15
    ensures (exists i :: 0 <= i < |ls| && PrepOf(menu, ls[i]) > 0) ==>
              && (forall i :: 0 <= i < |ls| ==> PrepOf(menu, ls[i]) <= e - 10)
              && (exists i :: 0 <= i < |ls| && PrepOf(menu, ls[i]) == e - 10)
  {
    var maxTime := MaxPrep(menu, ls);
    if maxTime > 0 then maxTime + 10 else 15
  }

  /** `totalAmount || calculatedTotal`: a truthy client total wins over the priced one. */
  function FinalTotal(client: Option<int>, calculated: int): (t: int)
    ensures TruthyInt(client) ==> t == client.value
    ensures !TruthyInt(client) ==> t == calculated
  {
    if TruthyInt(client) then client.value else calculated
  }

  /** The stored instructions: the order's own, then " | Customer: " and " | Table: " parts for
      the fields given, the whole trimmed. */
  function ComposeInstructions(si: Option<string>, customerName: Option<string>, tableNumber: Option<string>)
    : (r: string)
    ensures r == [] || (!IsSpace(r[0]) && !IsSpace(r[|r| - 1]))
  {
    Trim((if TruthyStr(si) then si.value else "") +
         (if TruthyStr(customerName) then " | Customer: " + customerName.value else "") +
         (if TruthyStr(tableNumber) then " | Table: " + tableNumber.value else ""))
  }

  /** With trimmed instructions and a customer name that does not end in a space, the stored
      text is the instructions followed by the customer part, and nothing is lost. */
  lemma CustomerNoted(si: string, name: string)
    requires si != [] && !IsSpace(si[0]) && !IsSpace(si[|si| - 1])
    requires name != [] && !IsSpace(name[|name| - 1])
    ensures ComposeInstructions(Some(si), Some(name), None) == si + " | Customer: " + name
  {
    var t := si + " | Customer: " + name;
    assert t[0] == si[0] && t[|t| - 1] == name[|name| - 1];
    assert si + " | Customer: " + name + "" == t;
    TrimOfTrimmed(t);
  }

  /** `orderType || 'takeaway'`: an order without a type is stored as takeaway, although the
      column's own default is dine-in. */
  function RequestedOrderType(orderType: Option<string>): (name: string)
    ensures TruthyStr(orderType) ==> name == orderType.value
    ensures !TruthyStr(orderType) ==> name == "takeaway"
  {
    if TruthyStr(orderType) then orderType.value else "takeaway"
  }

  /** Whether some stored order already has this number. */
  predicate NumberInUse(orders: Rel<Order>, number: string) {
    exists k :: k in orders.rows && orders.rows[k].orderNumber == number
  }

  /** The ids `from`, `from + 1`, ..., `from + n - 1`. */
  function IdRange(from: int, n: nat): (ids: set<int>)
    ensures forall i :: i in ids <==> from <= i < from + n
    decreases n
  {
    if n == 0 then {} else {from} + IdRange(from + 1, n - 1)
  }

  /** `OrderItem.create` for each priced item, in order: they receive consecutive ids. */
  function InsertItems(r: Rel<OrderItem>, items: seq<OrderItem>): (r': Rel<OrderItem>)
    ensures r'.nextId == r.nextId + |items|
    ensures r'.rows.Keys == r.rows.Keys + IdRange(r.nextId, |items|)
    ensures forall k :: k in r.rows ==> r'.rows[k] == r.rows[k]
    ensures forall i :: 0 <= i < |items| ==> r'.rows[r.nextId + i] == items[i]
    decreases |items|
  {
    if items == [] then r
    else
      var r1 := Insert(r, items[0]);
      InsertItems(r1, items[1..])
  }

  // ---------------------------------------------------------------- createOrder

  /** The checks `createOrder` makes before writing, in its order. */
  datatype Precheck = TableMissing | ItemUnavailable(id: Option<int>) | NoItems | Accepted

  function Prechecks(s: Store, req: OrderRequest): (p: Precheck)
    ensures p.TableMissing? <==> ResolveTable(s.tables, req).NoSuchTable?
    ensures p.ItemUnavailable? <==>
              && ResolveTable(s.tables, req).Chosen?
              && exists i :: 0 <= i < |req.items| && !Orderable(s.menu, req.items[i])
    ensures p.NoItems? <==> ResolveTable(s.tables, req).Chosen? && req.items == []
    ensures p.Accepted? <==>
              && ResolveTable(s.tables, req).Chosen?
              && req.items != []
              && forall i :: 0 <= i < |req.items| ==> Orderable(s.menu, req.items[i])
  {
    if ResolveTable(s.tables, req).NoSuchTable? then TableMissing
    else
      match PriceLines(s.menu, req.items, 0)
      case Unavailable(id) => ItemUnavailable(id)
      case Priced(_, _) => if req.items == [] then NoItems else Accepted
  }

  /** The order row built from an accepted request: generated number, caller, resolved table,
      pending status, requested type, total, estimate and composed instructions. */
  ghost predicate OrderRowFrom(s: Store, order: Order, user: Requester, req: OrderRequest, now: nat, rnd: nat)
    requires rnd < 100
    requires forall i :: 0 <= i < |req.items| ==> Orderable(s.menu, req.items[i])
  {
    && order.orderNumber == OrderNumber(now, rnd)
    && order.userId == user.id
    && ResolveTable(s.tables, req) == Chosen(Some(order.tableId))
    && order.status == Pending
    && OrderTypeName(order.orderType) == RequestedOrderType(req.orderType)
    && order.totalAmount == FinalTotal(req.totalAmount, LinesTotal(s.menu, req.items))
    && order.estimatedPreparationTime == Some(PrepEstimate(s.menu, req.items))
    && order.specialInstructions == Some(ComposeInstructions(req.specialInstructions, req.customerName, req.tableNumber))
    && order.completedAt.None?
  }

  /** The item rows written for order `orderId`: one per line, at consecutive ids from the
      counter, each priced from the menu; the rows already stored are untouched. */
  ghost predicate ItemsPlaced(menu: Rel<MenuItem>, before: Rel<OrderItem>, after: Rel<OrderItem>,
                              ls: seq<LineRequest>, orderId: int)
    requires forall i :: 0 <= i < |ls| ==> Orderable(menu, ls[i])
  {
    && after.rows.Keys == before.rows.Keys + IdRange(before.nextId, |ls|)
    && (forall k :: k in before.rows ==> after.rows[k] == before.rows[k])
    && (forall i :: 0 <= i < |ls| ==> PricedAs(menu, ls[i], orderId, after.rows[before.nextId + i]))
  }

  /** The state a successful `createOrder` leaves: one new order row and its item rows; nothing
      else changes. */
  ghost predicate OrderPlaced(s: Store, s': Store, user: Requester, req: OrderRequest, now: nat, rnd: nat)
    requires rnd < 100
  {
    && req.items != []
    && (forall i :: 0 <= i < |req.items| ==> Orderable(s.menu, req.items[i]))
    && s' == s.(orders := s'.orders, orderItems := s'.orderItems)
    && s'.orders.rows.Keys == s.orders.rows.Keys + {s.orders.nextId}
    && (forall k :: k in s.orders.rows ==> s'.orders.rows[k] == s.orders.rows[k])
    && OrderRowFrom(s, s'.orders.rows[s.orders.nextId], user, req, now, rnd)
    && ItemsPlaced(s.menu, s.orderItems, s'.orderItems, req.items, s.orders.nextId)
  }

  /** `OrderItem.create` per priced line writes exactly the rows `ItemsPlaced` describes. */
  lemma InsertItemsPlaces(menu: Rel<MenuItem>, r: Rel<OrderItem>, items: seq<OrderItem>, ls: seq<LineRequest>,
                          orderId: int)
    requires forall i :: 0 <= i < |ls| ==> Orderable(menu, ls[i])
    requires |items| == |ls|
    requires forall i :: 0 <= i < |ls| ==> PricedAs(menu, ls[i], orderId, items[i])
    ensures ItemsPlaced(menu, r, InsertItems(r, items), ls, orderId)
  {
    var r' := InsertItems(r, items);
    forall i | 0 <= i < |ls|
      ensures PricedAs(menu, ls[i], orderId, r'.rows[r.nextId + i])
    {
      assert r'.rows[r.nextId + i] == items[i];
    }
  }

  /** The writes of an accepted order, `Order.create` and then `OrderItem.create` per line,
      leave the state `OrderPlaced` describes. */
  lemma CommitPlacesOrder(s: Store, s': Store, user: Requester, req: OrderRequest, now: nat, rnd: nat,
                          order: Order, items: seq<OrderItem>)
    requires rnd < 100
    requires req.items != [] && forall i :: 0 <= i < |req.items| ==> Orderable(s.menu, req.items[i])
    requires OrderRowFrom(s, order, user, req, now, rnd)
    requires |items| == |req.items|
    requires forall i :: 0 <= i < |req.items| ==> PricedAs(s.menu, req.items[i], s.orders.nextId, items[i])
    requires s' == s.(orders := Insert(s.orders, order), orderItems := InsertItems(s.orderItems, items))
    ensures OrderPlaced(s, s', user, req, now, rnd)
  {
    InsertItemsPlaces(s.menu, s.orderItems, items, req.items, s.orders.nextId);
    assert s'.orders == Insert(s.orders, order);
  }

  /** `createOrder` with `now` and `rnd` standing for `Date.now()` and the random two digits of
      the order number. The data of a 201 reply is the new order's id. */
  function CreateOrder(s: Store, user: Requester, req: OrderRequest, now: nat, rnd: nat): (o: Outcome<int>)
    requires rnd < 100
    ensures Coherent(o.response)
    ensures o.response.status in {201, 400, 404, 500}
    ensures o.response.status != 201 ==> o.store == s
    ensures o.response.status == 404 <==> Prechecks(s, req).TableMissing?
    ensures o.response.status == 400 <==> Prechecks(s, req).ItemUnavailable? || Prechecks(s, req).NoItems?
    ensures o.response.status == 500 <==>
              && Prechecks(s, req).Accepted?
              && (|| ResolveTable(s.tables, req).tableId.None?
                  || ParseOrderType(RequestedOrderType(req.orderType)).None?
                  || NumberInUse(s.orders, OrderNumber(now, rnd)))
    ensures o.response.status == 201 ==>
              && Prechecks(s, req).Accepted?
              && o.response.body.data == Some(s.orders.nextId)
              && OrderPlaced(s, o.store, user, req, now, rnd)
  {
    var choice := ResolveTable(s.tables, req);
    if choice.NoSuchTable? then Outcome(Fail(404, "Table not found"), s)
    else
      var id := s.orders.nextId;
      match PriceLines(s.menu, req.items, id)
      case Unavailable(menuId) =>
        Outcome(Fail(400, "Menu item with ID " + (if menuId.Some? then IntText(menuId.value) else "undefined") +
                          " is not available"), s)
      case Priced(items, calculated) =>
        if req.items == [] then Outcome(Fail(400, "Order must contain at least one item"), s)
        else
          var orderType := ParseOrderType(RequestedOrderType(req.orderType));
          var number := OrderNumber(now, rnd);
          var draft := OrderDraft(Some(number), Some(user.id), choice.tableId,
                                  Some(FinalTotal(req.totalAmount, calculated)), None,
                                  Some(ComposeInstructions(req.specialInstructions, req.customerName, req.tableNumber)),
                                  orderType, Some(PrepEstimate(s.menu, req.items)), None);
          var order := BuildOrder(draft);
          if order.None? || orderType.None? || NumberInUse(s.orders, number) then
            Outcome(Fail(500, "Server error while creating order"), s)
          else
            var s' := s.(orders := Insert(s.orders, order.value), orderItems := InsertItems(s.orderItems, items));
            assert OrderRowFrom(s, order.value, user, req, now, rnd);
            CommitPlacesOrder(s, s', user, req, now, rnd, order.value, items);
            Outcome(Ok(201, "Order created successfully", id), s')
  }

  // ---------------------------------------------------------------- reading and updating

  /** `getOrderById`: 404 for a missing order, 403 unless the caller owns it or is an admin. */
  function GetOrderById(s: Store, user: Requester, id: int): (r: Response<Order>)
    ensures Coherent(r)
    ensures r.status == 404 <==> id !in s.orders.rows
    ensures r.status == 403 <==> id in s.orders.rows && s.orders.rows[id].userId != user.id && !IsAdmin(user)
    ensures r.status == 200 <==> id in s.orders.rows && (s.orders.rows[id].userId == user.id || IsAdmin(user))
    ensures r.status == 200 ==> r.body.data == Some(s.orders.rows[id])
  {
    if id !in s.orders.rows then Fail(404, "Order not found")
    else if s.orders.rows[id].userId != user.id && !IsAdmin(user) then Fail(403, "Not authorized to access this order")
    else Ok(200, "Order retrieved successfully", s.orders.rows[id])
  }

  /** An order just placed can be read back by the caller who placed it, and by no other
      customer. */
  lemma PlacedOrderReadable(s: Store, user: Requester, req: OrderRequest, now: nat, rnd: nat, other: Requester)
    requires rnd < 100
    requires CreateOrder(s, user, req, now, rnd).response.status == 201
    ensures var o := CreateOrder(s, user, req, now, rnd);
              var r := GetOrderById(o.store, user, o.response.body.data.value);
              r.status == 200 && r.body.data == Some(o.store.orders.rows[s.orders.nextId])
    ensures other.id != user.id && !IsAdmin(other) ==>
              GetOrderById(CreateOrder(s, user, req, now, rnd).store, other, s.orders.nextId).status == 403
  {
    var o := CreateOrder(s, user, req, now, rnd);
    assert OrderPlaced(s, o.store, user, req, now, rnd);
  }

  /** `updateOrderStatus`: any status the ENUM knows is accepted from any current status. Only
      "completed" stamps `completedAt` and frees the order's table (vacated, notes kept); a
      status outside the ENUM fails with 500 before anything is written. */
  function UpdateOrderStatus(s: Store, id: int, status: string, now: int): (o: Outcome<Order>)
    ensures Coherent(o.response)
    ensures o.response.status == 404 <==> id !in s.orders.rows
    ensures o.response.status == 500 <==> id in s.orders.rows && ParseOrderStatus(status).None?
    ensures o.response.status != 200 ==> o.store == s
    ensures o.response.status == 200 ==>
              && id in o.store.orders.rows
              && var order := o.store.orders.rows[id];
                 var before := s.orders.rows[id];
                 && OrderStatusName(order.status) == status
                 && order.(status := before.status, completedAt := before.completedAt) == before
                 && (order.status == Completed ==> order.completedAt == Some(now))
                 && (order.status != Completed ==> order.completedAt == before.completedAt)
                 && o.store.orders.rows.Keys == s.orders.rows.Keys
                 && o.store.orders.nextId == s.orders.nextId
                 && (forall k :: k in s.orders.rows && k != id ==> o.store.orders.rows[k] == s.orders.rows[k])
    ensures o.response.status == 200 ==>
              && (s.orders.rows[id].tableId !in s.tables.rows || status != "completed" ==>
                    o.store == s.(orders := o.store.orders))
              && (s.orders.rows[id].tableId in s.tables.rows && status == "completed" ==>
                    && o.store == s.(orders := o.store.orders, tables := o.store.tables)
                    && o.store.tables.rows.Keys == s.tables.rows.Keys
                    && (forall k :: k in s.tables.rows && k != s.orders.rows[id].tableId ==>
                          o.store.tables.rows[k] == s.tables.rows[k])
                    && o.store.tables.rows[s.orders.rows[id].tableId] ==
                         Tables.Vacate(s.tables.rows[s.orders.rows[id].tableId]))
  {
    if id !in s.orders.rows then Outcome(Fail(404, "Order not found"), s)
    else
      var order := s.orders.rows[id];
      var st := ParseOrderStatus(status);
      if st.None? then Outcome(Fail(500, "Server error while updating order status"), s)
      else if st.value == Completed then
        var order' := order.(status := Completed, completedAt := Some(now));
        var tables' :=
          if order.tableId in s.tables.rows then Put(s.tables, order.tableId, Tables.Vacate(s.tables.rows[order.tableId]))
          else s.tables;
        Outcome(Ok(200, "Order status updated successfully", order'),
                s.(orders := Put(s.orders, id, order'), tables := tables'))
      else
        var order' := order.(status := st.value);
        Outcome(Ok(200, "Order status updated successfully", order'), s.(orders := Put(s.orders, id, order')))
  }

  /** `updateOrderItemStatus`: the same unconditional overwrite for one order item. */
  function UpdateOrderItemStatus(s: Store, itemId: int, itemStatus: string): (o: Outcome<OrderItem>)
    ensures Coherent(o.response)
    ensures o.response.status == 404 <==> itemId !in s.orderItems.rows
    ensures o.response.status == 500 <==>
              itemId in s.orderItems.rows && ParseItemStatus(itemStatus).None?
    ensures o.response.status != 200 ==> o.store == s
    ensures o.response.status == 200 ==>
              && itemId in o.store.orderItems.rows
              && o.store == s.(orderItems := o.store.orderItems)
              && o.store.orderItems.rows.Keys == s.orderItems.rows.Keys
              && (forall k :: k in s.orderItems.rows && k != itemId ==> o.store.orderItems.rows[k] == s.orderItems.rows[k])
              && var item := o.store.orderItems.rows[itemId];
                 && item.(itemStatus := s.orderItems.rows[itemId].itemStatus) == s.orderItems.rows[itemId]
                 && ItemStatusName(item.itemStatus) == itemStatus
  {
    if itemId !in s.orderItems.rows then Outcome(Fail(404, "Order item not found"), s)
    else
      var item := s.orderItems.rows[itemId];
      var st := ParseItemStatus(itemStatus);
      if st.None? then Outcome(Fail(500, "Server error while updating order item status"), s)
      else
        var item' := item.(itemStatus := st.value);
        Outcome(Ok(200, "Order item status updated successfully", item'), s.(orderItems := Put(s.orderItems, itemId, item')))
  }

  // ---------------------------------------------------------------- properties

  /** Adding an order row with a fresh, fitting number and an existing table, and its items,
      keeps a consistent store consistent: every new item points at the new order and at an
      existing menu row. */
  lemma PlacedKeepsConsistency(s: Store, s': Store, ls: seq<LineRequest>)
    requires Consistent(s)
    requires forall i :: 0 <= i < |ls| ==> Orderable(s.menu, ls[i])
    requires s' == s.(orders := s'.orders, orderItems := s'.orderItems)
    requires s'.orders.rows.Keys == s.orders.rows.Keys + {s.orders.nextId}
    requires forall k :: k in s.orders.rows ==> s'.orders.rows[k] == s.orders.rows[k]
    requires OrderRowValid(s'.orders.rows[s.orders.nextId])
    requires s'.orders.rows[s.orders.nextId].tableId in s.tables.rows
    requires !NumberInUse(s.orders, s'.orders.rows[s.orders.nextId].orderNumber)
    requires ItemsPlaced(s.menu, s.orderItems, s'.orderItems, ls, s.orders.nextId)
    ensures Consistent(s')
  {
    var id := s.orders.nextId;
    var base := s.orderItems.nextId;
    forall k | k in s'.orderItems.rows
      ensures s'.orderItems.rows[k].orderId in s'.orders.rows
      ensures s'.orderItems.rows[k].menuItemId in s'.menu.rows
    {
      if k !in s.orderItems.rows {
        var i := k - base;
        assert k in IdRange(base, |ls|);
        assert PricedAs(s.menu, ls[i], id, s'.orderItems.rows[base + i]);
      }
    }
    assert forall k :: k in s.orders.rows ==> s'.orders.rows[k].orderNumber != s'.orders.rows[id].orderNumber;
    forall a, b | a in s'.orders.rows && b in s'.orders.rows &&
                  s'.orders.rows[a].orderNumber == s'.orders.rows[b].orderNumber
      ensures a == b
    {
      if a != id && b != id {
        assert a in s.orders.rows && b in s.orders.rows;
      }
    }
  }

  /** Placing an order keeps a consistent store consistent. */
  lemma CreateOrderKeepsConsistency(s: Store, user: Requester, req: OrderRequest, now: nat, rnd: nat)
    requires rnd < 100 && Consistent(s)
    ensures Consistent(CreateOrder(s, user, req, now, rnd).store)
  {
    var o := CreateOrder(s, user, req, now, rnd);
    if o.response.status == 201 {
      var s' := o.store;
      assert OrderPlaced(s, s', user, req, now, rnd);
      var order := s'.orders.rows[s.orders.nextId];
      assert OrderRowFrom(s, order, user, req, now, rnd);
      assert order.orderNumber == OrderNumber(now, rnd);
      assert !NumberInUse(s.orders, order.orderNumber);
      PlacedKeepsConsistency(s, s', req.items);
    }
  }

  /** The sum of `totalPrice` over the item rows `from`, ..., `from + n - 1`. */
  ghost function RowsTotal(r: Rel<OrderItem>, from: int, n: nat): int
    requires IdRange(from, n) <= r.rows.Keys
    decreases n
  {
    if n == 0 then 0
    else
      assert from in IdRange(from, n);
      r.rows[from].totalPrice + RowsTotal(r, from + 1, n - 1)
  }

  lemma {:induction false} RowsTotalOfPricedLines(menu: Rel<MenuItem>, ls: seq<LineRequest>, orderId: int,
                                                 r: Rel<OrderItem>, from: int)
    requires forall i :: 0 <= i < |ls| ==> Orderable(menu, ls[i])
    requires IdRange(from, |ls|) <= r.rows.Keys
    requires forall i :: 0 <= i < |ls| ==> from + i in r.rows && PricedAs(menu, ls[i], orderId, r.rows[from + i])
    ensures RowsTotal(r, from, |ls|) == LinesTotal(menu, ls)
    decreases |ls|
  {
    if ls != [] {
      assert PricedAs(menu, ls[0], orderId, r.rows[from + 0]);
      forall i | 0 <= i < |ls[1..]|
        ensures from + 1 + i in r.rows && PricedAs(menu, ls[1..][i], orderId, r.rows[from + 1 + i])
      {
        assert ls[1..][i] == ls[i + 1];
        assert from + (i + 1) in r.rows && PricedAs(menu, ls[i + 1], orderId, r.rows[from + (i + 1)]);
      }
      assert IdRange(from + 1, |ls| - 1) <= IdRange(from, |ls|);
      RowsTotalOfPricedLines(menu, ls[1..], orderId, r, from + 1);
    }
  }

  /** The items written for an order add up to the priced total of its lines. */
  lemma PlacedItemsTotal(menu: Rel<MenuItem>, before: Rel<OrderItem>, after: Rel<OrderItem>,
                         ls: seq<LineRequest>, orderId: int)
    requires forall i :: 0 <= i < |ls| ==> Orderable(menu, ls[i])
    requires ItemsPlaced(menu, before, after, ls, orderId)
    ensures IdRange(before.nextId, |ls|) <= after.rows.Keys
    ensures RowsTotal(after, before.nextId, |ls|) == LinesTotal(menu, ls)
  {
    var base := before.nextId;
    forall i | 0 <= i < |ls|
      ensures base + i in after.rows && PricedAs(menu, ls[i], orderId, after.rows[base + i])
    {
      assert base + i in IdRange(base, |ls|);
    }
    RowsTotalOfPricedLines(menu, ls, orderId, after, base);
  }

  /** Without a client total, the stored order total is exactly the sum of its stored items'
      totals. */
  lemma PlacedTotalMatchesItems(s: Store, user: Requester, req: OrderRequest, now: nat, rnd: nat)
    requires rnd < 100
    requires !TruthyInt(req.totalAmount)
    requires CreateOrder(s, user, req, now, rnd).response.status == 201
    ensures var s' := CreateOrder(s, user, req, now, rnd).store;
              && IdRange(s.orderItems.nextId, |req.items|) <= s'.orderItems.rows.Keys
              && s'.orders.rows[s.orders.nextId].totalAmount ==
                   RowsTotal(s'.orderItems, s.orderItems.nextId, |req.items|)
  {
    var s' := CreateOrder(s, user, req, now, rnd).store;
    assert OrderPlaced(s, s', user, req, now, rnd);
    PlacedItemsTotal(s.menu, s.orderItems, s'.orderItems, req.items, s.orders.nextId);
  }

  /** A truthy client total is stored as sent: an order for one item can be recorded at any
      non-zero amount, whatever the menu says. */
  lemma ClientTotalIsTrusted(s: Store, user: Requester, req: OrderRequest, now: nat, rnd: nat, claimed: int)
    requires rnd < 100 && claimed != 0
    requires CreateOrder(s, user, req, now, rnd).response.status == 201
    ensures var o := CreateOrder(s, user, req.(totalAmount := Some(claimed)), now, rnd);
              o.response.status == 201 && o.store.orders.rows[s.orders.nextId].totalAmount == claimed
  {
    var req' := req.(totalAmount := Some(claimed));
    assert ResolveTable(s.tables, req') == ResolveTable(s.tables, req);
    assert Prechecks(s, req') == Prechecks(s, req);
    var o := CreateOrder(s, user, req', now, rnd);
    assert o.response.status == 201;
    assert OrderRowFrom(s, o.store.orders.rows[s.orders.nextId], user, req', now, rnd);
  }

  /** Status changes follow no state machine: a completed or cancelled order can be put back to
      pending, and its completion time survives the change. */
  lemma AnyStatusFromAny(s: Store, id: int, now: int)
    requires id in s.orders.rows
    ensures var o := UpdateOrderStatus(s, id, "pending", now);
              && o.response.status == 200
              && o.store.orders.rows[id].status == Pending
              && o.store.orders.rows[id].completedAt == s.orders.rows[id].completedAt
  {
  }

  /** Completing an order frees its table even while another customer's order is seated there. */
  lemma CompletionFreesSharedTable(s: Store, id: int, other: int, now: int)
    requires id in s.orders.rows && other in s.orders.rows && other != id
    requires s.orders.rows[other].tableId == s.orders.rows[id].tableId
    requires s.orders.rows[id].tableId in s.tables.rows
    ensures var o := UpdateOrderStatus(s, id, "completed", now);
              && o.response.status == 200
              && o.store.tables.rows[s.orders.rows[other].tableId].status == Available
              && o.store.orders.rows[other] == s.orders.rows[other]
  {
  }

  /** Changing an order's status keeps a consistent store consistent: number, table and keys are
      untouched, and a released table keeps its number. */
  lemma UpdateOrderStatusKeepsConsistency(s: Store, id: int, status: string, now: int)
    requires Consistent(s)
    ensures Consistent(UpdateOrderStatus(s, id, status, now).store)
  {
    var o := UpdateOrderStatus(s, id, status, now);
    if o.response.status == 200 {
      var s1 := s.(orders := o.store.orders);
      assert SameOrderSkeleton(s.orders, o.store.orders);
      OrderEditsKeepConsistency(s, o.store.orders);
      if s.orders.rows[id].tableId in s.tables.rows && status == "completed" {
        assert SameTableSkeleton(s1.tables, o.store.tables);
        TableEditsKeepConsistency(s1, o.store.tables);
        assert o.store == s1.(tables := o.store.tables);
      }
    }
  }

  /** Changing an item's status keeps a consistent store consistent. */
  lemma UpdateOrderItemStatusKeepsConsistency(s: Store, itemId: int, itemStatus: string)
    requires Consistent(s)
    ensures Consistent(UpdateOrderItemStatus(s, itemId, itemStatus).store)
  {
    var o := UpdateOrderItemStatus(s, itemId, itemStatus);
    if o.store != s {
      assert o.store == s.(orderItems := o.store.orderItems);
      assert SameItemSkeleton(s.orderItems, o.store.orderItems);
      ItemEditsKeepConsistency(s, o.store.orderItems);
    }
  }
}

=== FILE: payments.dfy ===
/** The payment handlers of `controllers/paymentController.js`: paying for one's own order, reading
    an order's payment, and the status update. */
module Payments {
  import opened Wrappers
  import opened Text
  import opened Relation
  import opened Schema
  import opened Helpers
  import opened Db

  /** The payment of order `orderId`, as `Payment.findOne({ where: { orderId } })` finds it. */
  function PaymentOf(payments: Rel<Payment>, orderId: int): (k: Option<int>)
    ensures k.Some? ==> k.value in payments.rows && payments.rows[k.value].orderId == orderId
    ensures k.None? <==> forall j :: j in payments.rows ==> payments.rows[j].orderId != orderId
  {
    FindFirst(payments, (p: Payment) => p.orderId == orderId)
  }

  /** `TXN${Date.now()}${suffix}`, where `clock` is the millisecond clock and the suffix is up to
      nine random base-36 characters. */
  function TransactionId(clock: nat, suffix: string): (t: string)
    ensures StartsWith(t, "TXN")
    ensures |t| == 3 + |Digits(clock)| + |suffix|
    ensures t[3..3 + |Digits(clock)|] == Digits(clock) && t[3 + |Digits(clock)|..] == suffix
  {
    "TXN" + Digits(clock) + suffix
  }

  /** The clock reading and the suffix can be recovered from a transaction id. */
  lemma TransactionIdDecodes(clock: nat, suffix: string)
    ensures var t := TransactionId(clock, suffix);
            DigitsValue(t[3..3 + |Digits(clock)|]) == clock && t[3 + |Digits(clock)|..] == suffix
  {
    DigitsRoundTrip(clock);
  }

  /** Whether some stored payment already carries this transaction id. */
  predicate TransactionInUse(payments: Rel<Payment>, txn: string) {
    exists k :: k in payments.rows && payments.rows[k].transactionId == Some(txn)
  }

  /** The row `createPayment` writes for a payment method: paying at the counter leaves the payment unpaid,
      undated and without a transaction id; every other method is recorded as completed now. */
  function NewPayment(order: Order, orderId: int, user: Requester, payMethod: PaymentMethod, notes: Option<string>,
                      now: nat, clock: nat, suffix: string): (p: Payment)
    ensures p.orderId == orderId && p.userId == user.id && p.amount == order.totalAmount
    ensures p.paymentMethod == payMethod && p.notes == notes
    ensures payMethod == PayAtCounter <==> p.paymentStatus == Unpaid
    ensures payMethod == PayAtCounter <==> p.paymentDate.None?
    ensures payMethod == PayAtCounter <==> p.transactionId.None?
    ensures payMethod != PayAtCounter ==>
              && p.paymentStatus == PayCompleted
              && p.paymentDate == Some(now)
              && p.transactionId == Some(TransactionId(clock, suffix))
  {
    if payMethod == PayAtCounter then
      Payment(orderId, user.id, order.totalAmount, payMethod, Unpaid, None, None, notes)
    else
      Payment(orderId, user.id, order.totalAmount, payMethod, PayCompleted, Some(TransactionId(clock, suffix)), Some(now), notes)
  }

  /** The order after it has been paid for: a pending order is confirmed, any other is unchanged. */
  function ConfirmIfPending(order: Order): (o: Order)
    ensures order.status == Pending ==> o == order.(status := Confirmed)
    ensures order.status != Pending ==> o == order
  {
    if order.status == Pending then order.(status := Confirmed) else order
  }

  /** `createPayment`: only the owner of an order can pay for it (anyone else gets the same 404 as
      for a missing order), and only once. The amount is the order's stored total. `now` stands
      for `new Date()`, the payment date; `clock` and `suffix` for `Date.now()` and the random part of
      the transaction id, which the source reads separately. */
  function CreatePayment(s: Store, user: Requester, orderId: int, payMethod: string, notes: Option<string>,
                         now: nat, clock: nat, suffix: string): (o: Outcome<Payment>)
    requires |suffix| <= 9
    ensures Coherent(o.response)
    ensures o.response.status in {201, 400, 404, 500}
    ensures o.response.status != 201 ==> o.store == s
    ensures o.response.status == 404 <==> !(orderId in s.orders.rows && s.orders.rows[orderId].userId == user.id)
    ensures o.response.status == 400 <==>
              && orderId in s.orders.rows && s.orders.rows[orderId].userId == user.id
              && exists k :: k in s.payments.rows && s.payments.rows[k].orderId == orderId
    ensures o.response.status == 500 <==>
              && orderId in s.orders.rows && s.orders.rows[orderId].userId == user.id
              && (forall k :: k in s.payments.rows ==> s.payments.rows[k].orderId != orderId)
              && (|| ParsePaymentMethod(payMethod).None?
                  || (payMethod != "pay_at_counter" &&
                      (|TransactionId(clock, suffix)| > TransactionIdWidth ||
                       TransactionInUse(s.payments, TransactionId(clock, suffix)))))
    ensures o.response.status == 201 ==>
              && orderId in s.orders.rows
              && ParsePaymentMethod(payMethod).Some?
              && var p := NewPayment(s.orders.rows[orderId], orderId, user, ParsePaymentMethod(payMethod).value, notes, now, clock, suffix);
                 && o.response.body.data == Some(p)
                 && PaymentRowValid(p)
                 && (p.transactionId.Some? ==> !TransactionInUse(s.payments, p.transactionId.value))
                 && o.store == s.(payments := Insert(s.payments, p),
                                  orders := Put(s.orders, orderId, ConfirmIfPending(s.orders.rows[orderId])))
  {
    if orderId !in s.orders.rows || s.orders.rows[orderId].userId != user.id then
      Outcome(Fail(404, "Order not found"), s)
    else if PaymentOf(s.payments, orderId).Some? then
      Outcome(Fail(400, "Payment already exists for this order"), s)
    else
      var m := ParsePaymentMethod(payMethod);
      if m.None? then Outcome(Fail(500, "Server error while creating payment"), s)
      else
        var order := s.orders.rows[orderId];
        var p := NewPayment(order, orderId, user, m.value, notes, now, clock, suffix);
        var row := BuildPayment(PaymentDraft(Some(orderId), Some(user.id), Some(order.totalAmount), Some(m.value),
                                             Some(p.paymentStatus), p.transactionId, p.paymentDate, notes));
        if row.None? || (p.transactionId.Some? && TransactionInUse(s.payments, p.transactionId.value)) then
          Outcome(Fail(500, "Server error while creating payment"), s)
        else
          Outcome(Ok(201, "Payment created successfully", row.value),
                  s.(payments := Insert(s.payments, row.value),
                     orders := Put(s.orders, orderId, ConfirmIfPending(order))))
  }

  /** `getPaymentByOrderId`: the order's payment, shown to its payer or an admin. */
  function GetPaymentByOrderId(s: Store, user: Requester, orderId: int): (r: Response<Payment>)
    ensures Coherent(r)
    ensures r.status == 404 <==> forall k :: k in s.payments.rows ==> s.payments.rows[k].orderId != orderId
    ensures r.status == 403 ==> !IsAdmin(user)
    ensures r.status in {200, 403, 404}
    ensures r.status == 200 ==>
              && r.body.data.Some?
              && r.body.data.value.orderId == orderId
              && (r.body.data.value.userId == user.id || IsAdmin(user))
              && exists k :: k in s.payments.rows && s.payments.rows[k] == r.body.data.value
    ensures OnePaymentPerOrder(s) ==>
              forall k :: k in s.payments.rows && s.payments.rows[k].orderId == orderId ==>
                (r.status == 200 <==> s.payments.rows[k].userId == user.id || IsAdmin(user))
  {
    var k := PaymentOf(s.payments, orderId);
    if k.None? then Fail(404, "Payment not found")
    else if s.payments.rows[k.value].userId != user.id && !IsAdmin(user) then
      Fail(403, "Not authorized to access this payment")
    else Ok(200, "Payment retrieved successfully", s.payments.rows[k.value])
  }

  /** The payment just made for an order is what that order's payment lookup shows its payer,
      and no other customer may see it. */
  lemma CreatedPaymentReadable(s: Store, user: Requester, orderId: int, payMethod: string, notes: Option<string>,
                               now: nat, clock: nat, suffix: string, other: Requester)
    requires |suffix| <= 9
    requires CreatePayment(s, user, orderId, payMethod, notes, now, clock, suffix).response.status == 201
    ensures var o := CreatePayment(s, user, orderId, payMethod, notes, now, clock, suffix);
              var r := GetPaymentByOrderId(o.store, user, orderId);
              r.status == 200 && r.body.data == o.response.body.data
    ensures other.id != user.id && !IsAdmin(other) ==>
              GetPaymentByOrderId(CreatePayment(s, user, orderId, payMethod, notes, now, clock, suffix).store,
                                  other, orderId).status == 403
  {
    var o := CreatePayment(s, user, orderId, payMethod, notes, now, clock, suffix);
    assert PaymentOf(o.store.payments, orderId) == Some(s.payments.nextId);
  }

  /** `paymentStatus === 'completed' || paymentStatus === 'done'`. */
  predicate Settles(status: string) {
    status == "completed" || status == "done"
  }

  /** `updatePaymentStatus`: any status of the ENUM may replace any other. Notes are replaced
      only by a non-empty value, and a settling status stamps the payment date only if it has none. */
  function UpdatePaymentStatus(s: Store, id: int, status: string, notes: Option<string>, now: int): (o: Outcome<Payment>)
    ensures Coherent(o.response)
    ensures o.response.status == 404 <==> id !in s.payments.rows
    ensures o.response.status == 500 <==> id in s.payments.rows && ParsePaymentStatus(status).None?
    ensures o.response.status != 200 ==> o.store == s
    ensures o.response.status == 200 ==>
              && id in o.store.payments.rows
              && o.store == s.(payments := o.store.payments)
              && o.store.payments.rows.Keys == s.payments.rows.Keys
              && o.store.payments.nextId == s.payments.nextId
              && (forall k :: k in s.payments.rows && k != id ==> o.store.payments.rows[k] == s.payments.rows[k])
              && var before := s.payments.rows[id];
                 var p := o.store.payments.rows[id];
                 && PaymentStatusName(p.paymentStatus) == status
                 && p.(paymentStatus := before.paymentStatus, notes := before.notes, paymentDate := before.paymentDate) == before
                 && p.notes == (if TruthyStr(notes) then notes else before.notes)
                 && (before.paymentDate.Some? ==> p.paymentDate == before.paymentDate)
                 && (before.paymentDate.None? ==> (p.paymentDate.Some? <==> Settles(status)))
                 && (p.paymentDate != before.paymentDate ==> p.paymentDate == Some(now))
  {
    if id !in s.payments.rows then Outcome(Fail(404, "Payment not found"), s)
    else
      var st := ParsePaymentStatus(status);
      if st.None? then Outcome(Fail(500, "Server error while updating payment status"), s)
      else
        var p := s.payments.rows[id];
        var p' := p.(paymentStatus := st.value,
                     notes := if TruthyStr(notes) then notes else p.notes,
                     paymentDate := if Settles(status) && p.paymentDate.None? then Some(now) else p.paymentDate);
        Outcome(Ok(200, "Payment status updated successfully", p'), s.(payments := Put(s.payments, id, p')))
  }

  // ---------------------------------------------------------------- properties

  /** Adding a valid payment row for a stored order, with a fresh transaction id, keeps a
      consistent store consistent. */
  lemma PaymentInsertKeepsConsistency(s: Store, p: Payment)
    requires Consistent(s)
    requires p.orderId in s.orders.rows && PaymentRowValid(p)
    requires p.transactionId.Some? ==> !TransactionInUse(s.payments, p.transactionId.value)
    ensures Consistent(s.(payments := Insert(s.payments, p)))
  {
    var s' := s.(payments := Insert(s.payments, p));
    var id := s.payments.nextId;
    assert TransactionIdsUnique(s') by {
      forall a, b | a in s'.payments.rows && b in s'.payments.rows && s'.payments.rows[a].transactionId.Some?
        ensures s'.payments.rows[a].transactionId == s'.payments.rows[b].transactionId ==> a == b
      {
        if a != id && b == id {
          assert s'.payments.rows[a] == s.payments.rows[a];
        } else if a == id && b != id {
          assert s'.payments.rows[b] == s.payments.rows[b];
        }
      }
    }
  }

  /** Adding a payment row whose transaction id is fresh, and confirming the order it pays for,
      keeps a consistent store consistent. */
  lemma PaymentWriteKeepsConsistency(s: Store, s': Store, orderId: int, p: Payment)
    requires Consistent(s)
    requires orderId in s.orders.rows && p.orderId == orderId && PaymentRowValid(p)
    requires p.transactionId.Some? ==> !TransactionInUse(s.payments, p.transactionId.value)
    requires s' == s.(payments := Insert(s.payments, p), orders := Put(s.orders, orderId, ConfirmIfPending(s.orders.rows[orderId])))
    ensures Consistent(s')
  {
    var s1 := s.(orders := s'.orders);
    assert SameOrderSkeleton(s.orders, s'.orders);
    OrderEditsKeepConsistency(s, s'.orders);
    PaymentInsertKeepsConsistency(s1, p);
    assert s' == s1.(payments := Insert(s1.payments, p));
  }

  /** Paying for an order keeps a consistent store consistent. */
  lemma CreatePaymentKeepsConsistency(s: Store, user: Requester, orderId: int, payMethod: string,
                                      notes: Option<string>, now: nat, clock: nat, suffix: string)
    requires |suffix| <= 9
    requires Consistent(s)
    ensures Consistent(CreatePayment(s, user, orderId, payMethod, notes, now, clock, suffix).store)
  {
    var o := CreatePayment(s, user, orderId, payMethod, notes, now, clock, suffix);
    if o.response.status == 201 {
      var p := o.response.body.data.value;
      PaymentWriteKeepsConsistency(s, o.store, orderId, p);
    }
  }

  /** Paying for an order keeps every order to at most one payment. */
  lemma CreatePaymentKeepsOnePayment(s: Store, user: Requester, orderId: int, payMethod: string,
                                     notes: Option<string>, now: nat, clock: nat, suffix: string)
    requires |suffix| <= 9
    requires OnePaymentPerOrder(s)
    ensures OnePaymentPerOrder(CreatePayment(s, user, orderId, payMethod, notes, now, clock, suffix).store)
  {
  }

  /** Once an order has been paid for, a second payment for it is refused and changes nothing. */
  lemma SecondPaymentRefused(s: Store, user: Requester, orderId: int, payMethod: string, notes: Option<string>,
                             now: nat, clock: nat, suffix: string, payMethod2: string, notes2: Option<string>, now2: nat, clock2: nat,
                             suffix2: string)
    requires |suffix| <= 9 && |suffix2| <= 9
    requires CreatePayment(s, user, orderId, payMethod, notes, now, clock, suffix).response.status == 201
    ensures var s1 := CreatePayment(s, user, orderId, payMethod, notes, now, clock, suffix).store;
              var o := CreatePayment(s1, user, orderId, payMethod2, notes2, now2, clock2, suffix2);
              o.response.status == 400 && o.store == s1
  {
    var s1 := CreatePayment(s, user, orderId, payMethod, notes, now, clock, suffix).store;
    assert s1.payments.rows[s.payments.nextId].orderId == orderId;
  }

  /** The schema alone does not keep an order to one payment: a consistent store can hold two
      payments for the same order. Only `createPayment`'s own lookup prevents it. */
  lemma SchemaAllowsTwoPayments()
    ensures exists s: Store :: Consistent(s) && !OnePaymentPerOrder(s)
  {
    var table := Table("T1", 4, Available, None, None, None);
    var order := Order("ORD1", 1, 1, 100, Pending, None, DineIn, None, None);
    var p := Payment(1, 1, 100, Cash, PayCompleted, None, None, None);
    var s := Store(Empty(), Empty(), Empty(), Rows(map[1 := table], 2), Rows(map[1 := order], 2), Empty(),
                   Rows(map[1 := p, 2 := p], 3));
    assert s.payments.rows[1].orderId == s.payments.rows[2].orderId;
    assert Consistent(s);
  }

  /** The payment date is stamped at most once: whatever statuses follow, a dated payment keeps
      its date. */
  lemma PaymentDateStampedOnce(s: Store, id: int, status1: string, notes1: Option<string>, now1: int,
                               status2: string, notes2: Option<string>, now2: int)
    requires id in s.payments.rows && s.payments.rows[id].paymentDate.None?
    requires Settles(status1)
    ensures var s1 := UpdatePaymentStatus(s, id, status1, notes1, now1).store;
            var s2 := UpdatePaymentStatus(s1, id, status2, notes2, now2).store;
              && s1.payments.rows[id].paymentDate == Some(now1)
              && s2.payments.rows[id].paymentDate == Some(now1)
  {
    assert ParsePaymentStatus(status1).Some?;
  }

  /** Repeating a status update is harmless: the second application changes nothing. */
  lemma UpdatePaymentStatusIdempotent(s: Store, id: int, status: string, notes: Option<string>, now: int)
    ensures var s1 := UpdatePaymentStatus(s, id, status, notes, now).store;
              UpdatePaymentStatus(s1, id, status, notes, now).store == s1
  {
    var s1 := UpdatePaymentStatus(s, id, status, notes, now).store;
    if id in s.payments.rows && ParsePaymentStatus(status).Some? {
      assert UpdatePaymentStatus(s1, id, status, notes, now).store.payments.rows == s1.payments.rows;
    }
  }

  /** A status update keeps the store consistent and every order to at most one payment. */
  lemma UpdatePaymentStatusKeepsInvariants(s: Store, id: int, status: string, notes: Option<string>, now: int)
    requires Consistent(s)
    ensures Consistent(UpdatePaymentStatus(s, id, status, notes, now).store)
    ensures OnePaymentPerOrder(s) ==> OnePaymentPerOrder(UpdatePaymentStatus(s, id, status, notes, now).store)
  {
    var o := UpdatePaymentStatus(s, id, status, notes, now);
    if o.response.status == 200 {
      assert SamePaymentSkeleton(s.payments, o.store.payments);
      PaymentEditsKeepConsistency(s, o.store.payments);
    }
  }
}

=== FILE: relation.dfy ===
/** One database table: rows keyed by an auto-increment primary key. Ids are handed out
    from `nextId` upward and start at 1, so a stored id is never the falsy value 0. */
module Relation {
  import opened Wrappers

  datatype Rows<V> = Rows(rows: map<int, V>, nextId: int)

  /** Every stored key was handed out earlier by the counter. */
  predicate WellKeyed<V>(r: Rows<V>) {
    1 <= r.nextId && forall k :: k in r.rows ==> 1 <= k < r.nextId
  }

  type Rel<V> = r: Rows<V> | WellKeyed(r) witness Rows(map[], 1)

  function Empty<V>(): (r: Rel<V>)
    ensures r.rows == map[]
  {
    Rows(map[], 1)
  }

  /** `Model.create`: the row gets the next id, which was free, and no other row changes. */
  function Insert<V>(r: Rel<V>, v: V): (r': Rel<V>)
    ensures r.nextId !in r.rows
    ensures r'.rows.Keys == r.rows.Keys + {r.nextId}
    ensures r'.rows[r.nextId] == v
    ensures forall k :: k in r.rows ==> r'.rows[k] == r.rows[k]
    ensures r'.nextId == r.nextId + 1
  {
    Rows(r.rows[r.nextId := v], r.nextId + 1)
  }

  /** `instance.save()` / `instance.update()` on an existing row. */
  function Put<V>(r: Rel<V>, k: int, v: V): (r': Rel<V>)
    requires k in r.rows
    ensures r'.rows.Keys == r.rows.Keys && r'.nextId == r.nextId
    ensures r'.rows[k] == v
    ensures forall j :: j in r.rows && j != k ==> r'.rows[j] == r.rows[j]
  {
    Rows(r.rows[k := v], r.nextId)
  }

  /** `instance.destroy()`: the counter is not rewound, so the id is never reused. */
  function Delete<V>(r: Rel<V>, k: int): (r': Rel<V>)
    ensures r'.rows.Keys == r.rows.Keys - {k} && r'.nextId == r.nextId
    ensures forall j :: j in r'.rows ==> r'.rows[j] == r.rows[j]
  {
    Rows(r.rows - {k}, r.nextId)
  }

  function FindFrom<V>(r: Rel<V>, p: V -> bool, from: int): (k: Option<int>)
    decreases r.nextId - from
    ensures k.Some? ==> from <= k.value && k.value in r.rows && p(r.rows[k.value])
    ensures k.Some? ==> forall j :: from <= j < k.value && j in r.rows ==> !p(r.rows[j])
    ensures k.None? ==> forall j :: from <= j && j in r.rows ==> !p(r.rows[j])
  {
    if from >= r.nextId then None
    else if from in r.rows && p(r.rows[from]) then Some(from)
    else FindFrom(r, p, from + 1)
  }

  /** `Model.findOne({ where })`: the matching row with the lowest id, or none when no row matches. */
  function FindFirst<V>(r: Rel<V>, p: V -> bool): (k: Option<int>)
    ensures k.Some? ==> k.value in r.rows && p(r.rows[k.value])
    ensures k.Some? ==> forall j :: j < k.value && j in r.rows ==> !p(r.rows[j])
    ensures k.None? <==> forall j :: j in r.rows ==> !p(r.rows[j])
  {
    FindFrom(r, p, 1)
  }

  function ScanFrom<V>(r: Rel<V>, keep: V -> bool, from: int): (ids: seq<int>)
    decreases r.nextId - from
    ensures forall j :: 0 <= j < |ids| ==> from <= ids[j] && ids[j] in r.rows && keep(r.rows[ids[j]])
    ensures forall k :: from <= k && k in r.rows && keep(r.rows[k]) ==> k in ids
    ensures forall i, j :: 0 <= i < j < |ids| ==> ids[i] < ids[j]
  {
    if from >= r.nextId then []
    else if from in r.rows && keep(r.rows[from]) then [from] + ScanFrom(r, keep, from + 1)
    else ScanFrom(r, keep, from + 1)
  }

  /** `Model.findAll({ where })`: the ids of exactly the matching rows, each once, in ascending order. */
  function Select<V>(r: Rel<V>, keep: V -> bool): (ids: seq<int>)
    ensures forall j :: 0 <= j < |ids| ==> ids[j] in r.rows && keep(r.rows[ids[j]])
    ensures forall k :: k in r.rows && keep(r.rows[k]) ==> k in ids
    ensures forall i, j :: 0 <= i < j < |ids| ==> ids[i] < ids[j]
  {
    ScanFrom(r, keep, 1)
  }
}

=== FILE: schema.dfy ===
/** The Sequelize models `Order`, `OrderItem`, `Payment`, `Table` and `Menu` (plus the
    `User` and `Category` rows the handlers touch): their ENUM columns, their records, and the
    defaults, NOT NULL rules and string widths that `Model.create` applies. A create that breaks
    a NOT NULL rule or a width, or names a value outside an ENUM, is refused by the ORM or the
    database; the handlers turn every such refusal into a 500 reply. */
module Schema {
  import opened Wrappers

  // ---------------------------------------------------------------- ENUM columns

  datatype OrderStatus = Pending | Confirmed | Preparing | Ready | Served | Completed | Cancelled

  function OrderStatusName(s: OrderStatus): string {
    match s
    case Pending => "pending"
    case Confirmed => "confirmed"
    case Preparing => "preparing"
    case Ready => "ready"
    case Served => "served"
    case Completed => "completed"
    case Cancelled => "cancelled"
  }

  /** The value stored for a request string, or None when the ENUM refuses it. */
  function ParseOrderStatus(s: string): (r: Option<OrderStatus>)
    ensures r.Some? ==> OrderStatusName(r.value) == s
    ensures r.None? ==> forall st :: OrderStatusName(st) != s
  {
    if s == "pending" then Some(Pending)
    else if s == "confirmed" then Some(Confirmed)
    else if s == "preparing" then Some(Preparing)
    else if s == "ready" then Some(Ready)
    else if s == "served" then Some(Served)
    else if s == "completed" then Some(Completed)
    else if s == "cancelled" then Some(Cancelled)
    else None
  }

  datatype OrderType = DineIn | Takeaway

  function OrderTypeName(t: OrderType): string {
    match t
    case DineIn => "dine-in"
    case Takeaway => "takeaway"
  }

  function ParseOrderType(s: string): (r: Option<OrderType>)
    ensures r.Some? ==> OrderTypeName(r.value) == s
    ensures r.None? ==> forall t :: OrderTypeName(t) != s
  {
    if s == "dine-in" then Some(DineIn)
    else if s == "takeaway" then Some(Takeaway)
    else None
  }

  datatype ItemStatus = ItemPending | ItemPreparing | ItemReady | ItemServed

  function ItemStatusName(s: ItemStatus): string {
    match s
    case ItemPending => "pending"
    case ItemPreparing => "preparing"
    case ItemReady => "ready"
    case ItemServed => "served"
  }

  function ParseItemStatus(s: string): (r: Option<ItemStatus>)
    ensures r.Some? ==> ItemStatusName(r.value) == s
    ensures r.None? ==> forall st :: ItemStatusName(st) != s
  {
    if s == "pending" then Some(ItemPending)
    else if s == "preparing" then Some(ItemPreparing)
    else if s == "ready" then Some(ItemReady)
    else if s == "served" then Some(ItemServed)
    else None
  }

  datatype PaymentMethod = Cash | Card | Upi | Netbanking | PayAtCounter

  function PaymentMethodName(m: PaymentMethod): string {
    match m
    case Cash => "cash"
    case Card => "card"
    case Upi => "upi"
    case Netbanking => "netbanking"
    case PayAtCounter => "pay_at_counter"
  }

  function ParsePaymentMethod(s: string): (r: Option<PaymentMethod>)
    ensures r.Some? ==> PaymentMethodName(r.value) == s
    ensures r.None? ==> forall m :: PaymentMethodName(m) != s
  {
    if s == "cash" then Some(Cash)
    else if s == "card" then Some(Card)
    else if s == "upi" then Some(Upi)
    else if s == "netbanking" then Some(Netbanking)
    else if s == "pay_at_counter" then Some(PayAtCounter)
    else None
  }

  datatype PaymentStatus =
    | PayPending | Processing | PayCompleted | Failed | Refunded | Unpaid | Requested | PayDone

  function PaymentStatusName(s: PaymentStatus): string {
    match s
    case PayPending => "pending"
    case Processing => "processing"
    case PayCompleted => "completed"
    case Failed => "failed"
    case Refunded => "refunded"
    case Unpaid => "unpaid"
    case Requested => "requested"
    case PayDone => "done"
  }

  function ParsePaymentStatus(s: string): (r: Option<PaymentStatus>)
    ensures r.Some? ==> PaymentStatusName(r.value) == s
    ensures r.None? ==> forall st :: PaymentStatusName(st) != s
  {
    if s == "pending" then Some(PayPending)
    else if s == "processing" then Some(Processing)
    else if s == "completed" then Some(PayCompleted)
    else if s == "failed" then Some(Failed)
    else if s == "refunded" then Some(Refunded)
    else if s == "unpaid" then Some(Unpaid)
    else if s == "requested" then Some(Requested)
    else if s == "done" then Some(PayDone)
    else None
  }

  datatype TableStatus = Available | Occupied | Reserved | Maintenance

  function TableStatusName(s: TableStatus): string {
    match s
    case Available => "available"
    case Occupied => "occupied"
    case Reserved => "reserved"
    case Maintenance => "maintenance"
  }

  function ParseTableStatus(s: string): (r: Option<TableStatus>)
    ensures r.Some? ==> TableStatusName(r.value) == s
    ensures r.None? ==> forall st :: TableStatusName(st) != s
  {
    if s == "available" then Some(Available)
    else if s == "occupied" then Some(Occupied)
    else if s == "reserved" then Some(Reserved)
    else if s == "maintenance" then Some(Maintenance)
    else None
  }

  /** Every ENUM value is accepted under its own name, and only under it. */
  lemma {:induction false} EnumNamesRoundTrip()
    ensures forall st :: ParseOrderStatus(OrderStatusName(st)) == Some(st)
    ensures forall t :: ParseOrderType(OrderTypeName(t)) == Some(t)
    ensures forall st :: ParseItemStatus(ItemStatusName(st)) == Some(st)
    ensures forall m :: ParsePaymentMethod(PaymentMethodName(m)) == Some(m)
    ensures forall st :: ParsePaymentStatus(PaymentStatusName(st)) == Some(st)
    ensures forall st :: ParseTableStatus(TableStatusName(st)) == Some(st)
  {
    forall st: OrderStatus ensures ParseOrderStatus(OrderStatusName(st)) == Some(st) {
      match st
      case Pending => case Confirmed => case Preparing => case Ready =>
      case Served => case Completed => case Cancelled =>
    }
    forall st: PaymentStatus ensures ParsePaymentStatus(PaymentStatusName(st)) == Some(st) {
      match st
      case PayPending => case Processing => case PayCompleted => case Failed =>
      case Refunded => case Unpaid => case Requested => case PayDone =>
    }
  }

  // ---------------------------------------------------------------- rows

  /** Money is kept in integer minor units (the columns are DECIMAL(10, 2)); times are
      milliseconds since the epoch. */
  datatype Order = Order(
    orderNumber: string,
    userId: int,
    tableId: int,
    totalAmount: int,
    status: OrderStatus,
    specialInstructions: Option<string>,
    orderType: OrderType,
    estimatedPreparationTime: Option<int>,
    completedAt: Option<int>)

  datatype OrderItem = OrderItem(
    orderId: int,
    menuItemId: int,
    quantity: int,
    unitPrice: int,
    totalPrice: int,
    specialInstructions: Option<string>,
    itemStatus: ItemStatus)

  datatype Payment = Payment(
    orderId: int,
    userId: int,
    amount: int,
    paymentMethod: PaymentMethod,
    paymentStatus: PaymentStatus,
    transactionId: Option<string>,
    paymentDate: Option<int>,
    notes: Option<string>)

  datatype Table = Table(
    tableNumber: string,
    capacity: int,
    status: TableStatus,
    occupiedBy: Option<int>,
    location: Option<string>,
    notes: Option<string>)

  datatype MenuItem = MenuItem(
    name: string,
    description: Option<string>,
    price: int,
    categoryId: int,
    image: Option<string>,
    isVegetarian: bool,
    isAvailable: bool,
    preparationTime: int,
    ingredients: Option<string>)

  /** The category listing filters on an active flag; new categories are taken to be active. */
  datatype Category = Category(name: string, description: Option<string>, image: Option<string>, isActive: bool)

  /** `password` holds the stored credential; hashing it is not part of this model. */
  datatype User = User(
    name: string,
    email: string,
    password: string,
    phone: Option<string>,
    role: string,
    isActive: bool,
    lastLogin: Option<int>)

  // ---------------------------------------------------------------- column widths

  const OrderNumberWidth := 20
  const TableNumberWidth := 10
  const LocationWidth := 50
  const TransactionIdWidth := 100
  const MenuNameWidth := 100

  predicate FitsWidth(s: Option<string>, width: nat) {
    s.None? || |s.value| <= width
  }

  predicate OrderRowValid(o: Order) {
    |o.orderNumber| <= OrderNumberWidth
  }

  predicate PaymentRowValid(p: Payment) {
    FitsWidth(p.transactionId, TransactionIdWidth)
  }

  predicate TableRowValid(t: Table) {
    |t.tableNumber| <= TableNumberWidth && FitsWidth(t.location, LocationWidth)
  }

  predicate MenuRowValid(m: MenuItem) {
    |m.name| <= MenuNameWidth
  }

  // ---------------------------------------------------------------- Model.create

  /** The attributes handed to `Order.create`; None is an attribute left undefined (or null). */
  datatype OrderDraft = OrderDraft(
    orderNumber: Option<string>,
    userId: Option<int>,
    tableId: Option<int>,
    totalAmount: Option<int>,
    status: Option<OrderStatus>,
    specialInstructions: Option<string>,
    orderType: Option<OrderType>,
    estimatedPreparationTime: Option<int>,
    completedAt: Option<int>)

  /** `Order.create`: orderNumber, userId and tableId are NOT NULL and orderNumber is at most 20
      characters; status defaults to pending, orderType to dine-in, totalAmount to 0. */
  function BuildOrder(d: OrderDraft): (r: Option<Order>)
    ensures r.Some? <==>
      d.orderNumber.Some? && |d.orderNumber.value| <= OrderNumberWidth && d.userId.Some? && d.tableId.Some?
    ensures r.Some? ==> OrderRowValid(r.value)
    ensures r.Some? ==> && r.value.orderNumber == d.orderNumber.value
                        && r.value.userId == d.userId.value
                        && r.value.tableId == d.tableId.value
    ensures r.Some? ==> && r.value.totalAmount == d.totalAmount.GetOr(0)
                        && r.value.status == d.status.GetOr(Pending)
                        && r.value.orderType == d.orderType.GetOr(DineIn)
    ensures r.Some? ==> && r.value.specialInstructions == d.specialInstructions
                        && r.value.estimatedPreparationTime == d.estimatedPreparationTime
                        && r.value.completedAt == d.completedAt
  {
    if d.orderNumber.None? || |d.orderNumber.value| > OrderNumberWidth || d.userId.None? || d.tableId.None? then
      None
    else
      Some(Order(d.orderNumber.value, d.userId.value, d.tableId.value, d.totalAmount.GetOr(0),
                 d.status.GetOr(Pending), d.specialInstructions, d.orderType.GetOr(DineIn),
                 d.estimatedPreparationTime, d.completedAt))
  }

  datatype OrderItemDraft = OrderItemDraft(
    orderId: Option<int>,
    menuItemId: Option<int>,
    quantity: Option<int>,
    unitPrice: Option<int>,
    totalPrice: Option<int>,
    specialInstructions: Option<string>,
    itemStatus: Option<ItemStatus>)

  /** `OrderItem.create`: orderId, menuItemId, unitPrice and totalPrice are required; quantity
      defaults to 1 and itemStatus to pending. */
  function BuildOrderItem(d: OrderItemDraft): (r: Option<OrderItem>)
    ensures r.Some? <==> d.orderId.Some? && d.menuItemId.Some? && d.unitPrice.Some? && d.totalPrice.Some?
    ensures r.Some? ==> && r.value.orderId == d.orderId.value
                        && r.value.menuItemId == d.menuItemId.value
                        && r.value.unitPrice == d.unitPrice.value
                        && r.value.totalPrice == d.totalPrice.value
    ensures r.Some? ==> && r.value.quantity == d.quantity.GetOr(1)
                        && r.value.itemStatus == d.itemStatus.GetOr(ItemPending)
                        && r.value.specialInstructions == d.specialInstructions
  {
    if d.orderId.None? || d.menuItemId.None? || d.unitPrice.None? || d.totalPrice.None? then None
    else
      Some(OrderItem(d.orderId.value, d.menuItemId.value, d.quantity.GetOr(1), d.unitPrice.value,
                     d.totalPrice.value, d.specialInstructions, d.itemStatus.GetOr(ItemPending)))
  }

  datatype PaymentDraft = PaymentDraft(
    orderId: Option<int>,
    userId: Option<int>,
    amount: Option<int>,
    paymentMethod: Option<PaymentMethod>,
    paymentStatus: Option<PaymentStatus>,
    transactionId: Option<string>,
    paymentDate: Option<int>,
    notes: Option<string>)

  /** `Payment.create`: orderId, userId, amount and paymentMethod are required, transactionId is
      nullable and at most 100 characters, paymentStatus defaults to pending. Nothing here makes
      orderId unique. */
  function BuildPayment(d: PaymentDraft): (r: Option<Payment>)
    ensures r.Some? <==> && d.orderId.Some? && d.userId.Some? && d.amount.Some? && d.paymentMethod.Some?
                         && FitsWidth(d.transactionId, TransactionIdWidth)
    ensures r.Some? ==> PaymentRowValid(r.value)
    ensures r.Some? ==> && r.value.orderId == d.orderId.value
                        && r.value.userId == d.userId.value
                        && r.value.amount == d.amount.value
                        && r.value.paymentMethod == d.paymentMethod.value
    ensures r.Some? ==> && r.value.paymentStatus == d.paymentStatus.GetOr(PayPending)
                        && r.value.transactionId == d.transactionId
                        && r.value.paymentDate == d.paymentDate
                        && r.value.notes == d.notes
  {
    if d.orderId.None? || d.userId.None? || d.amount.None? || d.paymentMethod.None?
       || !FitsWidth(d.transactionId, TransactionIdWidth) then None
    else
      Some(Payment(d.orderId.value, d.userId.value, d.amount.value, d.paymentMethod.value,
                   d.paymentStatus.GetOr(PayPending), d.transactionId, d.paymentDate, d.notes))
  }

  datatype TableDraft = TableDraft(
    tableNumber: Option<string>,
    capacity: Option<int>,
    status: Option<TableStatus>,
    occupiedBy: Option<int>,
    location: Option<string>,
    notes: Option<string>)

  /** `Table.create`: tableNumber is required and at most 10 characters, location at most 50;
      capacity defaults to 4 and status to available. */
  function BuildTable(d: TableDraft): (r: Option<Table>)
    ensures r.Some? <==> && d.tableNumber.Some? && |d.tableNumber.value| <= TableNumberWidth
                         && FitsWidth(d.location, LocationWidth)
    ensures r.Some? ==> TableRowValid(r.value)
    ensures r.Some? ==> && r.value.tableNumber == d.tableNumber.value
                        && r.value.capacity == d.capacity.GetOr(4)
                        && r.value.status == d.status.GetOr(Available)
    ensures r.Some? ==> && r.value.occupiedBy == d.occupiedBy
                        && r.value.location == d.location
                        && r.value.notes == d.notes
  {
    if d.tableNumber.None? || |d.tableNumber.value| > TableNumberWidth || !FitsWidth(d.location, LocationWidth) then
      None
    else
      Some(Table(d.tableNumber.value, d.capacity.GetOr(4), d.status.GetOr(Available), d.occupiedBy,
                 d.location, d.notes))
  }

  datatype MenuDraft = MenuDraft(
    name: Option<string>,
    description: Option<string>,
    price: Option<int>,
    categoryId: Option<int>,
    image: Option<string>,
    isVegetarian: Option<bool>,
    isAvailable: Option<bool>,
    preparationTime: Option<int>,
    ingredients: Option<string>)

  /** `Menu.create`: name (at most 100 characters), price and categoryId are required;
      isVegetarian defaults to false, isAvailable to true and preparationTime to 15. */
  function BuildMenuItem(d: MenuDraft): (r: Option<MenuItem>)
    ensures r.Some? <==> && d.name.Some? && |d.name.value| <= MenuNameWidth
                         && d.price.Some? && d.categoryId.Some?
    ensures r.Some? ==> MenuRowValid(r.value)
    ensures r.Some? ==> && r.value.name == d.name.value
                        && r.value.price == d.price.value
                        && r.value.categoryId == d.categoryId.value
    ensures r.Some? ==> && r.value.isVegetarian == d.isVegetarian.GetOr(false)
                        && r.value.isAvailable == d.isAvailable.GetOr(true)
                        && r.value.preparationTime == d.preparationTime.GetOr(15)
    ensures r.Some? ==> && r.value.description == d.description
                        && r.value.image == d.image
                        && r.value.ingredients == d.ingredients
  {
    if d.name.None? || |d.name.value| > MenuNameWidth || d.price.None? || d.categoryId.None? then None
    else
      Some(MenuItem(d.name.value, d.description, d.price.value, d.categoryId.value, d.image,
                    d.isVegetarian.GetOr(false), d.isAvailable.GetOr(true),
                    d.preparationTime.GetOr(15), d.ingredients))
  }
}

=== FILE: tables.dfy ===
/** The table handlers of `controllers/tableController.js`: occupying and releasing a table and
    the unrestricted update. */
module Tables {
  import opened Wrappers
  import opened Relation
  import opened Schema
  import opened Helpers
  import opened Db

  /** The release step shared by every handler that frees a table: status back to available and
      the occupant cleared; number, capacity, location and notes are kept. */
  function Vacate(t: Table): (t': Table)
    ensures t'.status == Available && t'.occupiedBy.None?
    ensures t'.(status := t.status, occupiedBy := t.occupiedBy) == t
  {
    t.(status := Available, occupiedBy := None)
  }

  /** `s'` differs from `s` at most in the row `id` of the tables relation. */
  predicate OnlyTableChanged(s: Store, s': Store, id: int) {
    && s' == s.(tables := s'.tables)
    && s'.tables.rows.Keys == s.tables.rows.Keys
    && s'.tables.nextId == s.tables.nextId
    && forall k :: k in s.tables.rows && k != id ==> s'.tables.rows[k] == s.tables.rows[k]
  }

  /** `occupyTable`: only an available table can be taken; it becomes occupied by the caller and
      nothing else about it changes. */
  function OccupyTable(s: Store, user: Requester, tableId: int): (o: Outcome<Table>)
    ensures Coherent(o.response)
    ensures o.response.status == 404 <==> tableId !in s.tables.rows
    ensures o.response.status == 400 <==> tableId in s.tables.rows && s.tables.rows[tableId].status != Available
    ensures o.response.status != 200 ==> o.store == s && o.response.status in {400, 404}
    ensures o.response.status == 200 ==>
              && OnlyTableChanged(s, o.store, tableId)
              && tableId in o.store.tables.rows
              && o.store.tables.rows[tableId].status == Occupied
              && o.store.tables.rows[tableId].occupiedBy == Some(user.id)
              && Vacate(o.store.tables.rows[tableId]) == Vacate(s.tables.rows[tableId])
              && o.response.body.data == Some(o.store.tables.rows[tableId])
  {
    if tableId !in s.tables.rows then Outcome(Fail(404, "Table not found"), s)
    else
      var t := s.tables.rows[tableId];
      if t.status != Available then Outcome(Fail(400, "Table is not available"), s)
      else
        var t' := t.(status := Occupied, occupiedBy := Some(user.id));
        Outcome(Ok(200, "Table occupied successfully", t'), s.(tables := Put(s.tables, tableId, t')))
  }

  /** `releaseTable`: any existing table is vacated, whatever its state; its notes are kept. */
  function ReleaseTable(s: Store, id: int): (o: Outcome<Table>)
    ensures Coherent(o.response)
    ensures o.response.status == 404 <==> id !in s.tables.rows
    ensures o.response.status != 200 ==> o.store == s && o.response.status == 404
    ensures o.response.status == 200 ==>
              && OnlyTableChanged(s, o.store, id)
              && id in o.store.tables.rows
              && o.store.tables.rows[id].status == Available
              && o.store.tables.rows[id].occupiedBy.None?
              && o.store.tables.rows[id].notes == s.tables.rows[id].notes
              && Vacate(o.store.tables.rows[id]) == Vacate(s.tables.rows[id])
  {
    if id !in s.tables.rows then Outcome(Fail(404, "Table not found"), s)
    else
      var t' := Vacate(s.tables.rows[id]);
      Outcome(Ok(200, "Table released successfully", t'), s.(tables := Put(s.tables, id, t')))
  }

  /** The note `occupyTableById` stores: the customer's name when one is given. */
  function OccupancyNote(customerName: Option<string>): (note: string)
    ensures TruthyStr(customerName) ==> note == "Customer: " + customerName.value
    ensures !TruthyStr(customerName) ==> note == "Occupied"
  {
    if TruthyStr(customerName) then "Customer: " + customerName.value else "Occupied"
  }

  /** `occupyTableById`: like `occupyTable`, but the new status is `status || 'occupied'`, the
      occupant is always the caller (a body `occupiedBy` is ignored) and the notes are replaced.
      A status the ENUM refuses makes the update fail with 500. */
  function OccupyTableById(s: Store, user: Requester, id: int, status: Option<string>, customerName: Option<string>)
    : (o: Outcome<Table>)
    ensures Coherent(o.response)
    ensures o.response.status == 404 <==> id !in s.tables.rows
    ensures o.response.status == 400 <==> id in s.tables.rows && s.tables.rows[id].status != Available
    ensures o.response.status == 500 <==>
              && id in s.tables.rows && s.tables.rows[id].status == Available
              && ParseTableStatus(if TruthyStr(status) then status.value else "occupied").None?
    ensures o.response.status != 200 ==> o.store == s
    ensures o.response.status == 200 ==>
              && OnlyTableChanged(s, o.store, id)
              && id in o.store.tables.rows
              && var t := o.store.tables.rows[id];
                 && TableStatusName(t.status) == (if TruthyStr(status) then status.value else "occupied")
                 && t.occupiedBy == Some(user.id)
                 && t.notes == Some(OccupancyNote(customerName))
                 && Vacate(t).(notes := None) == Vacate(s.tables.rows[id]).(notes := None)
  {
    if id !in s.tables.rows then Outcome(Fail(404, "Table not found"), s)
    else
      var t := s.tables.rows[id];
      if t.status != Available then Outcome(Fail(400, "Table is not available"), s)
      else
        var requested := ParseTableStatus(if TruthyStr(status) then status.value else "occupied");
        if requested.None? then Outcome(Fail(500, "Server error while occupying table"), s)
        else
          var t' := t.(status := requested.value, occupiedBy := Some(user.id), notes := Some(OccupancyNote(customerName)));
          Outcome(Ok(200, "Table occupied successfully", t'), s.(tables := Put(s.tables, id, t')))
  }

  /** `releaseTableById`: vacates the table and also clears its notes. */
  function ReleaseTableById(s: Store, id: int): (o: Outcome<Table>)
    ensures Coherent(o.response)
    ensures o.response.status == 404 <==> id !in s.tables.rows
    ensures o.response.status != 200 ==> o.store == s && o.response.status == 404
    ensures o.response.status == 200 ==>
              && OnlyTableChanged(s, o.store, id)
              && id in o.store.tables.rows
              && o.store.tables.rows[id].status == Available
              && o.store.tables.rows[id].occupiedBy.None?
              && o.store.tables.rows[id].notes.None?
              && Vacate(o.store.tables.rows[id]).(notes := None) == Vacate(s.tables.rows[id]).(notes := None)
  {
    if id !in s.tables.rows then Outcome(Fail(404, "Table not found"), s)
    else
      var t' := Vacate(s.tables.rows[id]).(notes := None);
      Outcome(Ok(200, "Table released successfully", t'), s.(tables := Put(s.tables, id, t')))
  }

  /** The attributes of an `updateTable` body. None is an attribute the body leaves out;
      for the nullable columns `Some(None)` sets null. */
  datatype TablePatch = TablePatch(
    tableNumber: Option<string>,
    capacity: Option<int>,
    status: Option<string>,
    occupiedBy: Option<Option<int>>,
    location: Option<Option<string>>,
    notes: Option<Option<string>>)

  function Patched<T>(current: T, given: Option<T>): T {
    if given.Some? then given.value else current
  }

  /** The row `table.update(body)` would write, or None when the status is not one of the ENUM's. */
  function ApplyTablePatch(t: Table, p: TablePatch): (r: Option<Table>)
    ensures r.None? <==> p.status.Some? && ParseTableStatus(p.status.value).None?
    ensures r.Some? ==>
              && r.value.tableNumber == Patched(t.tableNumber, p.tableNumber)
              && r.value.capacity == Patched(t.capacity, p.capacity)
              && (p.status.Some? ==> TableStatusName(r.value.status) == p.status.value)
              && (p.status.None? ==> r.value.status == t.status)
              && r.value.occupiedBy == Patched(t.occupiedBy, p.occupiedBy)
              && r.value.location == Patched(t.location, p.location)
              && r.value.notes == Patched(t.notes, p.notes)
  {
    var st := if p.status.Some? then ParseTableStatus(p.status.value) else Some(t.status);
    if st.None? then None
    else
      Some(Table(Patched(t.tableNumber, p.tableNumber), Patched(t.capacity, p.capacity), st.value,
                 Patched(t.occupiedBy, p.occupiedBy), Patched(t.location, p.location), Patched(t.notes, p.notes)))
  }

  /** Whether another row already holds the table number `number`. */
  predicate NumberTakenElsewhere(tables: Rel<Table>, id: int, number: string) {
    exists k :: k in tables.rows && k != id && tables.rows[k].tableNumber == number
  }

  /** Whether the row names an occupant that is not a stored user: `occupiedBy` REFERENCES `users`. */
  predicate DanglingOccupant(users: Rel<User>, t: Table) {
    t.occupiedBy.Some? && t.occupiedBy.value !in users.rows
  }

  /** `updateTable`: any attribute may be overwritten, status and occupant included, with no check
      that they agree. Only the schema refuses: an unknown status, an over-long number or location,
      a number another table already has, or an occupant that is no user, each a 500 that leaves
      the store unchanged. */
  function UpdateTable(s: Store, id: int, patch: TablePatch): (o: Outcome<Table>)
    ensures Coherent(o.response)
    ensures o.response.status == 404 <==> id !in s.tables.rows
    ensures o.response.status == 500 <==>
              && id in s.tables.rows
              && var r := ApplyTablePatch(s.tables.rows[id], patch);
                 (|| r.None? || !TableRowValid(r.value) || NumberTakenElsewhere(s.tables, id, r.value.tableNumber)
                  || DanglingOccupant(s.users, r.value))
    ensures o.response.status != 200 ==> o.store == s
    ensures o.response.status == 200 ==>
              && OnlyTableChanged(s, o.store, id)
              && Some(o.store.tables.rows[id]) == ApplyTablePatch(s.tables.rows[id], patch)
              && TableRowValid(o.store.tables.rows[id])
              && !DanglingOccupant(s.users, o.store.tables.rows[id])
  {
    if id !in s.tables.rows then Outcome(Fail(404, "Table not found"), s)
    else
      var r := ApplyTablePatch(s.tables.rows[id], patch);
      if || r.None? || !TableRowValid(r.value) || NumberTakenElsewhere(s.tables, id, r.value.tableNumber)
         || DanglingOccupant(s.users, r.value) then
        Outcome(Fail(500, "Server error while updating table"), s)
      else
        Outcome(Ok(200, "Table updated successfully", r.value), s.(tables := Put(s.tables, id, r.value)))
  }

  // ---------------------------------------------------------------- properties

  /** A change confined to one table row that keeps the row's valid width and does not repeat
      another row's number keeps the store consistent. */
  lemma OnlyTableChangedKeepsConsistent(s: Store, s': Store, id: int)
    requires Consistent(s) && OnlyTableChanged(s, s', id)
    requires id in s'.tables.rows ==> TableRowValid(s'.tables.rows[id])
    requires id in s'.tables.rows ==> !NumberTakenElsewhere(s.tables, id, s'.tables.rows[id].tableNumber)
    ensures Consistent(s')
  {
  }

  /** `occupyTable` leaves a consistent store consistent. */
  lemma OccupyTableKeepsConsistency(s: Store, user: Requester, id: int)
    requires Consistent(s)
    ensures Consistent(OccupyTable(s, user, id).store)
  {
    if id in s.tables.rows {
      assert TableRowValid(s.tables.rows[id]);
      assert !NumberTakenElsewhere(s.tables, id, s.tables.rows[id].tableNumber);
      OnlyTableChangedKeepsConsistent(s, OccupyTable(s, user, id).store, id);
    }
  }

  /** `occupyTableById` leaves a consistent store consistent. */
  lemma OccupyTableByIdKeepsConsistency(s: Store, user: Requester, id: int, status: Option<string>,
                                        customerName: Option<string>)
    requires Consistent(s)
    ensures Consistent(OccupyTableById(s, user, id, status, customerName).store)
  {
    if id in s.tables.rows {
      assert TableRowValid(s.tables.rows[id]);
      assert !NumberTakenElsewhere(s.tables, id, s.tables.rows[id].tableNumber);
      OnlyTableChangedKeepsConsistent(s, OccupyTableById(s, user, id, status, customerName).store, id);
    }
  }

  /** The two release handlers leave a consistent store consistent. */
  lemma ReleaseKeepsConsistency(s: Store, id: int)
    requires Consistent(s)
    ensures Consistent(ReleaseTable(s, id).store)
    ensures Consistent(ReleaseTableById(s, id).store)
  {
    if id in s.tables.rows {
      assert TableRowValid(s.tables.rows[id]);
      assert !NumberTakenElsewhere(s.tables, id, s.tables.rows[id].tableNumber);
      OnlyTableChangedKeepsConsistent(s, ReleaseTable(s, id).store, id);
      OnlyTableChangedKeepsConsistent(s, ReleaseTableById(s, id).store, id);
    }
  }

  /** `updateTable` leaves a consistent store consistent. */
  lemma UpdateTableKeepsConsistency(s: Store, id: int, patch: TablePatch)
    requires Consistent(s)
    ensures Consistent(UpdateTable(s, id, patch).store)
  {
    if id in s.tables.rows {
      assert TableRowValid(s.tables.rows[id]);
      assert !NumberTakenElsewhere(s.tables, id, s.tables.rows[id].tableNumber);
      OnlyTableChangedKeepsConsistent(s, UpdateTable(s, id, patch).store, id);
    }
  }

  /** Mutual exclusion: once a table has been occupied, a second `occupyTable` by anyone is refused
      and changes nothing. */
  lemma SecondOccupyRefused(s: Store, first: Requester, second: Requester, id: int)
    requires OccupyTable(s, first, id).response.status == 200
    ensures var s1 := OccupyTable(s, first, id).store;
              OccupyTable(s1, second, id).response.status == 400 && OccupyTable(s1, second, id).store == s1
  {
  }

  /** Occupying a free, unbound table and releasing it restores the store exactly. */
  lemma OccupyReleaseRoundTrip(s: Store, user: Requester, id: int)
    requires id in s.tables.rows && s.tables.rows[id].status == Available && s.tables.rows[id].occupiedBy.None?
    ensures ReleaseTable(OccupyTable(s, user, id).store, id).store == s
  {
    var s1 := OccupyTable(s, user, id).store;
    var s2 := ReleaseTable(s1, id).store;
    assert s2.tables.rows == s.tables.rows;
  }

  /** The same round trip through the by-id handlers restores the store when the table had no notes. */
  lemma OccupyReleaseByIdRoundTrip(s: Store, user: Requester, id: int, customerName: Option<string>)
    requires id in s.tables.rows && s.tables.rows[id].status == Available
    requires s.tables.rows[id].occupiedBy.None? && s.tables.rows[id].notes.None?
    ensures OccupyTableById(s, user, id, None, customerName).response.status == 200
    ensures ReleaseTableById(OccupyTableById(s, user, id, None, customerName).store, id).store == s
  {
    var s1 := OccupyTableById(s, user, id, None, customerName).store;
    var s2 := ReleaseTableById(s1, id).store;
    assert s2.tables.rows == s.tables.rows;
  }

  /** Releasing by id twice is the same as releasing once. */
  lemma ReleaseByIdIdempotent(s: Store, id: int)
    ensures ReleaseTableById(ReleaseTableById(s, id).store, id).store == ReleaseTableById(s, id).store
  {
    var s1 := ReleaseTableById(s, id).store;
    if id in s.tables.rows {
      assert ReleaseTableById(s1, id).store.tables.rows == s1.tables.rows;
    }
  }

  /** The caller-chosen status is not checked against "occupied": `occupyTableById` with status
      "available" reports success yet leaves the table available, bound to the caller, and a
      second customer can then take it over. */
  lemma OccupyByIdCanLeaveTableFree(s: Store, first: Requester, second: Requester, id: int)
    requires id in s.tables.rows && s.tables.rows[id].status == Available
    ensures var o := OccupyTableById(s, first, id, Some("available"), None);
              && o.response.status == 200
              && o.store.tables.rows[id].status == Available
              && o.store.tables.rows[id].occupiedBy == Some(first.id)
              && OccupyTable(o.store, second, id).response.status == 200
              && OccupyTable(o.store, second, id).store.tables.rows[id].occupiedBy == Some(second.id)
  {
  }
}

=== FILE: text.dfy ===
/** The string operations of JavaScript that the handlers rely on: `startsWith`, `trim`,
    `Number.prototype.toString` for non-negative integers, `slice(-k)` and `padStart`. */
module Text {

  predicate StartsWith(s: string, prefix: string) {
    |prefix| <= |s| && s[..|prefix|] == prefix
  }

  /** The white space and line terminators that `String.prototype.trim` removes. */
  predicate IsSpace(c: char) {
    || c == ' ' || c == '\t' || c == '\n' || c == '\r' || c == '\U{000B}' || c == '\U{000C}'
    || c == '\U{00A0}' || c == '\U{1680}' || ('\U{2000}' <= c <= '\U{200A}')
    || c == '\U{2028}' || c == '\U{2029}' || c == '\U{202F}' || c == '\U{205F}'
    || c == '\U{3000}' || c == '\U{FEFF}'
  }

  predicate IsBlank(s: string) {
    forall i :: 0 <= i < |s| ==> IsSpace(s[i])
  }

  lemma BlankCons(c: char, t: string)
    requires IsSpace(c) && IsBlank(t)
    ensures IsBlank([c] + t)
  {
    forall i | 0 <= i < |[c] + t| ensures IsSpace(([c] + t)[i]) {
      if i > 0 { assert ([c] + t)[i] == t[i - 1]; }
    }
  }

  /** Drops leading white space: the result is a suffix of `s` and only spaces were dropped. */
  function TrimStart(s: string): (r: string)
    ensures |r| <= |s| && r == s[|s| - |r|..]
    ensures r == [] || !IsSpace(r[0])
    ensures IsBlank(s[..|s| - |r|])
  {
    if |s| > 0 && IsSpace(s[0]) then
      var t := s[1..];
      var r := TrimStart(t);
      var n := |s| - |r|;
      assert 1 <= n <= |s|;
      assert s[n..] == t[n - 1..];
      assert IsBlank(t[..n - 1]);
      assert s[..n] == [s[0]] + t[..n - 1];
      BlankCons(s[0], t[..n - 1]);
      r
    else s
  }

  /** Drops trailing white space: the result is a prefix of `s` and only spaces were dropped. */
  function TrimEnd(s: string): (r: string)
    ensures |r| <= |s| && r == s[..|r|]
    ensures r == [] || !IsSpace(r[|r| - 1])
    ensures IsBlank(s[|r|..])
  {
    if |s| > 0 && IsSpace(s[|s| - 1]) then
      var r := TrimEnd(s[..|s| - 1]);
      assert s[|r|..] == s[..|s| - 1][|r|..] + [s[|s| - 1]];
      r
    else s
  }

  /** `String.prototype.trim`. */
  function Trim(s: string): (r: string)
    ensures |r| <= |s|
    ensures r == [] || (!IsSpace(r[0]) && !IsSpace(r[|r| - 1]))
    ensures r == [] <==> IsBlank(s)
  {
    var a := TrimStart(s);
    var r := TrimEnd(a);
    if r == [] then
      assert a == [];
      assert s == s[..|s| - |a|];
      r
    else
      assert r[0] == a[0];
      assert !IsBlank(s) by { assert s[|s| - |a|] == a[0]; }
      r
  }

  lemma TrimStartOfTrimmed(s: string)
    requires s == [] || !IsSpace(s[0])
    ensures TrimStart(s) == s
  {
  }

  lemma TrimEndOfTrimmed(s: string)
    requires s == [] || !IsSpace(s[|s| - 1])
    ensures TrimEnd(s) == s
  {
  }

  lemma TrimOfTrimmed(t: string)
    requires t == [] || (!IsSpace(t[0]) && !IsSpace(t[|t| - 1]))
    ensures Trim(t) == t
  {
    TrimStartOfTrimmed(t);
    TrimEndOfTrimmed(t);
  }

  /** Trimming twice is trimming once. */
  lemma TrimIdempotent(s: string)
    ensures Trim(Trim(s)) == Trim(s)
  {
    TrimOfTrimmed(Trim(s));
  }

  // ---------------------------------------------------------------- decimal digits

  predicate IsDigit(c: char) {
    '0' <= c <= '9'
  }

  predicate AllDigits(s: string) {
    forall i :: 0 <= i < |s| ==> IsDigit(s[i])
  }

  lemma AllDigitsConcat(a: string, b: string)
    requires AllDigits(a) && AllDigits(b)
    ensures AllDigits(a + b)
  {
    forall i | 0 <= i < |a + b| ensures IsDigit((a + b)[i]) {
      if i >= |a| { assert (a + b)[i] == b[i - |a|]; }
    }
  }

  function DigitChar(d: nat): (c: char)
    requires d < 10
    ensures IsDigit(c)
  {
    ('0' as int + d) as char
  }

  function DigitValue(c: char): (d: nat)
    requires IsDigit(c)
    ensures d < 10 && DigitChar(d) == c
  {
    c as int - '0' as int
  }

  function Pow10(k: nat): (p: nat)
    ensures p >= 1
    ensures k >= 1 ==> p >= 10
  {
    if k == 0 then 1 else 10 * Pow10(k - 1)
  }

  /** `n.toString()` for a non-negative integer: decimal digits without leading zeros. */
  function Digits(n: nat): (s: string)
    ensures 1 <= |s| && AllDigits(s)
    ensures s[0] == '0' ==> n == 0 && |s| == 1
    ensures n < 10 <==> |s| == 1
  {
    if n < 10 then [DigitChar(n)]
    else Digits(n / 10) + [DigitChar(n % 10)]
  }

  /** The number a string of decimal digits denotes (leading zeros allowed). */
  function DigitsValue(s: string): nat
    requires AllDigits(s)
  {
    if s == [] then 0 else DigitsValue(s[..|s| - 1]) * 10 + DigitValue(s[|s| - 1])
  }

  /** A canonical decimal numeral: non-empty, digits only, no leading zero unless it is "0". */
  predicate Canonical(s: string) {
    1 <= |s| && AllDigits(s) && (s[0] == '0' ==> |s| == 1)
  }

  /** Reading back what `Digits` wrote gives the number. */
  lemma {:induction false} DigitsRoundTrip(n: nat)
    ensures DigitsValue(Digits(n)) == n
  {
    if n >= 10 {
      DigitsRoundTrip(n / 10);
      var s := Digits(n);
      assert s[..|s| - 1] == Digits(n / 10);
    }
  }

  lemma {:induction false} CanonicalValueBound(s: string)
    requires Canonical(s) && |s| >= 2
    ensures DigitsValue(s) >= 10
  {
    var p := s[..|s| - 1];
    if |p| >= 2 {
      assert p[0] == s[0];
      CanonicalValueBound(p);
    } else {
      assert p[0] == s[0];
      assert DigitsValue(p[..0]) == 0;
    }
  }

  /** Writing the value of a canonical numeral gives the numeral back. */
  lemma {:induction false} CanonicalRoundTrip(s: string)
    requires Canonical(s)
    ensures Digits(DigitsValue(s)) == s
  {
    if |s| == 1 {
      assert s[..0] == [];
      assert s == [s[0]];
    } else {
      var p := s[..|s| - 1];
      assert p[0] == s[0];
      CanonicalValueBound(s);
      if |p| >= 2 { CanonicalValueBound(p); }
      CanonicalRoundTrip(p);
      var n := DigitsValue(s);
      assert n / 10 == DigitsValue(p);
      assert n % 10 == DigitValue(s[|s| - 1]);
      assert s == p + [s[|s| - 1]];
    }
  }

  /** `s.slice(-k)` for k >= 1: the last k characters, or all of `s` when it is shorter. */
  function TakeLast(s: string, k: nat): (r: string)
    ensures |r| == if |s| <= k then |s| else k
    ensures r == s[|s| - |r|..]
  {
    if |s| <= k then s else s[|s| - k..]
  }

  lemma MulMono(a: int, b: int, c: int)
    requires 0 <= c && a <= b
    ensures a * c <= b * c
  {
  }

  /** Division with remainder has exactly one answer. */
  lemma DivModUnique(n: int, d: int, q: int, r: int)
    requires d > 0 && n == q * d + r && 0 <= r < d
    ensures n / d == q && n % d == r
  {
    var q0, r0 := n / d, n % d;
    assert n == q0 * d + r0;
    if q0 < q {
      MulMono(q0 + 1, q, d);
      assert false;
    } else if q < q0 {
      MulMono(q + 1, q0, d);
      assert false;
    }
  }

  lemma ModOfShift(n: nat, m: nat)
    requires m > 0
    ensures ((n / 10) % m) * 10 + n % 10 == n % (10 * m)
  {
    var a, b := (n / 10) / m, (n / 10) % m;
    assert n / 10 == a * m + b;
    assert n == a * (10 * m) + (b * 10 + n % 10);
    MulMono(b, m - 1, 10);
    DivModUnique(n, 10 * m, a, b * 10 + n % 10);
  }

  lemma TakeLastSnoc(p: string, c: char, k: nat)
    requires k >= 1
    ensures TakeLast(p + [c], k) == TakeLast(p, k - 1) + [c]
  {
    var s := p + [c];
    if |s| > k {
      assert s[|s| - k..] == p[|p| - (k - 1)..] + [c];
    }
  }

  lemma DigitsValueSnoc(p: string, c: char)
    requires AllDigits(p) && IsDigit(c)
    ensures AllDigits(p + [c])
    ensures DigitsValue(p + [c]) == DigitsValue(p) * 10 + DigitValue(c)
  {
    assert (p + [c])[..|p|] == p;
  }

  /** The last k decimal digits of n are digits and denote n modulo 10^k. */
  predicate LastDigitsRead(n: nat, k: nat) {
    && AllDigits(TakeLast(Digits(n), k))
    && DigitsValue(TakeLast(Digits(n), k)) == n % Pow10(k)
  }

  lemma TakeLastDigitsStep(n: nat, k: nat)
    requires n >= 10 && k >= 1
    requires LastDigitsRead(n / 10, k - 1)
    ensures LastDigitsRead(n, k)
  {
    var p := Digits(n / 10);
    var c := DigitChar(n % 10);
    var t := TakeLast(p, k - 1);
    var big := Pow10(k - 1);
    assert Pow10(k) == 10 * big;
    assert Digits(n) == p + [c];
    TakeLastSnoc(p, c, k);
    assert TakeLast(Digits(n), k) == t + [c];
    DigitsValueSnoc(t, c);
    assert DigitValue(c) == n % 10;
    ModOfShift(n, big);
  }

  lemma TakeLastNone(n: nat)
    ensures LastDigitsRead(n, 0)
  {
    assert TakeLast(Digits(n), 0) == [];
  }

  lemma TakeLastSmall(n: nat, k: nat)
    requires n < 10 && k >= 1
    ensures LastDigitsRead(n, k)
  {
    assert TakeLast(Digits(n), k) == Digits(n);
    DigitsRoundTrip(n);
    DivModUnique(n, Pow10(k), 0, n);
  }

  /** The last k decimal digits of n denote n modulo 10^k. */
  lemma {:induction false} TakeLastDigitsValue(n: nat, k: nat)
    ensures LastDigitsRead(n, k)
  {
    if k == 0 {
      TakeLastNone(n);
    } else if n < 10 {
      TakeLastSmall(n, k);
    } else {
      TakeLastDigitsValue(n / 10, k - 1);
      TakeLastDigitsStep(n, k);
    }
  }

  /** Numbers of at least 10^k have more than k digits. */
  lemma {:induction false} DigitsLengthBound(n: nat, k: nat)
    requires n >= Pow10(k)
    ensures |Digits(n)| > k
  {
    if k > 0 {
      DigitsLengthBound(n / 10, k - 1);
    }
  }

  /** `s.padStart(width, fill)`. */
  function PadStart(s: string, width: nat, fill: char): (r: string)
    ensures |r| == if |s| < width then width else |s|
    ensures r[|r| - |s|..] == s
    ensures forall i :: 0 <= i < |r| - |s| ==> r[i] == fill
  {
    if |s| < width then seq(width - |s|, _ => fill) + s else s
  }

  /** `n.toString().padStart(2, '0')` for 0 <= n < 100 is two digits that read back as n. */
  lemma PadTwoRoundTrip(n: nat)
    requires n < 100
    ensures |PadStart(Digits(n), 2, '0')| == 2
    ensures AllDigits(PadStart(Digits(n), 2, '0'))
    ensures DigitsValue(PadStart(Digits(n), 2, '0')) == n
  {
    var p := PadStart(Digits(n), 2, '0');
    DigitsRoundTrip(n);
    if n < 10 {
      assert p == ['0', DigitChar(n)];
      assert p[..1] == ['0'];
      assert p[..1][..0] == [];
    } else {
      assert Digits(n) == Digits(n / 10) + [DigitChar(n % 10)];
      assert p == Digits(n);
    }
  }

  /** `String(n)` for any integer, used in messages. */
  function IntText(n: int): (s: string)
    ensures n >= 0 ==> s == Digits(n)
    ensures n < 0 ==> s == "-" + Digits(-n)
  {
    if n < 0 then "-" + Digits(-n) else Digits(n)
  }
}

=== FILE: wrappers.dfy ===
/** Optional values: the model's rendering of JavaScript's `null` / `undefined`. */
module Wrappers {

  datatype Option<+T> = None | Some(value: T) {

    /** The wrapped value, or `default` when there is none (`x ?? default`). */
    function GetOr(default: T): T {
      match this
      case Some(v) => v
      case None => default
    }
  }

  /** JavaScript truthiness of an optional string: `undefined`, `null` and `''` are falsy. */
  predicate TruthyStr(s: Option<string>) {
    s.Some? && s.value != ""
  }

  /** JavaScript truthiness of an optional number: `undefined`, `null` and `0` are falsy. */
  predicate TruthyInt(n: Option<int>) {
    n.Some? && n.value != 0
  }
}
